=== FILE: README.md ===
# RustyBrowser core in Dafny

This project models the core of RustyBrowser, a small web browser. It covers the document pipeline:
- the document tree (`src/browser/dom.rs`);
- the markup parser (`src/browser/parser.rs`);
- the style cascade (`src/browser/style.rs`);
- block layout (`src/browser/engine.rs`);
- the value types layout produces (`src/browser/renderer.rs`).

It also models the pure decisions of the networking layer:
- resource classification and HTML decoding (`src/net/fetch.rs`);
- request kinds and their `Accept` headers (`src/net/request.rs`);
- the rate limiter, scheme check, dangerous-MIME test, header allowlist and body cap (`src/net/http.rs`).

Modules, one file each:

- `Common`: `Option` and `Result`, and the `Byte` type.
- `Strings`: the standard-library string operations the source uses, written over `seq<char>`. These are:
  - `is_whitespace`, ASCII lower-casing, `trim`;
  - `contains`;
  - `split(char)`, `split_once` and `split_whitespace`;
  - `trim_end_matches`.
- `Utf8`: the UTF-8 encoding of `str::as_bytes` and the validating decoder of `String::from_utf8`.
- `Dom`: the node graph. Nodes live in an arena and are named by index. Each node has children indices and an optional parent index, so the graph can hold every shape the source's reference-counted handles can form. That includes self-parenting and a child still listed under a former parent.
- `Parser`: the recursive-descent parser over a character cursor. Every `assert!` of the source, and every `unwrap` of a missing character, makes the whole parse `None`.
- `Renderer`: `Color`, `TextNode` and `LayoutBox`.
- `Engine`: the engine's styled node tree, `edges`, `default_style` and the layout recursion.
- `Styles`:
  - the tag-default table;
  - number, colour and border parsing;
  - inline declarations;
  - the styled tree built by `compute_styles`;
  - `hex_to_color` both as written and corrected (see Findings).
- `Fetch`: content-type classification, and the HTML text decision of `fetch_html`.
- `Request`: `RequestType`, `accept_header`, `is_preloadable` and the display names.
- `Http`: the rate limiter as a function of an explicit queue and clock, the scheme and content-type checks, the header filter and the body cap.

Two things the source reads from outside are parameters:
- the clock: `Instant::now` is the `now` argument of `Http.EnforceRateLimit`;
- the response: its headers and body are arguments of `Fetch.HtmlText`, `Http.FilterHeaders` and `Http.CapBody`.

The network and DNS are not modelled at all (see "Left out").

The source does not compile as it stands. The model follows the evident intent:
- `parser.rs:49-50` names its local string `text`, which shadows the `text` constructor it then calls.
- `parser.rs:26` returns the `Rc<Node>` of `element` where a `Node` is expected.
- `parser.rs:24` falls back on `(*rc).clone()`, but `Node` derives only `Debug` (`dom.rs:17`). The call therefore clones a `&Node` where a `Node` is expected.
- `fetch.rs:43` calls the three-parameter `fetch_url` (`http.rs:52`) with two arguments.
- `net/mod.rs:6` declares a module `requests` while the file is `request.rs`.

Three behaviours of the code are modelled as they are:
- `append_child` (`dom.rs:35-38`) has no cycle check and does not detach a child from its previous parent.
- The content width of a laid-out box (`engine.rs:85-168`) is the container width minus the box's extras, and it is not clamped at zero.
- Attribute names and values (`parser.rs:74-98`) are stored exactly as parsed, without lower-casing.

## Model

| member | source | states |
|---|---|---|
| Dom.NewNode | src/browser/dom.rs:26-32 | A new node gets the next index and the given kind, with no children and no parent. Every existing node is unchanged and a valid arena stays valid. |
| Dom.AppendChild | src/browser/dom.rs:35-38 | The child is pushed at the end of the parent's children and its parent link now names the parent. No other node changes and validity is preserved. |
| Dom.SelfAppendMakesCycle | src/browser/dom.rs:35-38 | Nothing prevents appending a node to itself: it becomes its own parent and its own child. |
| Dom.ReparentKeepsOldEdge | src/browser/dom.rs:35-38 | Appending a child that already has a parent leaves it in the previous parent's list, while its parent link moves to the new parent. |
| Dom.AppendChildren | src/browser/dom.rs:98-100 | After appending a list of children in order, the parent's children end with exactly that list. Each listed node points at the parent and every other node is unchanged. |
| Dom.MakeElement | src/browser/dom.rs:92-103 | `element` creates a fresh element with the lower-cased tag, the given attributes and exactly the given children in order. Each child now points back at it and every other node is untouched. |
| Dom.MakeText | src/browser/dom.rs:106-108 | `text` appends one childless, parentless text node that holds its content verbatim. |
| Dom.MakeComment | src/browser/dom.rs:111-113 | `comment` appends one childless, parentless comment node that holds its content verbatim. |
| Dom.AccessorsByKind | src/browser/dom.rs:51-64 | `tag_name` answers exactly for elements and `text_content` exactly for text nodes. A comment gets neither. |
| Dom.TagName | src/browser/dom.rs:51-56 | A tag name is returned exactly for an element, and it is the element's own tag. |
| Dom.TextContent | src/browser/dom.rs:59-64 | Text is returned exactly for a text node, and it is the node's own content. |
| Dom.GetAttr | src/browser/dom.rs:67-72 | A non-element has no attributes. On an element a name is found exactly when it is a key of the attribute map, and the value found is the one stored under it. |
| Dom.SetAttr | src/browser/dom.rs:75-79 | A non-element is returned unchanged. On an element the attribute map gets the name bound to the value, all other names keep their values, and the tag, children and parent stay the same. |
| Dom.SetThenGet | src/browser/dom.rs:67-79 | After `set_attr` on an element the name reads back as the value, unmodified. Every other name reads as before. Non-elements are unchanged, and the tag, children and parent are never touched. |
| Parser.Expect | src/browser/parser.rs:100-106 | Reading one character and asserting it succeeds exactly when that character is at the cursor, and moves the cursor past it. |
| Parser.ConsumeWhile | src/browser/parser.rs:116-125 | The cursor stops at the end of the maximal run of characters that pass the test. |
| Parser.ConsumeWhitespace | src/browser/parser.rs:127-129 | The cursor stops at the first non-whitespace character or at the end. |
| Parser.ParseTagName | src/browser/parser.rs:70-72 | A tag name is the maximal alphanumeric run at the cursor, possibly empty. |
| Parser.ParseAttrValue | src/browser/parser.rs:92-98 | A value succeeds exactly when it opens with a quote that occurs again later. The value is the text between, which does not contain that quote. |
| Parser.ParseAttribute | src/browser/parser.rs:82-86 | An attribute succeeds exactly when an `=`, optionally surrounded by whitespace, and a quoted value follow the name. The name is the alphanumeric run. |
| Parser.ParseAttributes | src/browser/parser.rs:74-90 | The attribute loop stops in front of `>`. Keys present before the loop are never removed. |
| Parser.AttributesInOrder | src/browser/parser.rs:74-90 | The loop succeeds exactly when the tag's attribute list parses. Its map is that list inserted left to right. |
| Parser.DuplicateNamesLastWins | src/browser/parser.rs:87 | A name given several times in one tag carries its last value. A name never given is absent. |
| Parser.ParseText | src/browser/parser.rs:48-51 | A text node holds everything up to the next `<` or the end, and is non-empty when not at `<`. |
| Parser.ParseNodes | src/browser/parser.rs:30-38 | The node loop stops at the end or in front of `</`. It returns fresh parentless roots with strictly increasing ids, that is in the order they were read, over an arena that only grew. Every fresh node without a parent is among the returned ids, so no node read is lost. Each child precedes its parent and points back at it. |
| Parser.ParseNode | src/browser/parser.rs:40-46 | The node is an element exactly when the cursor is at `<`. Otherwise the parse always succeeds with a text node that holds exactly the characters consumed. A successful parse consumes at least one character. The node returned is the only fresh node without a parent: everything else it created hangs below it. |
| Parser.ParseElement | src/browser/parser.rs:53-68 | A successful element starts at `<` and is built over an arena that only grew. It is an element with the lower-cased opening name, and the input just before the cursor is `</` followed by that name, unchanged, and `>`. That closing tag starts exactly where the children stop: the cursor is the children's end plus the name's length plus three. |
| Parser.OpenTag | src/browser/parser.rs:54-57 | The opening tag is read exactly when a `<` is followed by a name and an attribute list that stops at `>`. It carries that name as written, the attributes, and the position after `>`. |
| Parser.ElementParts | src/browser/parser.rs:53-68 | `parse_element` fails when the opening tag or the children fail. Otherwise it is the closing step applied to the children read after the opening tag. |
| Parser.ElementIff | src/browser/parser.rs:53-68 | An element parses exactly when its opening tag and its children are read and a matching closing tag starts where the children stop. It is then a new node with the lower-cased opening name and the attributes around exactly the children, in order. The cursor ends right after that closing tag. |
| Parser.ClosingNameMatches | src/browser/parser.rs:59-65 | In every parsed element, `</` follows the children directly, the name read after it is the opening name character for character, and `>` follows. The cursor ends right after that `>`. |
| Parser.MismatchedNameFails | src/browser/parser.rs:61-64 | Whatever the input, an element fails when the name after the `</` where its children stop differs from the opening name, in case or in length. |
| Parser.FailingChildFails | src/browser/parser.rs:59 | An element whose first child is an element that fails fails as well. |
| Parser.FailingFirstNode | src/browser/parser.rs:33-34 | The node loop fails when the first node is an element that fails. |
| Parser.TextOnlyDocument | src/browser/parser.rs:21-51 | A document without `<` is one text node holding everything after the leading whitespace. A blank document is an empty `html` element. |
| Parser.PlainTagOpens | src/browser/parser.rs:54-57 | `<tag>` is read as the opening tag `tag` without attributes. |
| Parser.AttributeTagOpens | src/browser/parser.rs:54-57 | `<tag name="value">` is read as the opening tag `tag` with exactly that one attribute. |
| Parser.OneAttribute | src/browser/parser.rs:74-98 | A space, `name="value"` and then `>` give exactly the one attribute, and the loop stops in front of `>`. |
| Parser.EndTagCloses | src/browser/parser.rs:61-65 | `</tag>` closes an element opened as `tag`, and the cursor ends after it. |
| Parser.TextBeforeEndTag | src/browser/parser.rs:30-51 | A run without `<` that ends in front of `</` gives exactly one text node holding the run. The loop then stops in front of the closing tag. |
| Parser.OnlyElement | src/browser/parser.rs:30-46 | An element followed by `</` is the only node the loop returns, and the loop stops there. |
| Parser.WrapsLastNode | src/browser/parser.rs:53-68 | An element whose only child is the last node created: that child's parent becomes the element, and the element is appended right after it. |
| Parser.SingleElementDocument | src/browser/parser.rs:21-24 | A document that is one element from first character to last is that element's node itself, with no `html` wrapper. |
| Parser.SampleDocumentParses | src/browser/parser.rs:21-68 | `<div><p style="color:red;">Hi</p></div>` parses to three nodes. They are the text `Hi`, under a `p` element with that one style attribute, under the root `div`, and each child points at its parent. |
| Parser.ClosingTagEnd | src/browser/parser.rs:61-65 | The closing tag is read at a position exactly when `</name>` is spelled there and the name read after `</` is the opening name itself, not a longer one. The cursor then ends right after it, the name's length plus three further on. |
| Parser.CloseElement | src/browser/parser.rs:61-67 | Closing succeeds exactly when `</`, the opening name unchanged, and `>` follow the children directly, and the cursor ends right after them. The new node is then the lower-cased name and the attributes around exactly the parsed children, in order, with no parent. Those children now point at it and every other node is unchanged. |
| Parser.Wrap | src/browser/parser.rs:67 | Building the element around fresh roots keeps the arena invariants. The new node holds exactly those children in order and has no parent. |
| Parser.Parse | src/browser/parser.rs:21-28 | The document is the single top-level node when exactly one was parsed. Otherwise it is an `html` element around all of them in order. It fails exactly when the node loop fails. The document's root is the only fresh node without a parent. |
| Parser.ParseBuildsForest | src/browser/parser.rs:21-38 | A parsed document has every child created before its parent. Every text node is a non-empty run without `<` that does not start with whitespace. |
| Parser.StrayClosingTagUnread | src/browser/parser.rs:33 | A stray closing tag at the top level stops the loop unread, leaving an empty `html` element. |
| Parser.SpanClosedByDivFails | src/browser/parser.rs:61-64 | In `<div><span></div>`, the `span` element fails because `</div>` does not repeat its name (an instance of `Parser.MismatchedNameFails`). |
| Parser.ElementThenSiblings | src/browser/parser.rs:30-38 | When an element is read and the loop then reads its siblings, the loop returns the element's id first, followed by the siblings' ids, and ends where the siblings end. |
| Parser.ElementThenOne | src/browser/parser.rs:30-38 | An element followed by exactly one sibling gives the two ids, the element's first. |
| Parser.LastElement | src/browser/parser.rs:30-38 | An element that runs to the end of the input is the last node the loop returns. |
| Parser.LetterParagraphParses | src/browser/parser.rs:53-68 | `<p>c</p>` with one letter `c` appends the text `c` and then the `p` element around it, and the cursor moves past the closing tag. |
| Parser.TwoParagraphsParse | src/browser/parser.rs:21-38 | `<p>a</p><p>b</p>` parses into five nodes: the two paragraphs with their texts, both under a new `html` root that lists them in document order. |
| Parser.MismatchedClosingTagFails | src/browser/parser.rs:53-68 | `<div><span></div>` fails as a whole, because `</div>` is read as the closing tag of `span` (an instance of `Parser.FailingChildFails`). |
| Engine.Edges | src/browser/engine.rs:171-178 | `edges` gives the same length on all four sides. |
| Engine.DefaultStyle | src/browser/engine.rs:181-193 | The sample style's display, colours, border width, edges, font size and family, field by field. |
| Engine.LayoutBoxOf | src/browser/engine.rs:85-168 | A display-none node gives the empty box whatever its subtree. Otherwise the box sits inside margin, border and padding, and is the container width minus its horizontal extras. It carries the node's background and border, a text run for a text node, and one child box per child. |
| Engine.LayoutTree | src/browser/engine.rs:76-82 | The root is laid out from the origin in a container of the given width. |
| Engine.LayoutChildren | src/browser/engine.rs:117-135 | The child loop lays out one box for each remaining child. |
| Engine.ChildAt | src/browser/engine.rs:120-135 | Child box `k` lies at the parent's x, at the parent's y plus the heights of the earlier child boxes, each followed by the parent's gap. |
| Engine.ChildrenTotal | src/browser/engine.rs:117-135 | The height the child loop accumulates is the stacked height of the child boxes. |
| Engine.ChildPlacement | src/browser/engine.rs:121-127 | Every child of a laid-out node is laid out in the same container, below its earlier siblings. A display-none child is the empty box. |
| Engine.BoxHeight | src/browser/engine.rs:117-153 | A box's height is the sum of three parts: its stacked children; font size plus vertical padding for text; and 20 for an element without children. |
| Engine.LeafHeights | src/browser/engine.rs:137-153 | A childless element is 20 high and a childless text node is its font size plus vertical padding. An element whose children are all display-none is only the gaps high. |
| Engine.SizeIgnoresOffset | src/browser/engine.rs:85-168 | A box's width and height do not depend on where it is placed. |
| Styles.TagDefault | src/browser/style.rs:62-109 | The tag-default table: `body`, `h1`, `p` and `div` get their fixed block styles, and any other tag gets the text style. Its properties are stated by `Styles.TagDefaults`. |
| Styles.TagDefaults | src/browser/style.rs:62-109 | Exactly `body`, `h1`, `p` and `div` are blocks, and none of the defaults has a border. Only `body` has a background, and every other tag gets the text style. |
| Styles.NodeStyles | src/browser/style.rs:18-59 | Text gets the fixed inline style. A comment gets the same style, not displayed. An element is displayed as its tag default says, and only comments are hidden. |
| Styles.ParseNumber | src/browser/style.rs:138 | A decimal number parses only if it has a digit. Its sign decides the sign of the value. |
| Styles.ParseNatText | src/browser/style.rs:137-141 | A printed natural number parses back to itself, with or without a trailing `px`. |
| Styles.HexPair | src/browser/style.rs:187-189 | `from_str_radix` on two characters succeeds exactly on two hex digits, giving 16 times the first plus the second, or on `+` followed by one digit, giving that digit. |
| Styles.HexToColor | src/browser/style.rs:185-194 | Only six characters give a colour. Each channel is read from its pair, and alpha is 255. |
| Styles.HexRoundTrip | src/browser/style.rs:185-194 | An opaque colour printed as `rrggbb` reads back as itself. |
| Styles.HexReadBack | src/browser/style.rs:185-194 | A colour read from six characters without `+` prints back as their lower-case form. |
| Styles.PlusSignedPairs | src/browser/style.rs:187-189 | `+f+0+a` is accepted as the colour (15, 0, 10). |
| Styles.ParseColor | src/browser/style.rs:170-182 | The text is trimmed and lower-cased. The five names give their fixed colours, and any other text starting with `#` is read by `hex_to_color` from the rest. A colour results exactly in those two cases, and it is always opaque. |
| Styles.ParseColorIgnoresCase | src/browser/style.rs:170-182 | Colour texts that differ only in ASCII case parse alike. |
| Styles.ColorRoundTrip | src/browser/style.rs:170-182 | `#` followed by the `rrggbb` text of an opaque colour parses back to the colour. |
| Styles.ParseBorder | src/browser/style.rs:158-167 | A border parses exactly when it has three words, the first a number with an optional `px` and the third a colour. The width is that number and the colour is the third word's. |
| Styles.BorderStyleIgnored | src/browser/style.rs:158-167 | The middle word of a border never matters. |
| Styles.BorderRoundTrip | src/browser/style.rs:158-167 | `<n>px <style> #rrggbb` gives width `n` and the colour. |
| Styles.ApplyProperty | src/browser/style.rs:126-152 | Each key changes only its own fields, and only when its value parses. `font-family` takes the value as it is. Unknown keys, display, margin and padding are never changed. |
| Styles.ApplyDeclaration | src/browser/style.rs:121-125 | A rule without a colon is ignored, and no rule changes display, margin or padding. |
| Styles.DeclarationParts | src/browser/style.rs:122-124 | The key is the text before the first colon, trimmed and lower-cased. The value is the rest, trimmed. |
| Styles.ApplyRules | src/browser/style.rs:121 | Rules applied in order never change display, margin or padding. |
| Styles.ApplyInlineStyles | src/browser/style.rs:120-155 | An inline style never changes display, margin or padding. |
| Styles.InlineComposes | src/browser/style.rs:120-155 | The declarations of `x;y` are those of `x` followed by those of `y`. |
| Styles.LastRuleApplied | src/browser/style.rs:120-155 | A final rule is applied after all the rules before it. |
| Styles.LastFontFamilyWins | src/browser/style.rs:142-144 | The last `font-family` declaration decides the family, trimmed and otherwise verbatim. |
| Styles.ComputeStyleForElement | src/browser/style.rs:62-117 | An element's style is its tag default, overridden only by its `style` attribute. That override never changes the default's display, margin or padding. |
| Styles.StyleAttributeApplied | src/browser/style.rs:111-114 | When the `style` attribute ends with a rule, the element's style is the tag default with the earlier rules applied and then that rule. |
| Styles.TrailingSemicolonIgnored | src/browser/style.rs:120-122 | A trailing `;` leaves an empty last rule, which changes nothing. |
| Styles.SingleRule | src/browser/style.rs:120-122 | A text without `;` is applied as one declaration. |
| Styles.ColorDeclaration | src/browser/style.rs:122-131 | `color:` sets the colour its trimmed value names, and keeps the old colour when the value is not a colour. |
| Styles.InlineColorWins | src/browser/style.rs:111-131 | A `color` declaration as the last rule of the `style` attribute decides the element's colour when its value is a colour. Otherwise the colour the earlier rules gave stays. |
| Styles.RedIsNamed | src/browser/style.rs:176 | `red` is the opaque colour (255, 0, 0). |
| Styles.InlineRedParagraph | src/browser/style.rs:62-131 | A `p` element with `style="color:red;"` is red. |
| Styles.SampleDocumentStyled | src/browser/style.rs:18-131 | `<div><p style="color:red;">Hi</p></div>` parses and can be styled from its root. The root has exactly one styled child, the paragraph, and it is red. |
| Styles.ComputeStyles | src/browser/style.rs:18-36 | A styled node keeps the node's kind, gets the style its kind calls for, and has one styled child per child. |
| Styles.ChildrenStyled | src/browser/style.rs:25-29 | Styled child `k` is the styled tree of child `k`. |
| Styles.RankIrrelevant | src/browser/style.rs:18-36 | The styled tree does not depend on the ranking that witnesses termination. |
| Styles.ParsedDocumentStyles | src/browser/style.rs:18 | Every parsed document can be styled from its root. |
| Styles.HexToColorAsWritten | src/browser/style.rs:185-194 | `hex_to_color` as written: a text that is not six bytes long gives no colour. A panic happens only on six bytes where a slice end, at byte 2 or 4, falls inside a character. A colour returned is opaque. |
| Styles.HexAsWrittenOnAscii | src/browser/style.rs:185-194 | On ASCII text, the byte-counting `hex_to_color` agrees with the corrected one. |
| Styles.HexAsWrittenPanics | src/browser/style.rs:186-187 | `aé123` is six bytes long, and slicing its first two bytes cuts `é` in half: a panic where the corrected version returns no colour. |
| Styles.PanickingColorReached | src/browser/style.rs:179 | `parse_color` passes `aé123` from `#aé123` to `hex_to_color` unchanged. |
| Fetch.DetectType | src/net/fetch.rs:67-79 | The class is one whose test the lower-cased type passes, and no class tried earlier passes. |
| Fetch.FirstMatchWins | src/net/fetch.rs:67-79 | A class whose test passes while no earlier class's test passes is the class detected. |
| Fetch.DetectIgnoresCase | src/net/fetch.rs:68 | Types that differ only in ASCII case are classified alike. |
| Fetch.ContentTypeOf | src/net/fetch.rs:45-49 | The type is the exact `Content-Type` entry, or `application/octet-stream` when there is none. |
| Fetch.DefaultIsOther | src/net/fetch.rs:49-51 | The default type passes no class test and is `Other`. |
| Fetch.Classify | src/net/fetch.rs:45-51 | The reported type is the exact `Content-Type` entry. The class is one whose test the lower-cased type passes, and no class tried earlier passes. Without the header, the type is `application/octet-stream` and the class is `Other`. |
| Fetch.Latin1 | src/net/fetch.rs:90 | The fallback text has one character per byte, with the byte's code. |
| Fetch.HtmlText | src/net/fetch.rs:85-96 | Anything but HTML is a mismatch carrying the type. Valid UTF-8 gives the text that encodes to the body, and otherwise each byte becomes one character. The empty-content error can never be produced. |
| Fetch.Utf8BodyUnchanged | src/net/fetch.rs:89 | HTML sent as UTF-8 comes back unchanged. |
| Fetch.UntypedIsMismatch | src/net/fetch.rs:45-87 | A response without the exact `Content-Type` header is refused as not HTML. |
| Fetch.MissingTypeReadTwice | src/net/fetch.rs:49 | A missing type passes the transport as `unknown`, but the default the fetch layer substitutes for it is a type the transport refuses. |
| Utf8.DecodeEncode | src/net/fetch.rs:89 | Every string's encoding is valid UTF-8 and decodes to the string. |
| Utf8.EncodeDecode | src/net/fetch.rs:89 | A successful decode loses nothing: the text re-encodes to the bytes. |
| Request.Name | src/net/request.rs:38-50 | A display name is a capital letter followed by lower-case letters. |
| Request.FromName | src/net/request.rs:38-50 | A name read back gives a kind that prints as that name. |
| Request.NameRoundTrip | src/net/request.rs:38-50 | Every kind's display name reads back as the kind. |
| Request.NamesDistinct | src/net/request.rs:38-50 | No two kinds share a display name. |
| Request.AcceptHeader | src/net/request.rs:17-27 | Every `Accept` header names a media type, so it contains a `/`. |
| Request.KindOfAccept | src/net/request.rs:17-27 | A header read back gives a kind whose `Accept` header it is. |
| Request.AcceptRoundTrip | src/net/request.rs:17-27 | Every kind's `Accept` header leads back to the kind. |
| Request.AcceptHeadersDistinct | src/net/request.rs:17-27 | No two kinds send the same `Accept` header. |
| Request.IsPreloadable | src/net/request.rs:30-35 | The preloadable kinds are style sheets, scripts and fonts. The property is stated by `Request.PreloadableKinds`. |
| Request.PreloadableKinds | src/net/request.rs:30-35 | Exactly style sheets, scripts and fonts are preloadable. |
| Http.Prune | src/net/http.rs:123-126 | Pruning drops a prefix of the queue, each dropped entry more than a window old, and stops at an entry at most a window old. |
| Http.EnforceRateLimit | src/net/http.rs:119-135 | The call is refused exactly when ten recent calls remain. A refusal records nothing, while an acceptance appends `now` and leaves at most ten entries. |
| Http.WindowIsInclusive | src/net/http.rs:124 | An entry exactly a window old is kept. |
| Http.BoundKept | src/net/http.rs:128-133 | The queue never grows beyond ten entries. |
| Http.SortedKept | src/net/http.rs:119-135 | With a clock that does not go back, the queue stays oldest first. |
| Http.PruneIsRecent | src/net/http.rs:123-126 | On a sorted queue, pruning the front keeps exactly the entries at most a window old. |
| Http.RunInvariant | src/net/http.rs:119-135 | Over any series of calls with a clock that does not go back, the queue is always the accepted calls of the last window. It is oldest first and never more than ten long. |
| Http.AtMostTenPerWindow | src/net/http.rs:48-49 | At any call, at most ten calls were accepted within the preceding window, that call included. |
| Http.CheckScheme | src/net/http.rs:138-148 | `https` always passes and `http` passes unless HTTPS is enforced. Refused `http` is an insecure scheme, and anything else is an invalid URL. |
| Http.CheckContentType | src/net/http.rs:82-88 | The lower-cased type, or `unknown` when the header is missing, is refused exactly when it contains a dangerous type. The error carries it. |
| Http.ContentTypeIgnoresCase | src/net/http.rs:82-88 | Headers that differ only in ASCII case are judged alike. |
| Http.IsDangerousMime | src/net/http.rs:170-175 | A type is dangerous when it contains one of the four listed types. The property is stated by `Http.CheckContentType` and `Http.DangerousInContext`. |
| Http.NothingDangerous | src/net/http.rs:170-175 | A lower-case type shorter than every dangerous type is accepted. |
| Http.DangerousInContext | src/net/http.rs:170-175 | A dangerous type anywhere inside a header, in any case, is refused. |
| Http.FilterHeaders | src/net/http.rs:90-100 | A name is kept exactly when it is among the response's names, allowed after lower-casing and present. It is kept under its own spelling with its value. |
| Http.CapBody | src/net/http.rs:102-107 | The body kept is its first mebibyte, or all of it when shorter. |

## Left out

- Painting: rasterising boxes, loading fonts, drawing glyphs and saving images (`renderer.rs:49-216`) are output, not logic. Only the value types are modelled.
- Debugging and sample helpers are left out: `print_tree`, `sample_dom_tree`, and `get_children`/`get_children_mut`, which are plain borrows.
- The network side of `fetch_url` is left out:
  - the HTTP agent;
  - DNS resolution and the rebinding check;
  - `is_blocked_ip`;
  - certificate pinning, which is switched off by a `None` constant;
  - logging and timing.
- `Url::parse` is left out. `Http.CheckScheme` receives the scheme it would have extracted.
- The global `Mutex` around the rate limiter is left out. `Http.EnforceRateLimit` takes the queue and the current instant and returns the new queue, so concurrent callers are not modelled.
- The `fetch_url` pipeline as one function is not modelled. Its decisions are modelled one by one, in the order the source makes them, as `EnforceRateLimit`, `CheckScheme`, `CheckContentType`, `FilterHeaders` and `CapBody`.
- Parser.Parse: with exactly one top-level node, `Rc::try_unwrap` (`parser.rs:24`) moves the node out of its reference-counted cell, which is then freed. The node's children keep `Weak` parent links to that cell (`dom.rs:36`), and those links no longer upgrade. The model returns the node in place, with its children still pointing at it, so the dangling parent links are not modelled.
- Parser.Expect: the source's cursor is a byte offset, and `consume_char` advances by one byte past the last character of the input (`parser.rs:103`). The model's cursor counts characters, so the panics this causes for a multi-byte final character are not modelled.
- Parser.ParseTagName: `char::is_alphanumeric` is modelled on ASCII letters and digits only. Non-ASCII letters end a tag name here.
- Dom.MakeElement: `str::to_lowercase` is modelled as ASCII lower-casing, so non-ASCII upper-case letters in a tag keep their case here.
- Styles.ApplyDeclaration: the key's `str::to_lowercase` is modelled as ASCII lower-casing, so non-ASCII upper-case letters in a key keep their case here.
- Styles.ParseColor: the value's `str::to_lowercase` is modelled as ASCII lower-casing, so non-ASCII upper-case letters in a colour keep their case here.
- Http.CheckContentType: the header's `str::to_lowercase` is modelled as ASCII lower-casing, so non-ASCII upper-case letters in a content type keep their case here.
- Styles.ParseNumber: only sign, digits and one decimal point are read. Exponents, `inf` and `nan` are not. The value is the exact decimal rather than the nearest `f32`.
- Engine.LayoutBoxOf: lengths are reals, and `f32` rounding is not modelled.
- Styles.ComputeStyles: the source's recursion terminates only on acyclic trees, so the model requires a ranking of the nodes below the root. `Styles.ParsedDocumentStyles` shows every parsed document has one. On a cyclic graph built with `append_child` the source overflows its stack, which is not modelled.
- Http.FilterHeaders: the response's header lookup is a parameter. How the HTTP library spells or folds header names is not part of this model.
- Fetch.UntypedIsMismatch: whether a server's `content-type` header, spelled differently from `Content-Type`, reaches `fetch_resource` depends on the HTTP library, which is not part of this model.

## Findings

| source | as written | input that shows it | evidently intended | confidence | as-written member | corrected member |
|---|---|---|---|---|---|---|
| src/browser/style.rs:185-189 | `hex.len()` counts UTF-8 bytes and `&hex[0..2]` slices bytes, so a non-ASCII character can make a six-byte text whose slice ends inside a character, and slicing there panics | an inline `color: #aé123` (`aé123` is six bytes) | reject any text that is not six hex digits and return no colour | not executed | Styles.HexAsWrittenPanics | Styles.HexToColor |

=== FILE: common.dfy ===
/** Failure-carrying wrappers and the byte type shared by every module. */
module Common {

  /** The `Option` of the modelled program: a value or nothing. */
  datatype Option<+T> = None | Some(value: T) {

    predicate IsFailure() {
      None?
    }

    function PropagateFailure<U>(): Option<U>
      requires None?
    {
      None
    }

    function Extract(): T
      requires Some?
    {
      value
    }

    /** The wrapped value, or `default` when there is none. */
    function GetOr(default: T): T {
      match this
      case Some(v) => v
      case None => default
    }
  }

  /** The `Result` of the modelled program: a value or an error. */
  datatype Result<+T, +E> = Success(value: T) | Failure(error: E)

  /** An unsigned 8-bit integer (`u8`). */
  type Byte = x: int | 0 <= x < 256
}

=== FILE: dom.dfy ===
/**
  The document tree of src/browser/dom.rs.

  The source shares nodes through reference-counted handles and keeps a weak back-link to
  the parent. Here every node lives in an `Arena` and is named by its index; a node's
  children are indices and its parent link is an optional index. Appending does not check
  for cycles and does not detach the child from a previous parent, exactly as in the source,
  so the arena can hold any graph the source's handles can form.
*/
module Dom {
  import opened Common
  import opened Strings

  type NodeId = nat

  /** Attribute map of an element: one value per name. */
  type AttrMap = map<string, string>

  datatype ElementData = ElementData(tagName: string, attrs: AttrMap)

  /** What kind of node this is. */
  datatype NodeType =
    | Text(text: string)
    | Element(element: ElementData)
    | Comment(comment: string)

  /** One node: its kind, its children in order, and the back-link to its parent. */
  datatype NodeRecord = NodeRecord(nodeType: NodeType, children: seq<NodeId>, parent: Option<NodeId>)

  /** Every node ever created, indexed by `NodeId`. */
  datatype Arena = Arena(nodes: seq<NodeRecord>)

  predicate Contains(a: Arena, id: NodeId) {
    id < |a.nodes|
  }

  /** Every child and parent link names a node of the arena. */
  predicate Valid(a: Arena) {
    forall i :: 0 <= i < |a.nodes| ==>
      (forall c :: c in a.nodes[i].children ==> c < |a.nodes|)
      && (a.nodes[i].parent.Some? ==> a.nodes[i].parent.value < |a.nodes|)
  }

  /** The result of an operation that creates a node. */
  datatype Created = Created(arena: Arena, id: NodeId)

  /** `Node::new`: a fresh node with no children and no parent; existing nodes are untouched. */
  function NewNode(a: Arena, nodeType: NodeType): (r: Created)
    ensures r.id == |a.nodes| && |r.arena.nodes| == |a.nodes| + 1
    ensures r.arena.nodes[r.id].nodeType == nodeType
    ensures r.arena.nodes[r.id].children == [] && r.arena.nodes[r.id].parent == None
    ensures r.arena.nodes[..|a.nodes|] == a.nodes
    ensures Valid(a) ==> Valid(r.arena)
  {
    Created(Arena(a.nodes + [NodeRecord(nodeType, [], None)]), |a.nodes|)
  }

  /**
    `Node::append_child`: points the child's parent link at `parent`, then pushes the child
    onto the parent's children. There is no check for self-append or cycles, and a previous
    parent keeps the child in its own list.
  */
  function AppendChild(a: Arena, parent: NodeId, child: NodeId): (r: Arena)
    requires Contains(a, parent) && Contains(a, child)
    ensures |r.nodes| == |a.nodes|
    ensures r.nodes[parent].children == a.nodes[parent].children + [child]
    ensures r.nodes[child].parent == Some(parent)
    ensures r.nodes[parent].nodeType == a.nodes[parent].nodeType
    ensures r.nodes[child].nodeType == a.nodes[child].nodeType
    ensures child != parent ==> r.nodes[child].children == a.nodes[child].children
    ensures child != parent ==> r.nodes[parent].parent == a.nodes[parent].parent
    ensures forall i :: 0 <= i < |a.nodes| && i != parent && i != child ==> r.nodes[i] == a.nodes[i]
    ensures Valid(a) ==> Valid(r)
  {
    var linked := a.nodes[child := a.nodes[child].(parent := Some(parent))];
    Arena(linked[parent := linked[parent].(children := linked[parent].children + [child])])
  }

  /** Appending a node to itself makes it its own parent and its own last child. */
  lemma SelfAppendMakesCycle(a: Arena, n: NodeId)
    requires Contains(a, n)
    ensures var r := AppendChild(a, n, n);
      r.nodes[n].parent == Some(n) && n in r.nodes[n].children
  {
  }

  /** Re-parenting a node leaves it in the children of its previous parent. */
  lemma ReparentKeepsOldEdge(a: Arena, previous: NodeId, parent: NodeId, child: NodeId)
    requires Contains(a, previous) && Contains(a, parent) && Contains(a, child)
    requires previous != parent && previous != child
    requires child in a.nodes[previous].children
    ensures var r := AppendChild(a, parent, child);
      child in r.nodes[previous].children && r.nodes[child].parent == Some(parent)
  {
  }

  /** Appends every child in order; a helper of `MakeElement`. */
  function AppendChildren(a: Arena, parent: NodeId, children: seq<NodeId>): (r: Arena)
    requires Contains(a, parent) && parent !in children
    requires forall c :: c in children ==> c < |a.nodes|
    ensures |r.nodes| == |a.nodes|
    ensures r.nodes[parent] == a.nodes[parent].(children := a.nodes[parent].children + children)
    ensures forall i :: 0 <= i < |a.nodes| && i != parent ==>
      r.nodes[i] == (if i in children then a.nodes[i].(parent := Some(parent)) else a.nodes[i])
    decreases |children|
  {
    if |children| == 0 then a
    else
      var first := children[0];
      var rest := children[1..];
      assert first in children;
      assert forall c :: c in rest ==> c in children;
      var b := AppendChild(a, parent, first);
      var r := AppendChildren(b, parent, rest);
      ConsAppend(a.nodes[parent].children, children);
      assert forall i :: i in children <==> i == first || i in rest;
      r
  }

  lemma ConsAppend(x: seq<NodeId>, ys: seq<NodeId>)
    requires |ys| > 0
    ensures x + ys == x + [ys[0]] + ys[1..]
  {
    assert ys == [ys[0]] + ys[1..];
  }

  /**
    `element(tag, attrs, children)`: a fresh element whose tag is the lower-cased input,
    whose attributes are the given map, and whose children are exactly `children`, in order,
    each now pointing back at it.
  */
  function MakeElement(a: Arena, tag: string, attrs: AttrMap, children: seq<NodeId>): (r: Created)
    requires forall c :: c in children ==> c < |a.nodes|
    ensures r.id == |a.nodes| && |r.arena.nodes| == |a.nodes| + 1
    ensures r.arena.nodes[r.id] == NodeRecord(NodeType.Element(ElementData(ToLower(tag), attrs)), children, None)
    ensures forall c :: c in children ==> r.arena.nodes[c] == a.nodes[c].(parent := Some(r.id))
    ensures forall i :: 0 <= i < |a.nodes| && i !in children ==> r.arena.nodes[i] == a.nodes[i]
  {
    var made := NewNode(a, NodeType.Element(ElementData(ToLower(tag), attrs)));
    assert made.id !in children;
    Created(AppendChildren(made.arena, made.id, children), made.id)
  }

  /** `text(content)`: a fresh childless text node carrying `content` verbatim. */
  function MakeText(a: Arena, content: string): (r: Created)
    ensures r.arena.nodes == a.nodes + [NodeRecord(NodeType.Text(content), [], None)]
    ensures r.id == |a.nodes|
  {
    NewNode(a, NodeType.Text(content))
  }

  /** `comment(content)`: a fresh childless comment node carrying `content` verbatim. */
  function MakeComment(a: Arena, content: string): (r: Created)
    ensures r.arena.nodes == a.nodes + [NodeRecord(NodeType.Comment(content), [], None)]
    ensures r.id == |a.nodes|
  {
    NewNode(a, NodeType.Comment(content))
  }

  /** `tag_name`: the tag of an element. */
  function TagName(n: NodeRecord): (r: Option<string>)
    ensures r.Some? <==> n.nodeType.Element?
    ensures r.Some? ==> r.value == n.nodeType.element.tagName
  {
    match n.nodeType
    case Element(el) => Some(el.tagName)
    case _ => None
  }

  /** `text_content`: the content of a text node. */
  function TextContent(n: NodeRecord): (r: Option<string>)
    ensures r.Some? <==> n.nodeType.Text?
    ensures r.Some? ==> r.value == n.nodeType.text
  {
    match n.nodeType
    case Text(t) => Some(t)
    case _ => None
  }

  /** The two accessors partition the node kinds: elements, text, and comments with neither. */
  lemma AccessorsByKind(n: NodeRecord)
    ensures TagName(n).Some? <==> n.nodeType.Element?
    ensures TextContent(n).Some? <==> n.nodeType.Text?
    ensures !(TagName(n).Some? && TextContent(n).Some?)
    ensures n.nodeType.Comment? ==> TagName(n).None? && TextContent(n).None?
  {
  }

  /** `get_attr`: nothing on a non-element, otherwise an exact-key lookup. */
  function GetAttr(n: NodeRecord, name: string): (r: Option<string>)
    ensures !n.nodeType.Element? ==> r == None
    ensures n.nodeType.Element? ==> (r.Some? <==> name in n.nodeType.element.attrs)
    ensures n.nodeType.Element? && name in n.nodeType.element.attrs ==> r == Some(n.nodeType.element.attrs[name])
  {
    match n.nodeType
    case Element(el) => if name in el.attrs then Some(el.attrs[name]) else None
    case _ => None
  }

  /** `set_attr`: inserts or replaces one attribute of an element; other nodes are unchanged. */
  function SetAttr(n: NodeRecord, name: string, value: string): (r: NodeRecord)
    ensures !n.nodeType.Element? ==> r == n
    ensures n.nodeType.Element? ==>
      && r.nodeType.Element? && r.nodeType.element.tagName == n.nodeType.element.tagName
      && r.nodeType.element.attrs == n.nodeType.element.attrs[name := value]
    ensures r.children == n.children && r.parent == n.parent
  {
    match n.nodeType
    case Element(el) => n.(nodeType := NodeType.Element(el.(attrs := el.attrs[name := value])))
    case _ => n
  }

  /**
    After `set_attr` on an element, the name reads back as the value (no trimming or case
    change) and every other name reads as before; on any other node nothing changes.
    The tag, the children and the parent link are never touched.
  */
  lemma SetThenGet(n: NodeRecord, name: string, value: string, other: string)
    requires other != name
    ensures n.nodeType.Element? ==> GetAttr(SetAttr(n, name, value), name) == Some(value)
    ensures GetAttr(SetAttr(n, name, value), other) == GetAttr(n, other)
    ensures !n.nodeType.Element? ==> SetAttr(n, name, value) == n
    ensures TagName(SetAttr(n, name, value)) == TagName(n)
    ensures SetAttr(n, name, value).children == n.children
    ensures SetAttr(n, name, value).parent == n.parent
  {
  }
}

=== FILE: engine.dfy ===
/**
  The block layout of src/browser/engine.rs.

  The engine works on its own owned tree of styled nodes (`Node`), so layout is a plain
  structural recursion. Lengths are reals: the arithmetic of the source is only `+`, `-` and
  doubling, and `f32` rounding is not modelled.
*/
module Engine {
  import opened Common
  import opened Renderer

  datatype EdgeSizes = EdgeSizes(top: real, right: real, bottom: real, left: real)

  datatype Rect = Rect(x: real, y: real, width: real, height: real)

  /** The containing block handed to a node: only `content.width` is ever read. */
  datatype Dimensions = Dimensions(content: Rect, padding: EdgeSizes, border: EdgeSizes, margin: EdgeSizes)

  datatype Display = Block | Inline | None

  /** The computed style of one node. */
  datatype Style = Style(
    display: Display,
    background: Option<Color>,
    borderColor: Option<Color>,
    borderWidth: real,
    margin: EdgeSizes,
    padding: EdgeSizes,
    fontSize: real,
    fontFamily: string,
    color: Color)

  datatype ElementData = ElementData(tagName: string, attributes: seq<(string, string)>)

  /** The engine's node kinds: there is no comment node here. */
  datatype NodeType = Text(text: string) | Element(element: ElementData)

  datatype Node = Node(children: seq<Node>, nodeType: NodeType, style: Style)

  const Zero: EdgeSizes := EdgeSizes(0.0, 0.0, 0.0, 0.0)

  /** `edges(v)`: the same length on all four sides. */
  function Edges(v: real): (e: EdgeSizes)
    ensures e.top == e.right == e.bottom == e.left == v
  {
    EdgeSizes(v, v, v, v)
  }

  /** `default_style(display)`: the sample style of the prototype tree. */
  function DefaultStyle(display: Display): (st: Style)
    ensures st.display == display
    ensures st.background == Some(Color(240, 240, 240, 255)) && st.borderColor == Some(Color(0, 0, 0, 255))
    ensures st.borderWidth == 1.0 && st.margin == Edges(8.0) && st.padding == Edges(8.0)
    ensures st.fontSize == 16.0 && st.fontFamily == "Arial" && st.color == Color(0, 0, 0, 255)
  {
    Style(display, Some(Color(240, 240, 240, 255)), Some(Color(0, 0, 0, 255)), 1.0,
          Edges(8.0), Edges(8.0), 16.0, "Arial", Color(0, 0, 0, 255))
  }

  /** The box a display-none node produces: nothing at the origin. */
  const EmptyBox: LayoutBox := LayoutBox(0.0, 0.0, 0.0, 0.0, Option.None, Option.None, Option.None, [])

  /** Horizontal space taken by margins, padding and both borders. */
  function HorizontalExtra(st: Style): real {
    st.margin.left + st.margin.right + st.padding.left + st.padding.right + st.borderWidth * 2.0
  }

  /** Vertical space added after each child: this node's margins and padding, top and bottom. */
  function ChildGap(st: Style): real {
    st.margin.top + st.margin.bottom + st.padding.top + st.padding.bottom
  }

  /** The sum, over the boxes, of each box's height plus `gap`. */
  function StackHeight(boxes: seq<LayoutBox>, gap: real): real {
    if |boxes| == 0 then 0.0 else StackHeight(boxes[..|boxes| - 1], gap) + boxes[|boxes| - 1].height + gap
  }

  /** The border drawn around a box: present exactly when a border colour is set. */
  function BorderOf(st: Style): Option<(Color, real)> {
    match st.borderColor
    case Some(c) => Some((c, st.borderWidth))
    case None => Option.None
  }

  /** The text run of a text node; elements have none. */
  function TextRun(node: Node): Option<TextNode> {
    match node.nodeType
    case Text(t) => Some(TextNode(t, node.style.fontSize, node.style.color, node.style.fontFamily))
    case Element(_) => Option.None
  }

  /**
    `build_layout_box`: a display-none node yields the empty box whatever its subtree; any
    other node is placed inside its margin, border and padding, takes the container's width
    minus its own horizontal extras (without clamping at zero), and stacks its children
    vertically, every child receiving the same container.
  */
  function LayoutBoxOf(node: Node, container: Dimensions, offsetX: real, offsetY: real): (b: LayoutBox)
    ensures node.style.display == Display.None ==> b == EmptyBox
    ensures node.style.display != Display.None ==>
      && b.x == offsetX + node.style.margin.left + node.style.borderWidth + node.style.padding.left
      && b.y == offsetY + node.style.margin.top + node.style.borderWidth + node.style.padding.top
      && b.width == container.content.width - HorizontalExtra(node.style)
      && b.background == node.style.background
      && (b.border.Some? <==> node.style.borderColor.Some?)
      && (b.border.Some? ==> b.border.value == (node.style.borderColor.value, node.style.borderWidth))
      && b.text == TextRun(node)
      && |b.children| == |node.children|
    decreases node, 1
  {
    if node.style.display == Display.None then EmptyBox
    else
      var st := node.style;
      var boxX := offsetX + st.margin.left + st.borderWidth + st.padding.left;
      var boxY := offsetY + st.margin.top + st.borderWidth + st.padding.top;
      var laid := LayoutChildren(node, 0, container, boxX, boxY, 0.0);
      var text := TextRun(node);
      var textHeight := if text.Some? then st.fontSize + st.padding.top + st.padding.bottom else 0.0;
      var filler := if |laid.0| == 0 && text.None? then 20.0 else 0.0;
      LayoutBox(boxX, boxY, container.content.width - HorizontalExtra(st), laid.1 + textHeight + filler,
                st.background, BorderOf(st), text, laid.0)
  }

  /**
    The loop over the children of `parent` from index `i` on, `height` being the height
    stacked so far: each child is laid out at `boxY + height`, then the height grows by the
    child's height and the parent's gap.
  */
  function LayoutChildren(parent: Node, i: nat, container: Dimensions, boxX: real, boxY: real, height: real)
    : (r: (seq<LayoutBox>, real))
    requires i <= |parent.children|
    ensures |r.0| == |parent.children| - i
    decreases parent, 0, |parent.children| - i
  {
    if i == |parent.children| then ([], height)
    else
      var child := LayoutBoxOf(parent.children[i], container, boxX, boxY + height);
      var (rest, total) := LayoutChildren(parent, i + 1, container, boxX, boxY, height + child.height + ChildGap(parent.style));
      ([child] + rest, total)
  }

  /** `build_layout_tree`: the root is laid out from the origin in a container of the given width. */
  function LayoutTree(node: Node, containerWidth: real): (b: LayoutBox)
    ensures node.style.display == Display.None ==> b == EmptyBox
    ensures node.style.display != Display.None ==>
      && b.x == node.style.margin.left + node.style.borderWidth + node.style.padding.left
      && b.y == node.style.margin.top + node.style.borderWidth + node.style.padding.top
      && b.width == containerWidth - HorizontalExtra(node.style)
  {
    LayoutBoxOf(node, Dimensions(Rect(0.0, 0.0, containerWidth, 0.0), Zero, Zero, Zero), 0.0, 0.0)
  }

  // ---------------------------------------------------------------------
  // Properties of the layout

  lemma {:induction false} StackCons(first: LayoutBox, rest: seq<LayoutBox>, gap: real)
    ensures StackHeight([first] + rest, gap) == first.height + gap + StackHeight(rest, gap)
    decreases |rest|
  {
    if |rest| > 0 {
      var all := [first] + rest;
      assert all[..|all| - 1] == [first] + rest[..|rest| - 1];
      StackCons(first, rest[..|rest| - 1], gap);
    } else {
      assert ([first] + rest)[..0] == [];
    }
  }

  /** The children loop in closed form: child `k` sits below the stacked heights of the ones before it. */
  lemma {:induction false} ChildAt(parent: Node, i: nat, container: Dimensions, boxX: real, boxY: real, height: real, k: nat)
    requires i + k < |parent.children|
    ensures var kids := LayoutChildren(parent, i, container, boxX, boxY, height).0;
      kids[k] == LayoutBoxOf(parent.children[i + k], container, boxX,
                             boxY + height + StackHeight(kids[..k], ChildGap(parent.style)))
    decreases k
  {
    var gap := ChildGap(parent.style);
    var kids := LayoutChildren(parent, i, container, boxX, boxY, height).0;
    var child := LayoutBoxOf(parent.children[i], container, boxX, boxY + height);
    var h2 := height + child.height + gap;
    var rest := LayoutChildren(parent, i + 1, container, boxX, boxY, h2).0;
    assert kids == [child] + rest;
    if k == 0 {
      assert kids[..0] == [];
    } else {
      ChildAt(parent, i + 1, container, boxX, boxY, h2, k - 1);
      assert kids[..k] == [child] + rest[..k - 1];
      StackCons(child, rest[..k - 1], gap);
      assert boxY + height + StackHeight(kids[..k], gap) == boxY + h2 + StackHeight(rest[..k - 1], gap);
    }
  }

  /** The height the children loop ends with is the stacked height of the child boxes. */
  lemma {:induction false} ChildrenTotal(parent: Node, i: nat, container: Dimensions, boxX: real, boxY: real, height: real)
    requires i <= |parent.children|
    ensures var r := LayoutChildren(parent, i, container, boxX, boxY, height);
      r.1 == height + StackHeight(r.0, ChildGap(parent.style))
    decreases |parent.children| - i
  {
    if i < |parent.children| {
      var gap := ChildGap(parent.style);
      var child := LayoutBoxOf(parent.children[i], container, boxX, boxY + height);
      var h2 := height + child.height + gap;
      var rest := LayoutChildren(parent, i + 1, container, boxX, boxY, h2);
      ChildrenTotal(parent, i + 1, container, boxX, boxY, h2);
      StackCons(child, rest.0, gap);
    }
  }

  /**
    Child `k` of a laid-out node is laid out in the same container, at the box's x and at the
    box's y plus the heights of the earlier child boxes, each with this node's gap; a
    display-none child yields the empty box.
  */
  lemma ChildPlacement(node: Node, container: Dimensions, offsetX: real, offsetY: real, k: nat)
    requires node.style.display != Display.None && k < |node.children|
    ensures var b := LayoutBoxOf(node, container, offsetX, offsetY);
      && b.children[k] == LayoutBoxOf(node.children[k], container, b.x, b.y + StackHeight(b.children[..k], ChildGap(node.style)))
      && (node.children[k].style.display == Display.None ==> b.children[k] == EmptyBox)
  {
    var st := node.style;
    var boxX := offsetX + st.margin.left + st.borderWidth + st.padding.left;
    var boxY := offsetY + st.margin.top + st.borderWidth + st.padding.top;
    assert LayoutBoxOf(node, container, offsetX, offsetY).children == LayoutChildren(node, 0, container, boxX, boxY, 0.0).0;
    ChildAt(node, 0, container, boxX, boxY, 0.0, k);
  }

  /**
    The height of a laid-out node: its stacked child boxes, plus font size and vertical
    padding for text, plus 20 for an element with no children.
  */
  lemma BoxHeight(node: Node, container: Dimensions, offsetX: real, offsetY: real)
    requires node.style.display != Display.None
    ensures var b := LayoutBoxOf(node, container, offsetX, offsetY);
      b.height == StackHeight(b.children, ChildGap(node.style))
                  + (if node.nodeType.Text? then node.style.fontSize + node.style.padding.top + node.style.padding.bottom else 0.0)
                  + (if |node.children| == 0 && node.nodeType.Element? then 20.0 else 0.0)
  {
    var st := node.style;
    var boxX := offsetX + st.margin.left + st.borderWidth + st.padding.left;
    var boxY := offsetY + st.margin.top + st.borderWidth + st.padding.top;
    ChildrenTotal(node, 0, container, boxX, boxY, 0.0);
  }

  /** Stacking only empty boxes adds just the gap per box. */
  lemma {:induction false} StackOfEmpty(boxes: seq<LayoutBox>, gap: real)
    requires forall k :: 0 <= k < |boxes| ==> boxes[k] == EmptyBox
    ensures StackHeight(boxes, gap) == |boxes| as real * gap
    decreases |boxes|
  {
    if |boxes| > 0 {
      StackOfEmpty(boxes[..|boxes| - 1], gap);
    }
  }

  /**
    An element with no children is 20 high; an element whose children are all display-none
    gets no such filler and is only the gaps high; a childless text node is its font size plus
    its vertical padding high.
  */
  lemma LeafHeights(node: Node, container: Dimensions, offsetX: real, offsetY: real)
    requires node.style.display != Display.None
    ensures var b := LayoutBoxOf(node, container, offsetX, offsetY);
      && (node.nodeType.Element? && |node.children| == 0 ==> b.height == 20.0)
      && (node.nodeType.Text? && |node.children| == 0 ==>
            b.height == node.style.fontSize + node.style.padding.top + node.style.padding.bottom)
      && (node.nodeType.Element? && |node.children| > 0
          && (forall k :: 0 <= k < |node.children| ==> node.children[k].style.display == Display.None) ==>
            b.height == |node.children| as real * ChildGap(node.style))
  {
    var b := LayoutBoxOf(node, container, offsetX, offsetY);
    BoxHeight(node, container, offsetX, offsetY);
    if node.nodeType.Element? && |node.children| > 0
       && (forall k :: 0 <= k < |node.children| ==> node.children[k].style.display == Display.None) {
      forall k | 0 <= k < |b.children|
        ensures b.children[k] == EmptyBox
      {
        ChildPlacement(node, container, offsetX, offsetY, k);
      }
      StackOfEmpty(b.children, ChildGap(node.style));
    }
  }

  /** The size of a box, and of every child box, does not depend on where it is placed. */
  lemma {:induction false} SizeIgnoresOffset(node: Node, container: Dimensions, x1: real, y1: real, x2: real, y2: real)
    ensures var b1 := LayoutBoxOf(node, container, x1, y1);
      var b2 := LayoutBoxOf(node, container, x2, y2);
      b1.width == b2.width && b1.height == b2.height
    decreases node, 1
  {
    if node.style.display != Display.None {
      var st := node.style;
      ChildrenSizesIgnoreOffset(node, 0, container,
        x1 + st.margin.left + st.borderWidth + st.padding.left, y1 + st.margin.top + st.borderWidth + st.padding.top,
        x2 + st.margin.left + st.borderWidth + st.padding.left, y2 + st.margin.top + st.borderWidth + st.padding.top, 0.0);
    }
  }

  lemma {:induction false} ChildrenSizesIgnoreOffset(parent: Node, i: nat, container: Dimensions,
                                                     x1: real, y1: real, x2: real, y2: real, height: real)
    requires i <= |parent.children|
    ensures var r1 := LayoutChildren(parent, i, container, x1, y1, height);
      var r2 := LayoutChildren(parent, i, container, x2, y2, height);
      r1.1 == r2.1 && |r1.0| == |r2.0|
    decreases parent, 0, |parent.children| - i
  {
    if i < |parent.children| {
      SizeIgnoresOffset(parent.children[i], container, x1, y1 + height, x2, y2 + height);
      var c1 := LayoutBoxOf(parent.children[i], container, x1, y1 + height);
      ChildrenSizesIgnoreOffset(parent, i + 1, container, x1, y1, x2, y2, height + c1.height + ChildGap(parent.style));
    }
  }
}

=== FILE: fetch.dfy ===
/**
  The pure part of src/net/fetch.rs: classifying a response by its content type, and
  turning the body of an HTML response into text, falling back to one character per byte
  when the body is not UTF-8.
*/
module Fetch {
  import opened Common
  import opened Strings
  import Utf8
  import Http

  datatype ResourceType = Html | Css | Image | Script | Json | Xml | Font | Other

  datatype FetchError =
    | Network(message: string)
    | ContentTypeMismatch(contentType: string)
    | DecodeError(message: string)
    | UnexpectedType(message: string)

  /** The test that puts an already lower-cased content type in each class. */
  predicate Matches(t: ResourceType, ct: string) {
    match t
    case Html => Contains(ct, "text/html")
    case Css => Contains(ct, "text/css")
    case Script => Contains(ct, "javascript") || Contains(ct, "ecmascript")
    case Image => "image/" <= ct
    case Json => Contains(ct, "application/json")
    case Xml => Contains(ct, "application/xml") || Contains(ct, "text/xml")
    case Font => Contains(ct, "font/") || Contains(ct, "woff") || Contains(ct, "truetype")
    case Other => true
  }

  /** The order in which the classes are tried; `Other` comes last and always matches. */
  function Priority(t: ResourceType): nat {
    match t
    case Html => 0
    case Css => 1
    case Script => 2
    case Image => 3
    case Json => 4
    case Xml => 5
    case Font => 6
    case Other => 7
  }

  /** `detect_type`: the first class, in priority order, whose test the lower-cased type passes. */
  function DetectType(contentType: string): (r: ResourceType)
    ensures Matches(r, ToLower(contentType))
    ensures forall t :: Priority(t) < Priority(r) ==> !Matches(t, ToLower(contentType))
  {
    var ct := ToLower(contentType);
    if Contains(ct, "text/html") then Html
    else if Contains(ct, "text/css") then Css
    else if Contains(ct, "javascript") || Contains(ct, "ecmascript") then Script
    else if "image/" <= ct then Image
    else if Contains(ct, "application/json") then Json
    else if Contains(ct, "application/xml") || Contains(ct, "text/xml") then Xml
    else if Contains(ct, "font/") || Contains(ct, "woff") || Contains(ct, "truetype") then Font
    else Other
  }

  /** Each class is determined by the earliest test passed, so the classes partition all content types. */
  lemma FirstMatchWins(contentType: string, t: ResourceType)
    requires Matches(t, ToLower(contentType))
    requires forall u :: Priority(u) < Priority(t) ==> !Matches(u, ToLower(contentType))
    ensures DetectType(contentType) == t
  {
    var r := DetectType(contentType);
    assert Priority(r) == Priority(t) ==> r == t;
  }

  /** The classification does not depend on ASCII case. */
  lemma DetectIgnoresCase(a: string, b: string)
    requires EqualIgnoringCase(a, b)
    ensures DetectType(a) == DetectType(b)
  {
    EqualIgnoringCaseLower(a, b);
  }

  /** The content type `fetch_resource` reads: the exact header name, with a default. */
  function ContentTypeOf(headers: map<string, string>): (r: string)
    ensures "Content-Type" in headers ==> r == headers["Content-Type"]
    ensures "Content-Type" !in headers ==> r == DefaultContentType
  {
    if "Content-Type" in headers then headers["Content-Type"] else DefaultContentType
  }

  const DefaultContentType: string := "application/octet-stream"

  /** Sufficient for `Other`: letters that every class test needs are missing. */
  lemma NoClassWithout(ct: string)
    requires ToLower(ct) == ct && !("image/" <= ct)
    requires 'h' !in ct && 'x' !in ct && 'j' !in ct && 'f' !in ct && 'u' !in ct
    requires forall i :: 0 <= i && i + 1 < |ct| ==> !(ct[i] == 'e' && ct[i + 1] == 'c')
    ensures DetectType(ct) == Other
  {
    NotContainsChar(ct, "text/html", 'h');
    NotContainsChar(ct, "text/css", 'x');
    NotContainsChar(ct, "javascript", 'j');
    NotContainsChar(ct, "application/json", 'j');
    NotContainsChar(ct, "application/xml", 'x');
    NotContainsChar(ct, "text/xml", 'x');
    NotContainsChar(ct, "font/", 'f');
    NotContainsChar(ct, "woff", 'f');
    NotContainsChar(ct, "truetype", 'u');
    if Contains(ct, "ecmascript") {
      ContainsPair(ct, "ecmascript", 0);
    }
  }

  /** The default content type passes none of the class tests and is classified `Other`. */
  lemma DefaultIsOther(ct: string)
    requires ct == DefaultContentType
    ensures DetectType(ct) == Other
  {
    assert forall i :: 0 <= i < |ct| ==>
      && LowerChar(ct[i]) == ct[i]
      && ct[i] != 'h' && ct[i] != 'x' && ct[i] != 'j' && ct[i] != 'f' && ct[i] != 'u';
    assert forall i :: 0 <= i && i + 1 < |ct| ==> !(ct[i] == 'e' && ct[i + 1] == 'c');
    assert ct[0] != 'i';
    NoClassWithout(ct);
  }

  /** The pure part of `fetch_resource`: the content type it reports and its class. */
  function Classify(headers: map<string, string>): (r: (string, ResourceType))
    ensures "Content-Type" in headers ==> r.0 == headers["Content-Type"]
    ensures "Content-Type" !in headers ==> r == (DefaultContentType, Other)
    ensures Matches(r.1, ToLower(r.0))
    ensures forall t :: Priority(t) < Priority(r.1) ==> !Matches(t, ToLower(r.0))
  {
    var ct := ContentTypeOf(headers);
    if "Content-Type" in headers then (ct, DetectType(ct))
    else DefaultIsOther(ct); (ct, DetectType(ct))
  }

  /** Every byte read as the character with the same code (ISO 8859-1). */
  function Latin1(data: seq<Byte>): (r: string)
    ensures |r| == |data|
    ensures forall i :: 0 <= i < |data| ==> r[i] as int == data[i]
  {
    seq(|data|, i requires 0 <= i < |data| => data[i] as char)
  }

  /**
    The decision of `fetch_html` on a fetched resource: a mismatch unless it is HTML;
    otherwise the UTF-8 text, or one character per byte when the body is not UTF-8.
    The empty-text error is never produced: an empty body is valid UTF-8, so the fallback
    only ever sees at least one byte.
  */
  function HtmlText(resourceType: ResourceType, contentType: string, data: seq<Byte>): (r: Result<string, FetchError>)
    ensures resourceType != Html <==> r.Failure?
    ensures r.Failure? ==> r.error == ContentTypeMismatch(contentType)
    ensures r.Success? && Utf8.Decode(data).Some? ==> Utf8.Encode(r.value) == data
    ensures r.Success? && Utf8.Decode(data).None? ==>
      |r.value| == |data| && forall i :: 0 <= i < |data| ==> r.value[i] as int == data[i]
  {
    if resourceType != Html then Failure(ContentTypeMismatch(contentType))
    else
      match Utf8.Decode(data)
      case Some(text) =>
        Utf8.EncodeDecode(data);
        Success(text)
      case None =>
        var fallback := Latin1(data);
        if |fallback| == 0 then Failure(DecodeError("Empty HTML content")) else Success(fallback)
  }

  /** Text that came in as UTF-8 comes out unchanged. */
  lemma Utf8BodyUnchanged(contentType: string, text: string)
    ensures HtmlText(Html, contentType, Utf8.Encode(text)) == Success(text)
  {
    Utf8.DecodeEncode(text);
  }

  /** A response without a content type is never accepted as HTML. */
  lemma UntypedIsMismatch(headers: map<string, string>, data: seq<Byte>)
    requires "Content-Type" !in headers
    ensures var (ct, t) := Classify(headers);
      HtmlText(t, ct, data) == Failure(ContentTypeMismatch(DefaultContentType))
  {
    DefaultIsOther(DefaultContentType);
  }

  /**
    The two layers read a missing content type differently: the transport lets it through
    as `unknown`, while the default the fetch layer substitutes is one the transport refuses.
  */
  lemma MissingTypeReadTwice()
    ensures Http.CheckContentType(None) == Success("unknown")
    ensures Http.CheckContentType(Some(DefaultContentType)).Failure?
  {
    var u := "unknown";
    assert ToLower(u) == u by {
      assert forall k :: 0 <= k < |u| ==> !('A' <= u[k] <= 'Z');
    }
    Http.NothingDangerous(u);
    Http.DangerousInContext("", 1, "");
    assert "" + Http.DangerousTypes[1] + "" == DefaultContentType;
  }
}

=== FILE: http.dfy ===
/**
  The pure decisions of src/net/http.rs: the sliding-window rate limiter, the scheme check
  of URL validation, the dangerous-MIME test, the response-header allowlist and the cap on
  the body size. The limiter's global queue and clock become an explicit queue of instants
  and an explicit `now`.
*/
module Http {
  import opened Common
  import opened Strings

  datatype HttpError =
    | InvalidUrl(message: string)
    | DnsBlocked(message: string)
    | DnsRebindingDetected
    | InsecureScheme
    | NetworkError(message: string)
    | ReadError(message: string)
    | DangerousContentType(contentType: string)
    | CertificateMismatch
    | RateLimitExceeded

  // ---------------------------------------------------------------------
  // Rate limiting

  /** An `Instant`, in nanoseconds of a monotonic clock. */
  type Instant = nat

  /** `RATE_LIMIT_WINDOW`: ten seconds. */
  const Window: nat := 10_000_000_000

  /** `MAX_REQUESTS_PER_WINDOW`. */
  const MaxRequests: nat := 10

  /** `Instant::duration_since`, which is zero when the other instant is later. */
  function Elapsed(now: Instant, t: Instant): nat {
    if now >= t then now - t else 0
  }

  /** Recorded instants, oldest first. */
  predicate Sorted(q: seq<Instant>) {
    forall i, j :: 0 <= i < j < |q| ==> q[i] <= q[j]
  }

  lemma SortedSlice(q: seq<Instant>, i: nat, j: nat)
    requires Sorted(q) && i <= j <= |q|
    ensures Sorted(q[i..j])
  {
    assert forall k :: 0 <= k < j - i ==> q[i..j][k] == q[i + k];
  }

  lemma SortedSnoc(q: seq<Instant>, x: Instant)
    requires Sorted(q) && (|q| > 0 ==> q[|q| - 1] <= x)
    ensures Sorted(q + [x])
  {
    var r := q + [x];
    forall i, j | 0 <= i < j < |r|
      ensures r[i] <= r[j]
    {
      if j == |q| && i < |q| {
        assert q[i] <= q[|q| - 1];
      }
    }
  }

  lemma SortedCons(x: Instant, q: seq<Instant>)
    requires Sorted(q) && forall y :: y in q ==> x <= y
    ensures Sorted([x] + q)
  {
    var r := [x] + q;
    forall i, j | 0 <= i < j < |r|
      ensures r[i] <= r[j]
    {
      assert r[j] == q[j - 1] && q[j - 1] in q;
      if i > 0 {
        assert r[i] == q[i - 1];
      }
    }
  }

  /** The pruning loop: pops the front entry while it is more than a window old. */
  function Prune(q: seq<Instant>, now: Instant): (r: seq<Instant>)
    ensures |r| <= |q| && r == q[|q| - |r|..]
    ensures forall i :: 0 <= i < |q| - |r| ==> Elapsed(now, q[i]) > Window
    ensures |r| > 0 ==> Elapsed(now, r[0]) <= Window
    decreases |q|
  {
    if |q| > 0 && Elapsed(now, q[0]) > Window then
      var r := Prune(q[1..], now);
      assert q[1..][|q| - 1 - |r|..] == q[|q| - |r|..];
      r
    else q
  }

  /** The recorded instants at most a window old: a reference definition of what should remain. */
  function Recent(q: seq<Instant>, now: Instant): seq<Instant> {
    if |q| == 0 then []
    else (if Elapsed(now, q[0]) <= Window then [q[0]] else []) + Recent(q[1..], now)
  }

  /**
    `enforce_rate_limit`: prune, then refuse when ten calls remain in the window, recording
    nothing; otherwise accept and record `now` at the back.
  */
  function EnforceRateLimit(q: seq<Instant>, now: Instant): (r: (Result<(), HttpError>, seq<Instant>))
    ensures r.0.Failure? <==> |Prune(q, now)| >= MaxRequests
    ensures r.0.Failure? ==> r.0.error == RateLimitExceeded && r.1 == Prune(q, now)
    ensures r.0.Success? ==> r.1 == Prune(q, now) + [now] && |r.1| <= MaxRequests
  {
    var kept := Prune(q, now);
    if |kept| >= MaxRequests then (Failure(RateLimitExceeded), kept)
    else (Success(()), kept + [now])
  }

  /** An entry exactly a window old is kept: only strictly older entries are dropped. */
  lemma WindowIsInclusive(q: seq<Instant>, now: Instant)
    requires |q| > 0 && Elapsed(now, q[0]) == Window
    ensures Prune(q, now) == q
  {
  }

  /** The queue never holds more than ten instants. */
  lemma BoundKept(q: seq<Instant>, now: Instant)
    requires |q| <= MaxRequests
    ensures |EnforceRateLimit(q, now).1| <= MaxRequests
  {
  }

  /** What pruning keeps of a sorted queue is sorted and ends where the queue ended. */
  lemma PruneSorted(q: seq<Instant>, now: Instant)
    requires Sorted(q)
    ensures Sorted(Prune(q, now))
    ensures |Prune(q, now)| > 0 ==> Prune(q, now)[|Prune(q, now)| - 1] == q[|q| - 1]
  {
    var kept := Prune(q, now);
    SortedSlice(q, |q| - |kept|, |q|);
    assert q[|q| - |kept|..|q|] == kept;
  }

  /** A non-decreasing clock keeps the queue oldest-first. */
  lemma SortedKept(q: seq<Instant>, now: Instant)
    requires Sorted(q) && (|q| > 0 ==> q[|q| - 1] <= now)
    ensures Sorted(EnforceRateLimit(q, now).1)
  {
    PruneSorted(q, now);
    var kept := Prune(q, now);
    if |kept| < MaxRequests {
      SortedSnoc(kept, now);
    }
  }

  lemma {:induction false} RecentAll(q: seq<Instant>, now: Instant)
    requires forall i :: 0 <= i < |q| ==> Elapsed(now, q[i]) <= Window
    ensures Recent(q, now) == q
    decreases |q|
  {
    if |q| > 0 {
      RecentAll(q[1..], now);
      assert [q[0]] + q[1..] == q;
    }
  }

  /** On a sorted queue, pruning the front keeps exactly the recent entries. */
  lemma {:induction false} PruneIsRecent(q: seq<Instant>, now: Instant)
    requires Sorted(q)
    ensures Prune(q, now) == Recent(q, now)
    decreases |q|
  {
    if |q| > 0 {
      if Elapsed(now, q[0]) > Window {
        PruneIsRecent(q[1..], now);
      } else {
        RecentAll(q, now);
      }
    }
  }

  lemma {:induction false} RecentAppend(a: seq<Instant>, b: seq<Instant>, now: Instant)
    ensures Recent(a + b, now) == Recent(a, now) + Recent(b, now)
    decreases |a|
  {
    if |a| > 0 {
      assert (a + b)[1..] == a[1..] + b;
      RecentAppend(a[1..], b, now);
    } else {
      assert a + b == b;
    }
  }

  /** What is recent at a later instant was already recent earlier. */
  lemma {:induction false} RecentLater(q: seq<Instant>, earlier: Instant, later: Instant)
    requires earlier <= later
    ensures Recent(Recent(q, earlier), later) == Recent(q, later)
    decreases |q|
  {
    if |q| > 0 {
      RecentLater(q[1..], earlier, later);
      var head := if Elapsed(earlier, q[0]) <= Window then [q[0]] else [];
      RecentAppend(head, Recent(q[1..], earlier), later);
      if Elapsed(earlier, q[0]) <= Window {
        assert Recent(head, later) == (if Elapsed(later, q[0]) <= Window then [q[0]] else []) by {
          assert head[1..] == [];
        }
      }
    }
  }

  lemma {:induction false} RecentMembers(q: seq<Instant>, now: Instant)
    ensures forall x :: x in Recent(q, now) ==> x in q
    decreases |q|
  {
    if |q| > 0 {
      RecentMembers(q[1..], now);
    }
  }

  lemma {:induction false} RecentSorted(q: seq<Instant>, now: Instant)
    requires Sorted(q)
    ensures Sorted(Recent(q, now))
    decreases |q|
  {
    if |q| > 0 {
      SortedSlice(q, 1, |q|);
      RecentSorted(q[1..], now);
      RecentMembers(q[1..], now);
      var rest := Recent(q[1..], now);
      assert forall x :: x in rest ==> q[0] <= x by {
        forall x | x in rest
          ensures q[0] <= x
        {
          var k :| 0 <= k < |q[1..]| && q[1..][k] == x;
          assert q[k + 1] == x;
        }
      }
      if Elapsed(now, q[0]) <= Window {
        SortedCons(q[0], rest);
      } else {
        assert Recent(q, now) == rest;
      }
    }
  }

  /** The limiter over a series of calls: the queue left and the instants of the accepted calls. */
  function Run(times: seq<Instant>): (r: (seq<Instant>, seq<Instant>))
    decreases |times|
  {
    if |times| == 0 then ([], [])
    else
      var (q, accepted) := Run(times[..|times| - 1]);
      var now := times[|times| - 1];
      var (verdict, q2) := EnforceRateLimit(q, now);
      (q2, if verdict.Success? then accepted + [now] else accepted)
  }

  /** A call made now is recent now. */
  lemma RecentNow(now: Instant)
    ensures Recent([now], now) == [now]
  {
    assert [now][1..] == [];
    assert Elapsed(now, now) == 0;
  }

  /** Every instant in a sorted series up to the last is at most the last. */
  lemma BeforeLast(times: seq<Instant>, xs: seq<Instant>)
    requires Sorted(times) && |times| > 0 && forall x :: x in xs ==> x in times
    ensures forall x :: x in xs ==> x <= times[|times| - 1]
  {
    forall x | x in xs
      ensures x <= times[|times| - 1]
    {
      var k :| 0 <= k < |times| && times[k] == x;
    }
  }

  /** One call of the limiter keeps the queue equal to the recent accepted calls. */
  lemma RunStep(q: seq<Instant>, accepted: seq<Instant>, last: Instant, now: Instant)
    requires last <= now && Sorted(accepted) && (forall x :: x in accepted ==> x <= now)
    requires q == Recent(accepted, last)
    ensures var (verdict, q2) := EnforceRateLimit(q, now);
      var acc2 := if verdict.Success? then accepted + [now] else accepted;
      q2 == Recent(acc2, now) && Sorted(acc2)
  {
    var kept := Prune(q, now);
    assert kept == Recent(accepted, now) by {
      RecentSorted(accepted, last);
      PruneIsRecent(q, now);
      RecentLater(accepted, last, now);
    }
    if |kept| < MaxRequests {
      assert Recent(accepted + [now], now) == kept + [now] by {
        RecentAppend(accepted, [now], now);
        RecentNow(now);
      }
      assert Sorted(accepted + [now]) by {
        if |accepted| > 0 {
          assert accepted[|accepted| - 1] in accepted;
        }
        SortedSnoc(accepted, now);
      }
    }
  }

  /**
    With a non-decreasing clock, the queue is always exactly the accepted calls of the last
    window, oldest first, and there are never more than ten of them.
  */
  lemma {:induction false} RunInvariant(times: seq<Instant>)
    requires Sorted(times)
    ensures var (q, accepted) := Run(times);
      && (|times| > 0 ==> q == Recent(accepted, times[|times| - 1]))
      && Sorted(q) && Sorted(accepted) && |q| <= MaxRequests
      && (forall x :: x in accepted ==> x in times)
    decreases |times|
  {
    if |times| > 0 {
      var prefix := times[..|times| - 1];
      var now := times[|times| - 1];
      SortedSlice(times, 0, |times| - 1);
      RunInvariant(prefix);
      var (q, accepted) := Run(prefix);
      assert forall x :: x in prefix ==> x in times;
      BeforeLast(times, accepted);
      if |prefix| > 0 {
        assert prefix[|prefix| - 1] <= now;
        RunStep(q, accepted, prefix[|prefix| - 1], now);
      } else {
        assert accepted == [] && q == [];
        RunStep(q, accepted, now, now);
      }
      var (verdict, q2) := EnforceRateLimit(q, now);
      var acc2 := if verdict.Success? then accepted + [now] else accepted;
      RecentSorted(acc2, now);
      assert forall x :: x in acc2 ==> x in times;
    }
  }

  /** At any call, the accepted calls of the preceding window, that one included, number at most ten. */
  lemma AtMostTenPerWindow(times: seq<Instant>)
    requires Sorted(times) && |times| > 0
    ensures |Recent(Run(times).1, times[|times| - 1])| <= MaxRequests
  {
    RunInvariant(times);
  }

  // ---------------------------------------------------------------------
  // URL scheme

  /**
    The scheme decision of `validate_url`: `https` always passes, `http` passes unless
    HTTPS is enforced, any other scheme is an invalid URL.
  */
  function CheckScheme(scheme: string, enforceHttps: bool): (r: Result<(), HttpError>)
    ensures r.Success? <==> scheme == "https" || (scheme == "http" && !enforceHttps)
    ensures r.Failure? && scheme == "http" ==> r.error == InsecureScheme
    ensures r.Failure? && scheme != "http" ==> r.error.InvalidUrl?
  {
    if scheme == "https" then Success(())
    else if scheme == "http" && !enforceHttps then Success(())
    else if scheme == "http" then Failure(InsecureScheme)
    else Failure(InvalidUrl("Unsupported scheme"))
  }

  // ---------------------------------------------------------------------
  // Content type

  /** The content types refused outright. */
  const DangerousTypes: seq<string> :=
    ["application/x-msdownload", "application/octet-stream", "application/x-sh", "text/x-script"]

  /** `is_dangerous_mime`: one of the refused types occurs in the text. */
  predicate IsDangerousMime(mime: string) {
    Contains(mime, "application/x-msdownload")
    || Contains(mime, "application/octet-stream")
    || Contains(mime, "application/x-sh")
    || Contains(mime, "text/x-script")
  }

  /**
    The content-type check of `fetch_url`: the header, or `unknown` when it is missing,
    lower-cased, then refused when it mentions a dangerous type.
  */
  function CheckContentType(header: Option<string>): (r: Result<string, HttpError>)
    ensures var ct := ToLower(header.GetOr("unknown"));
      && (r.Failure? <==> exists i :: 0 <= i < |DangerousTypes| && Contains(ct, DangerousTypes[i]))
      && (r.Failure? ==> r.error == DangerousContentType(ct))
      && (r.Success? ==> r.value == ct)
  {
    var ct := ToLower(header.GetOr("unknown"));
    if IsDangerousMime(ct) then
      assert Contains(ct, DangerousTypes[0]) || Contains(ct, DangerousTypes[1])
          || Contains(ct, DangerousTypes[2]) || Contains(ct, DangerousTypes[3]);
      Failure(DangerousContentType(ct))
    else Success(ct)
  }

  /** The test is blind to ASCII case in the header. */
  lemma ContentTypeIgnoresCase(a: string, b: string)
    requires EqualIgnoringCase(a, b)
    ensures CheckContentType(Some(a)) == CheckContentType(Some(b))
  {
    EqualIgnoringCaseLower(a, b);
  }

  /** Text shorter than every refused type is never refused. */
  lemma NothingDangerous(ct: string)
    requires |ct| < 13 && ToLower(ct) == ct
    ensures CheckContentType(Some(ct)) == Success(ct)
  {
    ContainsNotLonger(ct, "application/x-msdownload");
    ContainsNotLonger(ct, "application/octet-stream");
    ContainsNotLonger(ct, "application/x-sh");
    ContainsNotLonger(ct, "text/x-script");
  }

  /** The refused types are written in lower case. */
  lemma DangerousLower(d: string)
    requires d in DangerousTypes
    ensures ToLower(d) == d
  {
    assert forall k :: 0 <= k < |d| ==> !('A' <= d[k] <= 'Z');
  }

  /** A dangerous type inside a longer header, in any case, is still refused. */
  lemma DangerousInContext(pre: string, i: nat, post: string)
    requires i < |DangerousTypes|
    ensures CheckContentType(Some(pre + DangerousTypes[i] + post)).Failure?
  {
    var d := DangerousTypes[i];
    DangerousLower(d);
    LowerConcat(pre + d, post);
    LowerConcat(pre, d);
    ContainsInContext(ToLower(pre), d, ToLower(post), d);
    ContainsAt(d, d, 0);
  }

  // ---------------------------------------------------------------------
  // Headers and body

  /** `ALLOWED_HEADERS`, compared after ASCII lower-casing. */
  predicate AllowedHeader(name: string) {
    var n := ToLower(name);
    n == "content-type" || n == "content-length" || n == "server"
  }

  /**
    The header filter of `fetch_url`: the response's header names in order, each kept under
    its own spelling when allowed and present; a later name overwrites an earlier one.
    `header` is the response's lookup by name.
  */
  function FilterHeaders(names: seq<string>, header: string -> Option<string>): (r: map<string, string>)
    ensures forall k :: k in r ==> k in names && AllowedHeader(k) && header(k) == Some(r[k])
    ensures forall k :: k in names && AllowedHeader(k) && header(k).Some? ==> k in r
    decreases |names|
  {
    if |names| == 0 then map[]
    else
      var k := names[|names| - 1];
      var earlier := FilterHeaders(names[..|names| - 1], header);
      assert forall n :: n in names[..|names| - 1] ==> n in names;
      if AllowedHeader(k) && header(k).Some? then earlier[k := header(k).value] else earlier
  }

  /** `take(1_048_576)`: at most a mebibyte of the body is read. */
  const BodyLimit: nat := 1_048_576

  function CapBody(body: seq<Byte>): (r: seq<Byte>)
    ensures |r| <= BodyLimit && r <= body
    ensures |body| <= BodyLimit ==> r == body
    ensures |body| > BodyLimit ==> |r| == BodyLimit
  {
    if |body| <= BodyLimit then body else body[..BodyLimit]
  }
}

=== FILE: parser.dfy ===
/**
  The recursive-descent markup parser of src/browser/parser.rs.

  The parser is a cursor `pos` over the input characters. Every `assert!` of the source,
  and every `consume_char` at the end of input (an `unwrap` on nothing), aborts the whole
  parse; here each of those is `None`. Nodes are allocated in a `Dom.Arena` threaded
  through the parse.
*/
module Parser {
  import opened Common
  import opened Strings
  import Dom

  /** Where a parsing step leaves things: the arena, the value produced, and the cursor. */
  datatype Step<T> = Step(arena: Dom.Arena, value: T, pos: nat)

  // ---------------------------------------------------------------------
  // Cursor primitives

  /** `eof`: the cursor has reached the end of the input. */
  predicate Eof(s: string, pos: nat) {
    pos >= |s|
  }

  /** `current_char`: the character at the cursor, or NUL past the end. */
  function CurrentChar(s: string, pos: nat): char {
    if pos < |s| then s[pos] else '\0'
  }

  /** `starts_with`: the rest of the input begins with `t`. */
  predicate StartsWithAt(s: string, pos: nat, t: string) {
    pos <= |s| && t <= s[pos..]
  }

  /**
    `consume_char` followed by `assert!(c == expected)`: the cursor after `expected`, or
    `None` at the end of input or on any other character.
  */
  function Expect(s: string, pos: nat, expected: char): (r: Option<nat>)
    ensures r.Some? <==> pos < |s| && s[pos] == expected
    ensures r.Some? ==> r.value == pos + 1
  {
    if pos < |s| && s[pos] == expected then Some(pos + 1) else None
  }

  /** `consume_while(test)`: the end of the maximal run of characters satisfying `test`. */
  function ConsumeWhile(s: string, pos: nat, test: char -> bool): (e: nat)
    requires pos <= |s|
    ensures pos <= e <= |s|
    ensures forall i :: pos <= i < e ==> test(s[i])
    ensures e < |s| ==> !test(s[e])
    decreases |s| - pos
  {
    if pos < |s| && test(s[pos]) then ConsumeWhile(s, pos + 1, test) else pos
  }

  /** `consume_whitespace`. */
  function ConsumeWhitespace(s: string, pos: nat): (e: nat)
    requires pos <= |s|
    ensures pos <= e <= |s|
    ensures forall i :: pos <= i < e ==> IsWhitespace(s[i])
    ensures e < |s| ==> !IsWhitespace(s[e])
  {
    ConsumeWhile(s, pos, IsWhitespace)
  }

  /**
    `parse_tag_name`, also used for attribute names: the end of the maximal alphanumeric
    run at the cursor, which may be empty.
  */
  function ParseTagName(s: string, pos: nat): (e: nat)
    requires pos <= |s|
    ensures pos <= e <= |s|
    ensures forall i :: pos <= i < e ==> IsAlphanumeric(s[i])
    ensures e < |s| ==> !IsAlphanumeric(s[e])
  {
    ConsumeWhile(s, pos, IsAlphanumeric)
  }

  /** A slice whose every position differs from `c` does not contain `c`. */
  lemma SliceAvoids(s: string, lo: nat, hi: nat, c: char)
    requires lo <= hi <= |s|
    requires forall i :: lo <= i < hi ==> s[i] != c
    ensures c !in s[lo..hi]
  {
  }

  predicate NotTagOpen(c: char) {
    c != '<'
  }

  predicate IsQuote(c: char) {
    c == '"' || c == '\''
  }

  // ---------------------------------------------------------------------
  // Attributes

  /**
    `parse_attr_value`: an opening `"` or `'`, everything up to the next occurrence of the
    same character, and that character. Succeeds exactly when the value is opened by a quote
    and closed by the same quote.
  */
  function ParseAttrValue(s: string, pos: nat): (r: Option<(string, nat)>)
    requires pos <= |s|
    ensures r.Some? <==> pos < |s| && IsQuote(s[pos]) && s[pos] in s[pos + 1..]
    ensures r.Some? ==>
      var (value, e) := r.value;
      pos + 2 <= e <= |s| && s[e - 1] == s[pos] && value == s[pos + 1..e - 1] && s[pos] !in value
  {
    if pos < |s| && IsQuote(s[pos]) then
      var quote := s[pos];
      var e := ConsumeWhile(s, pos + 1, c => c != quote);
      SliceAvoids(s, pos + 1, e, quote);
      if e < |s| then
        assert quote in s[pos + 1..] by {
          assert s[pos + 1..][e - pos - 1] == s[e];
        }
        Some((s[pos + 1..e], e + 1))
      else
        assert s[pos + 1..] == s[pos + 1..e];
        None
    else None
  }

  /**
    One iteration of `parse_attributes`: a name (the maximal alphanumeric run, possibly empty),
    `=` with whitespace allowed on both sides, and a quoted value. Fails exactly when the `=`
    or the quoted value is missing.
  */
  function ParseAttribute(s: string, p: nat): (r: Option<(string, string, nat)>)
    requires p <= |s|
    ensures
      var eq := ConsumeWhitespace(s, ParseTagName(s, p));
      r.Some? <==> eq < |s| && s[eq] == '=' && ParseAttrValue(s, ConsumeWhitespace(s, eq + 1)).Some?
    ensures r.Some? ==>
      var (name, value, e) := r.value;
      && name == s[p..ParseTagName(s, p)]
      && (value, e) == ParseAttrValue(s, ConsumeWhitespace(s, ConsumeWhitespace(s, ParseTagName(s, p)) + 1)).value
      && p < e <= |s|
  {
    var nameEnd := ParseTagName(s, p);
    var afterEq :- Expect(s, ConsumeWhitespace(s, nameEnd), '=');
    var (value, e) :- ParseAttrValue(s, ConsumeWhitespace(s, afterEq));
    Some((s[p..nameEnd], value, e))
  }

  /**
    `parse_attributes`: repeatedly skips whitespace and stops in front of `>`; otherwise reads
    one attribute and inserts it, so a later duplicate name replaces an earlier one.
  */
  function ParseAttributes(s: string, pos: nat, attrs: Dom.AttrMap): (r: Option<(Dom.AttrMap, nat)>)
    requires pos <= |s|
    ensures r.Some? ==> pos <= r.value.1 < |s| && s[r.value.1] == '>'
    ensures r.Some? ==> attrs.Keys <= r.value.0.Keys
    decreases |s| - pos
  {
    var p := ConsumeWhitespace(s, pos);
    if CurrentChar(s, p) == '>' then Some((attrs, p))
    else
      var (name, value, e) :- ParseAttribute(s, p);
      ParseAttributes(s, e, attrs[name := value])
  }

  /** The attributes of an opening tag as name/value pairs, in document order. */
  function ParseAttributeList(s: string, pos: nat): (r: Option<(seq<(string, string)>, nat)>)
    requires pos <= |s|
    ensures r.Some? ==> pos <= r.value.1 < |s| && s[r.value.1] == '>'
    decreases |s| - pos
  {
    var p := ConsumeWhitespace(s, pos);
    if CurrentChar(s, p) == '>' then Some(([], p))
    else
      var (name, value, e) :- ParseAttribute(s, p);
      var (rest, end) :- ParseAttributeList(s, e);
      Some(([(name, value)] + rest, end))
  }

  /** Inserts the pairs into the map from left to right. */
  function InsertAll(attrs: Dom.AttrMap, pairs: seq<(string, string)>): Dom.AttrMap
    decreases |pairs|
  {
    if |pairs| == 0 then attrs else InsertAll(attrs[pairs[0].0 := pairs[0].1], pairs[1..])
  }

  /** The value of the last pair called `name`, if any. */
  function LastValue(pairs: seq<(string, string)>, name: string): Option<string>
    decreases |pairs|
  {
    if |pairs| == 0 then None
    else if pairs[|pairs| - 1].0 == name then Some(pairs[|pairs| - 1].1)
    else LastValue(pairs[..|pairs| - 1], name)
  }

  function Lookup(attrs: Dom.AttrMap, name: string): Option<string> {
    if name in attrs then Some(attrs[name]) else None
  }

  lemma {:induction false} InsertAllSnoc(attrs: Dom.AttrMap, pairs: seq<(string, string)>, p: (string, string))
    ensures InsertAll(attrs, pairs + [p]) == InsertAll(attrs, pairs)[p.0 := p.1]
    decreases |pairs|
  {
    if |pairs| == 0 {
      assert pairs + [p] == [p];
    } else {
      assert (pairs + [p])[1..] == pairs[1..] + [p];
      InsertAllSnoc(attrs[pairs[0].0 := pairs[0].1], pairs[1..], p);
    }
  }

  /** After inserting the pairs, a name reads as its last pair's value, or as before if none. */
  lemma {:induction false} LastOneWins(attrs: Dom.AttrMap, pairs: seq<(string, string)>, name: string)
    ensures Lookup(InsertAll(attrs, pairs), name)
         == if LastValue(pairs, name).Some? then LastValue(pairs, name) else Lookup(attrs, name)
    decreases |pairs|
  {
    if |pairs| > 0 {
      var init := pairs[..|pairs| - 1];
      var last := pairs[|pairs| - 1];
      assert pairs == init + [last];
      InsertAllSnoc(attrs, init, last);
      LastOneWins(attrs, init, name);
    }
  }

  /** `parse_attributes` inserts the attributes of the tag, in document order. */
  lemma {:induction false} AttributesInOrder(s: string, pos: nat, attrs: Dom.AttrMap)
    requires pos <= |s|
    ensures ParseAttributes(s, pos, attrs).Some? <==> ParseAttributeList(s, pos).Some?
    ensures ParseAttributes(s, pos, attrs).Some? ==>
      var (pairs, end) := ParseAttributeList(s, pos).value;
      ParseAttributes(s, pos, attrs).value == (InsertAll(attrs, pairs), end)
    decreases |s| - pos
  {
    var p := ConsumeWhitespace(s, pos);
    if CurrentChar(s, p) != '>' && ParseAttribute(s, p).Some? {
      var (name, value, e) := ParseAttribute(s, p).value;
      AttributesInOrder(s, e, attrs[name := value]);
    }
  }

  /**
    For a name given several times in one tag, the parsed element carries the last value;
    a name never given is absent.
  */
  lemma DuplicateNamesLastWins(s: string, pos: nat, name: string)
    requires pos <= |s| && ParseAttributes(s, pos, map[]).Some?
    ensures ParseAttributeList(s, pos).Some?
    ensures Lookup(ParseAttributes(s, pos, map[]).value.0, name) == LastValue(ParseAttributeList(s, pos).value.0, name)
  {
    AttributesInOrder(s, pos, map[]);
    LastOneWins(map[], ParseAttributeList(s, pos).value.0, name);
  }

  // ---------------------------------------------------------------------
  // Invariants of the arena built by a parse

  /** Nodes that existed before a step are unchanged by it. */
  ghost predicate Grown(a: Dom.Arena, b: Dom.Arena) {
    |a.nodes| <= |b.nodes| && forall i :: 0 <= i < |a.nodes| ==> b.nodes[i] == a.nodes[i]
  }

  /**
    The nodes from `lo` on form trees: each child was created after `lo` and before its
    parent, and points back at its parent.
  */
  ghost predicate Linked(b: Dom.Arena, lo: nat) {
    lo <= |b.nodes|
    && forall i :: lo <= i < |b.nodes| ==>
      forall c :: c in b.nodes[i].children ==> lo <= c < i && b.nodes[c].parent == Some(i)
  }

  /** A text run the parser can produce: non-empty, no `<`, not starting with whitespace. */
  predicate CleanText(t: string) {
    |t| > 0 && '<' !in t && !IsWhitespace(t[0])
  }

  /** Every text node from `lo` on is a clean text run. */
  ghost predicate TextsClean(b: Dom.Arena, lo: nat) {
    forall i :: lo <= i < |b.nodes| && b.nodes[i].nodeType.Text? ==> CleanText(b.nodes[i].nodeType.text)
  }

  /** The ids are nodes created from `lo` on that have no parent yet. */
  ghost predicate Roots(b: Dom.Arena, lo: nat, ids: seq<Dom.NodeId>) {
    forall j :: 0 <= j < |ids| ==> lo <= ids[j] < |b.nodes| && b.nodes[ids[j]].parent == None
  }

  /** Every node created from `lo` on that has no parent is among the ids: no node read is lost. */
  ghost predicate Listed(b: Dom.Arena, lo: nat, ids: seq<Dom.NodeId>) {
    forall i :: lo <= i < |b.nodes| && b.nodes[i].parent.None? ==> i in ids
  }

  /**
    One parsed node `st.value`: a fresh parentless root, the only one, so every other fresh
    node hangs below it; and the arena invariants hold.
  */
  ghost predicate Built(a: Dom.Arena, st: Step<Dom.NodeId>) {
    && Grown(a, st.arena) && Linked(st.arena, |a.nodes|) && TextsClean(st.arena, |a.nodes|)
    && Roots(st.arena, |a.nodes|, [st.value]) && Listed(st.arena, |a.nodes|, [st.value])
    && |a.nodes| <= st.value < |st.arena.nodes|
  }

  lemma GrownTrans(a: Dom.Arena, b: Dom.Arena, c: Dom.Arena)
    requires Grown(a, b) && Grown(b, c)
    ensures Grown(a, c)
  {
  }

  /** The invariants of two consecutive steps combine into the invariant of both. */
  lemma Concat(a: Dom.Arena, b: Dom.Arena, c: Dom.Arena)
    requires Grown(a, b) && Grown(b, c)
    requires Linked(b, |a.nodes|) && Linked(c, |b.nodes|)
    requires TextsClean(b, |a.nodes|) && TextsClean(c, |b.nodes|)
    ensures Grown(a, c) && Linked(c, |a.nodes|) && TextsClean(c, |a.nodes|)
  {
    forall i | |a.nodes| <= i < |c.nodes|
      ensures forall x :: x in c.nodes[i].children ==> |a.nodes| <= x < i && c.nodes[x].parent == Some(i)
    {
      if i < |b.nodes| {
        assert c.nodes[i] == b.nodes[i];
        forall x | x in c.nodes[i].children
          ensures |a.nodes| <= x < i && c.nodes[x].parent == Some(i)
        {
          assert c.nodes[x] == b.nodes[x];
        }
      }
    }
  }

  /** Ids in strictly increasing order: nodes listed in the order they were created. */
  predicate Increasing(ids: seq<Dom.NodeId>) {
    forall j, k :: 0 <= j < k < |ids| ==> ids[j] < ids[k]
  }

  /** The root of one step, then the roots the next step lists, are all the roots of both. */
  lemma ListedCons(a: Dom.Arena, b: Dom.Arena, c: Dom.Arena, x: Dom.NodeId, ids: seq<Dom.NodeId>)
    requires |a.nodes| <= |b.nodes| && Grown(b, c)
    requires Listed(b, |a.nodes|, [x]) && Listed(c, |b.nodes|, ids)
    ensures Listed(c, |a.nodes|, [x] + ids)
  {
    forall i | |a.nodes| <= i < |c.nodes| && c.nodes[i].parent.None?
      ensures i in [x] + ids
    {
      if i < |b.nodes| {
        assert c.nodes[i] == b.nodes[i];
        assert ([x] + ids)[0] == i;
      } else {
        var j :| 0 <= j < |ids| && ids[j] == i;
        assert ([x] + ids)[j + 1] == i;
      }
    }
  }

  lemma IncreasingCons(x: Dom.NodeId, ids: seq<Dom.NodeId>, bound: nat)
    requires Increasing(ids) && x < bound && forall j :: 0 <= j < |ids| ==> bound <= ids[j]
    ensures Increasing([x] + ids)
  {
    var xs := [x] + ids;
    forall j, k | 0 <= j < k < |xs|
      ensures xs[j] < xs[k]
    {
      assert xs[k] == ids[k - 1];
      if j > 0 {
        assert xs[j] == ids[j - 1];
      }
    }
  }

  // ---------------------------------------------------------------------
  // The grammar

  /** `parse_text`: everything up to the next `<` (or the end) becomes one text node. */
  function ParseText(s: string, pos: nat, a: Dom.Arena): (r: Step<Dom.NodeId>)
    requires pos <= |s|
    ensures pos <= r.pos <= |s|
    ensures r.pos == |s| || s[r.pos] == '<'
    ensures '<' !in s[pos..r.pos]
    ensures pos < |s| && s[pos] != '<' ==> r.pos > pos
    ensures r.arena.nodes == a.nodes + [Dom.NodeRecord(Dom.Text(s[pos..r.pos]), [], None)]
    ensures r.value == |a.nodes|
  {
    var e := ConsumeWhile(s, pos, NotTagOpen);
    assert forall k :: 0 <= k < |s[pos..e]| ==> s[pos..e][k] == s[pos + k];
    var made := Dom.MakeText(a, s[pos..e]);
    Step(made.arena, made.id, e)
  }

  /**
    `parse_nodes`: skips whitespace before and between nodes, and stops at the end of the
    input or in front of `</`. The ids returned are fresh roots, in document order.
  */
  function ParseNodes(s: string, pos: nat, a: Dom.Arena): (r: Option<Step<seq<Dom.NodeId>>>)
    requires pos <= |s|
    ensures r.Some? ==> pos <= r.value.pos <= |s|
    ensures r.Some? ==> r.value.pos == |s| || StartsWithAt(s, r.value.pos, "</")
    ensures r.Some? ==> Grown(a, r.value.arena) && Linked(r.value.arena, |a.nodes|)
    ensures r.Some? ==> TextsClean(r.value.arena, |a.nodes|)
    ensures r.Some? ==> Roots(r.value.arena, |a.nodes|, r.value.value)
    ensures r.Some? ==> Listed(r.value.arena, |a.nodes|, r.value.value)
    ensures r.Some? ==> Increasing(r.value.value)
    decreases |s| - pos, 2
  {
    var p := ConsumeWhitespace(s, pos);
    if Eof(s, p) || StartsWithAt(s, p, "</") then Some(Step(a, [], p))
    else
      var first :- ParseNode(s, p, a);
      var rest :- ParseNodes(s, first.pos, first.arena);
      Concat(a, first.arena, rest.arena);
      ListedCons(a, first.arena, rest.arena, first.value, rest.value);
      IncreasingCons(first.value, rest.value, |first.arena.nodes|);
      Some(Step(rest.arena, [first.value] + rest.value, rest.pos))
  }

  /** `parse_node`: an element when the cursor is at `<`, a text node otherwise. */
  function ParseNode(s: string, pos: nat, a: Dom.Arena): (r: Option<Step<Dom.NodeId>>)
    requires pos <= |s|
    ensures r.Some? ==> pos <= r.value.pos <= |s|
    ensures r.Some? && pos < |s| ==> r.value.pos > pos
    ensures r.Some? ==> Grown(a, r.value.arena) && Linked(r.value.arena, |a.nodes|)
    ensures r.Some? && pos < |s| && !IsWhitespace(s[pos]) ==> TextsClean(r.value.arena, |a.nodes|)
    ensures r.Some? ==> Roots(r.value.arena, |a.nodes|, [r.value.value])
    ensures r.Some? ==> Listed(r.value.arena, |a.nodes|, [r.value.value])
    ensures r.Some? ==> |a.nodes| <= r.value.value < |r.value.arena.nodes|
    ensures r.Some? ==> (pos < |s| && s[pos] == '<' <==> r.value.arena.nodes[r.value.value].nodeType.Element?)
    ensures !(pos < |s| && s[pos] == '<') ==>
      r.Some? && pos <= r.value.pos <= |s| && r.value.arena.nodes[r.value.value].nodeType == Dom.Text(s[pos..r.value.pos])
    decreases |s| - pos, 1
  {
    if StartsWithAt(s, pos, "<") then ParseElement(s, pos, a)
    else Some(ParseText(s, pos, a))
  }

  /** The input just before `end` is the closing tag `</tag>`. */
  predicate ClosedBy(s: string, end: nat, tag: string) {
    |tag| + 3 <= end <= |s| && s[end - |tag| - 3..end] == "</" + tag + ">"
  }

  /** `</tag>` written from `k` on, character by character. */
  lemma ClosedByParts(s: string, k: nat, tag: string)
    ensures ClosedBy(s, k + |tag| + 3, tag) ==>
      && k + |tag| + 3 <= |s| && s[k] == '<' && s[k + 1] == '/'
      && s[k + 2..k + 2 + |tag|] == tag && s[k + 2 + |tag|] == '>'
  {
    if ClosedBy(s, k + |tag| + 3, tag) {
      var w := s[k..k + |tag| + 3];
      var t := "</" + tag + ">";
      assert w == t;
      assert s[k] == w[0] && s[k + 1] == w[1] && s[k + 2 + |tag|] == w[2 + |tag|];
      forall i | 0 <= i < |tag|
        ensures s[k + 2..k + 2 + |tag|][i] == tag[i]
      {
        assert w[2 + i] == t[2 + i];
      }
    }
  }

  lemma ClosingTag(s: string, k: nat, e: nat, tag: string)
    requires k + 2 <= e < |s|
    requires s[k] == '<' && s[k + 1] == '/' && s[k + 2..e] == tag && s[e] == '>'
    ensures ClosedBy(s, e + 1, tag)
  {
    assert e == k + 2 + |tag|;
    var w := s[k..k + |tag| + 3];
    var t := "</" + tag + ">";
    forall i | 0 <= i < |w|
      ensures w[i] == t[i]
    {
      if 2 <= i < 2 + |tag| {
        assert s[k + 2..k + 2 + |tag|][i - 2] == s[k + i];
      }
    }
  }

  /**
    `parse_element`: `<`, a tag name, attributes, `>`, the children, then `</`, a closing tag
    name that must equal the opening one character for character, and `>`. The element is
    built by `element`, which lower-cases the tag only after the comparison.
  */
  function ParseElement(s: string, pos: nat, a: Dom.Arena): (r: Option<Step<Dom.NodeId>>)
    requires pos <= |s|
    ensures r.Some? ==> pos < r.value.pos <= |s| && s[pos] == '<' && Built(a, r.value)
    ensures r.Some? ==>
      var tag := s[pos + 1..ParseTagName(s, pos + 1)];
      && r.value.arena.nodes[r.value.value].nodeType.Element?
      && r.value.arena.nodes[r.value.value].nodeType.element.tagName == ToLower(tag)
      && ClosedBy(s, r.value.pos, tag)
    ensures r.Some? ==>
      && OpenTag(s, pos).Some?
      && ParseNodes(s, OpenTag(s, pos).value.after, a).Some?
      && r.value.pos == ParseNodes(s, OpenTag(s, pos).value.after, a).value.pos + |OpenTag(s, pos).value.tag| + 3
    decreases |s| - pos, 0
  {
    var open :- OpenTag(s, pos);
    var kids :- ParseNodes(s, open.after, a);
    CloseElement(s, open.tag, open.attrs, a, kids)
  }

  /** An opening tag read: its name as written, its attributes, and the position after its `>`. */
  datatype Opening = Opening(tag: string, attrs: Dom.AttrMap, after: nat)

  /**
    The opening tag of `parse_element`: `<`, a tag name, the attributes, and the `>` in front
    of which the attribute loop stopped.
  */
  function OpenTag(s: string, pos: nat): (r: Option<Opening>)
    requires pos <= |s|
    ensures r.Some? <==>
      pos < |s| && s[pos] == '<' && ParseAttributes(s, ParseTagName(s, pos + 1), map[]).Some?
    ensures r.Some? ==>
      var read := ParseAttributes(s, ParseTagName(s, pos + 1), map[]).value;
      r.value == Opening(s[pos + 1..ParseTagName(s, pos + 1)], read.0, read.1 + 1)
    ensures r.Some? ==> pos < r.value.after <= |s| && s[r.value.after - 1] == '>'
  {
    if Expect(s, pos, '<').None? then None
    else
      var tagEnd := ParseTagName(s, pos + 1);
      match ParseAttributes(s, tagEnd, map[])
      case None => None
      case Some((attrs, p2)) => Some(Opening(s[pos + 1..tagEnd], attrs, p2 + 1))
  }

  /**
    The end of `parse_element` once the children are parsed: `</`, a closing tag name equal
    to the opening one `tag`, `>`, and then the element built around the children.
  */
  function CloseElement(s: string, tag: string, attrs: Dom.AttrMap, a: Dom.Arena,
                        kids: Step<seq<Dom.NodeId>>): (r: Option<Step<Dom.NodeId>>)
    requires kids.pos <= |s|
    requires Grown(a, kids.arena) && Linked(kids.arena, |a.nodes|) && TextsClean(kids.arena, |a.nodes|)
    requires Roots(kids.arena, |a.nodes|, kids.value) && Listed(kids.arena, |a.nodes|, kids.value)
    ensures r.Some? ==> kids.pos < r.value.pos <= |s| && Built(a, r.value)
    ensures r.Some? <==> ClosingTagEnd(s, kids.pos, tag).Some?
    ensures r.Some? ==>
      && r.value.pos == ClosingTagEnd(s, kids.pos, tag).value == kids.pos + |tag| + 3
      && r.value.value == |kids.arena.nodes|
      && r.value.arena.nodes[r.value.value]
         == Dom.NodeRecord(Dom.Element(Dom.ElementData(ToLower(tag), attrs)), kids.value, None)
      && ClosedBy(s, r.value.pos, tag)
    ensures r.Some? ==> |r.value.arena.nodes| == |kids.arena.nodes| + 1
    ensures r.Some? ==> forall i :: 0 <= i < |kids.arena.nodes| ==>
      r.value.arena.nodes[i]
      == if i in kids.value then kids.arena.nodes[i].(parent := Some(r.value.value)) else kids.arena.nodes[i]
  {
    match ClosingTagEnd(s, kids.pos, tag)
    case None => None
    case Some(end) => Some(Wrap(a, kids, tag, attrs, end))
  }

  /**
    `</`, a closing tag name equal to `tag`, and `>` from `k`: the position after them. The
    closing tag must start exactly at `k`, and the name read there must be `tag` itself, not
    merely begin with it.
  */
  function ClosingTagEnd(s: string, k: nat, tag: string): (r: Option<nat>)
    requires k <= |s|
    ensures r.Some? ==> k < r.value <= |s| && ClosedBy(s, r.value, tag)
    ensures r.Some? <==> ClosedBy(s, k + |tag| + 3, tag) && ParseTagName(s, k + 2) == k + 2 + |tag|
    ensures r.Some? ==> r.value == k + |tag| + 3
  {
    ClosedByParts(s, k, tag);
    if Expect(s, k, '<').None? || Expect(s, k + 1, '/').None? then None
    else
      var closeEnd := ParseTagName(s, k + 2);
      if s[k + 2..closeEnd] != tag || Expect(s, closeEnd, '>').None? then None
      else
        ClosingTag(s, k, closeEnd, tag);
        Some(closeEnd + 1)
  }

  lemma RootsAreNew(b: Dom.Arena, lo: nat, ids: seq<Dom.NodeId>, i: nat)
    requires Roots(b, lo, ids) && i < lo
    ensures i !in ids
  {
  }

  lemma RootsAreParentless(b: Dom.Arena, lo: nat, ids: seq<Dom.NodeId>, x: nat)
    requires Roots(b, lo, ids) && x < |b.nodes| && b.nodes[x].parent.Some?
    ensures x !in ids
  {
  }

  /** Wrapping fresh roots into a new element keeps the invariants of the arena. */
  lemma ElementInvariants(a: Dom.Arena, b: Dom.Arena, kids: seq<Dom.NodeId>, made: Dom.Created)
    requires Grown(a, b) && Linked(b, |a.nodes|) && TextsClean(b, |a.nodes|)
    requires Roots(b, |a.nodes|, kids) && Listed(b, |a.nodes|, kids)
    requires forall c :: c in kids ==> c < |b.nodes|
    requires made.id == |b.nodes| && |made.arena.nodes| == |b.nodes| + 1
    requires made.arena.nodes[made.id].nodeType.Element?
    requires made.arena.nodes[made.id].children == kids && made.arena.nodes[made.id].parent == None
    requires forall c :: c in kids ==> made.arena.nodes[c] == b.nodes[c].(parent := Some(made.id))
    requires forall i :: 0 <= i < |b.nodes| && i !in kids ==> made.arena.nodes[i] == b.nodes[i]
    ensures Grown(a, made.arena) && Linked(made.arena, |a.nodes|) && TextsClean(made.arena, |a.nodes|)
    ensures Roots(made.arena, |a.nodes|, [made.id]) && Listed(made.arena, |a.nodes|, [made.id])
  {
    var m := made.arena;
    forall i | 0 <= i < |a.nodes|
      ensures m.nodes[i] == a.nodes[i]
    {
      RootsAreNew(b, |a.nodes|, kids, i);
    }
    forall i | |a.nodes| <= i < |m.nodes|
      ensures forall x :: x in m.nodes[i].children ==> |a.nodes| <= x < i && m.nodes[x].parent == Some(i)
    {
      if i < |b.nodes| {
        assert m.nodes[i].children == b.nodes[i].children;
        forall x | x in m.nodes[i].children
          ensures |a.nodes| <= x < i && m.nodes[x].parent == Some(i)
        {
          RootsAreParentless(b, |a.nodes|, kids, x);
        }
      } else {
        forall x | x in m.nodes[i].children
          ensures |a.nodes| <= x < i && m.nodes[x].parent == Some(i)
        {
          var j :| 0 <= j < |kids| && kids[j] == x;
        }
      }
    }
    forall i | |a.nodes| <= i < |m.nodes| && m.nodes[i].parent.None?
      ensures i in [made.id]
    {
    }
    forall i | |a.nodes| <= i < |m.nodes| && m.nodes[i].nodeType.Text?
      ensures CleanText(m.nodes[i].nodeType.text)
    {
      if i < |b.nodes| {
        assert m.nodes[i].nodeType == b.nodes[i].nodeType;
      }
    }
  }

  /** `element` applied to fresh roots: the parse invariants carry over to the new element. */
  function Wrap(a: Dom.Arena, kids: Step<seq<Dom.NodeId>>, tag: string, attrs: Dom.AttrMap, end: nat): (r: Step<Dom.NodeId>)
    requires Grown(a, kids.arena) && Linked(kids.arena, |a.nodes|) && TextsClean(kids.arena, |a.nodes|)
    requires Roots(kids.arena, |a.nodes|, kids.value) && Listed(kids.arena, |a.nodes|, kids.value)
    ensures Built(a, r) && r.pos == end
    ensures r.value == |kids.arena.nodes| && |r.arena.nodes| == |kids.arena.nodes| + 1
    ensures r.arena.nodes[r.value] == Dom.NodeRecord(Dom.Element(Dom.ElementData(ToLower(tag), attrs)), kids.value, None)
    ensures forall i :: 0 <= i < |kids.arena.nodes| ==>
      r.arena.nodes[i] == if i in kids.value then kids.arena.nodes[i].(parent := Some(r.value)) else kids.arena.nodes[i]
  {
    var b := kids.arena;
    assert forall c :: c in kids.value ==> c < |b.nodes| by {
      forall c | c in kids.value ensures c < |b.nodes| {
        var j :| 0 <= j < |kids.value| && kids.value[j] == c;
      }
    }
    var made := Dom.MakeElement(b, tag, attrs, kids.value);
    ElementInvariants(a, b, kids.value, made);
    Step(made.arena, made.id, end)
  }

  lemma LowerHtml()
    ensures ToLower("html") == "html"
  {
    var h := "html";
    assert ToLower(h)[0] == 'h' && ToLower(h)[1] == 't' && ToLower(h)[2] == 'm' && ToLower(h)[3] == 'l';
  }

  /**
    `parse` (and `parse_html`): the sole top-level node when exactly one was parsed, otherwise
    a new `html` element around all of them, in order (possibly none). Input after the
    top-level sequence (a stray `</...`) is left unread.
  */
  function Parse(s: string, a: Dom.Arena): (r: Option<Step<Dom.NodeId>>)
    ensures r.Some? ==> Grown(a, r.value.arena) && Linked(r.value.arena, |a.nodes|)
    ensures r.Some? ==> TextsClean(r.value.arena, |a.nodes|)
    ensures r.Some? ==> |a.nodes| <= r.value.value < |r.value.arena.nodes|
    ensures r.Some? ==> Listed(r.value.arena, |a.nodes|, [r.value.value])
    ensures r.Some? <==> ParseNodes(s, 0, a).Some?
    ensures r.Some? ==>
      var top := ParseNodes(s, 0, a).value;
      && r.value.pos == top.pos
      && (|top.value| == 1 ==> r.value == Step(top.arena, top.value[0], top.pos))
      && (|top.value| != 1 ==>
            r.value.arena.nodes[r.value.value]
            == Dom.NodeRecord(Dom.Element(Dom.ElementData("html", map[])), top.value, None))
  {
    var parsed := ParseNodes(s, 0, a);
    if parsed.None? then None
    else
    var top := parsed.value;
    if |top.value| == 1 then Some(Step(top.arena, top.value[0], top.pos))
    else
      LowerHtml();
      Some(Wrap(a, top, "html", map[], top.pos))
  }

  // ---------------------------------------------------------------------
  // Properties of whole parses

  /**
    `parse_element` is its three parts in turn: the opening tag, the children after it, and
    the closing tag around which the element is built (see `CloseElement`). It fails exactly
    when one of them does.
  */
  lemma ElementParts(s: string, pos: nat, a: Dom.Arena)
    requires pos <= |s|
    ensures OpenTag(s, pos).None? ==> ParseElement(s, pos, a) == None
    ensures OpenTag(s, pos).Some? ==>
      var open := OpenTag(s, pos).value;
      match ParseNodes(s, open.after, a)
      case None => ParseElement(s, pos, a) == None
      case Some(kids) => ParseElement(s, pos, a) == CloseElement(s, open.tag, open.attrs, a, kids)
  {
  }

  /**
    `parse_element` succeeds exactly when the opening tag, the children and a matching closing
    tag are all read; the element is then the opening tag's lower-cased name and attributes
    around the children, in order, and the cursor is after the closing tag.
  */
  lemma ElementIff(s: string, pos: nat, a: Dom.Arena)
    requires pos <= |s|
    ensures ParseElement(s, pos, a).Some? <==>
      && OpenTag(s, pos).Some?
      && ParseNodes(s, OpenTag(s, pos).value.after, a).Some?
      && ClosingTagEnd(s, ParseNodes(s, OpenTag(s, pos).value.after, a).value.pos, OpenTag(s, pos).value.tag).Some?
    ensures ParseElement(s, pos, a).Some? ==>
      var open := OpenTag(s, pos).value;
      var kids := ParseNodes(s, open.after, a).value;
      var r := ParseElement(s, pos, a).value;
      && r.pos == ClosingTagEnd(s, kids.pos, open.tag).value == kids.pos + |open.tag| + 3
      && r.value == |kids.arena.nodes|
      && r.arena.nodes[r.value]
         == Dom.NodeRecord(Dom.Element(Dom.ElementData(ToLower(open.tag), open.attrs)), kids.value, None)
  {
    ElementParts(s, pos, a);
  }

  /**
    A parsed element's closing tag starts exactly where its children stop: the name read
    after that `</` is the opening name, character for character, and `>` follows it.
  */
  lemma ClosingNameMatches(s: string, pos: nat, a: Dom.Arena)
    requires pos <= |s| && ParseElement(s, pos, a).Some?
    ensures OpenTag(s, pos).Some? && ParseNodes(s, OpenTag(s, pos).value.after, a).Some?
    ensures var open := OpenTag(s, pos).value;
      var k := ParseNodes(s, open.after, a).value.pos;
      && k + 2 <= |s| && s[k] == '<' && s[k + 1] == '/'
      && s[k + 2..ParseTagName(s, k + 2)] == open.tag
      && ParseTagName(s, k + 2) < |s| && s[ParseTagName(s, k + 2)] == '>'
      && ParseElement(s, pos, a).value.pos == k + |open.tag| + 3
  {
    ElementIff(s, pos, a);
    var open := OpenTag(s, pos).value;
    var k := ParseNodes(s, open.after, a).value.pos;
    ClosedByParts(s, k, open.tag);
  }

  /**
    An element fails when the name after the `</` at which its children stop differs from
    the opening name, in case or in length.
  */
  lemma MismatchedNameFails(s: string, pos: nat, a: Dom.Arena)
    requires pos <= |s| && OpenTag(s, pos).Some? && ParseNodes(s, OpenTag(s, pos).value.after, a).Some?
    requires var k := ParseNodes(s, OpenTag(s, pos).value.after, a).value.pos;
      k + 2 <= |s| && s[k + 2..ParseTagName(s, k + 2)] != OpenTag(s, pos).value.tag
    ensures ParseElement(s, pos, a) == None
  {
    if ParseElement(s, pos, a).Some? {
      ClosingNameMatches(s, pos, a);
    }
  }

  /** An element whose first child is an element that fails to parse fails as well. */
  lemma FailingChildFails(s: string, pos: nat, a: Dom.Arena)
    requires pos <= |s| && OpenTag(s, pos).Some?
    requires var c := ConsumeWhitespace(s, OpenTag(s, pos).value.after);
      StartsWithAt(s, c, "<") && !StartsWithAt(s, c, "</") && ParseElement(s, c, a) == None
    ensures ParseElement(s, pos, a) == None
  {
    FailingFirstNode(s, OpenTag(s, pos).value.after, a);
    ElementParts(s, pos, a);
  }

  /** The node loop fails when the first node is an element that fails. */
  lemma FailingFirstNode(s: string, p: nat, a: Dom.Arena)
    requires p <= |s|
    requires var c := ConsumeWhitespace(s, p);
      StartsWithAt(s, c, "<") && !StartsWithAt(s, c, "</") && ParseElement(s, c, a) == None
    ensures ParseNodes(s, p, a) == None
  {
    assert ParseNode(s, ConsumeWhitespace(s, p), a) == None;
  }

  /**
    A document without markup is one text node holding everything after the leading
    whitespace; a blank document is an empty `html` element.
  */
  lemma TextOnlyDocument(s: string)
    requires '<' !in s
    ensures var r := Parse(s, Dom.Arena([]));
      var p := ConsumeWhitespace(s, 0);
      && r.Some? && r.value.pos == |s|
      && (p < |s| ==> r.value == Step(Dom.Arena([Dom.NodeRecord(Dom.Text(s[p..]), [], None)]), 0, |s|))
      && (p == |s| ==> r.value.arena.nodes[r.value.value]
                       == Dom.NodeRecord(Dom.Element(Dom.ElementData("html", map[])), [], None))
  {
    var p := ConsumeWhitespace(s, 0);
    var empty := Dom.Arena([]);
    if p < |s| {
      assert !StartsWithAt(s, p, "<") by { assert s[p..][0] == s[p]; }
      assert !StartsWithAt(s, p, "</") by { assert s[p..][0] == s[p]; }
      var text := ParseText(s, p, empty);
      assert text.pos == |s|;
      assert ParseNode(s, p, empty) == Some(text);
      assert s[p..text.pos] == s[p..];
      assert empty.nodes + [Dom.NodeRecord(Dom.Text(s[p..]), [], None)] == [Dom.NodeRecord(Dom.Text(s[p..]), [], None)];
      assert text.value == 0 && text.arena == Dom.Arena([Dom.NodeRecord(Dom.Text(s[p..]), [], None)]);
      assert ParseNodes(s, |s|, text.arena) == Some(Step(text.arena, [], |s|));
      assert [text.value] + [] == [0];
      assert ParseNodes(s, 0, empty) == Some(Step(text.arena, [0], |s|));
    } else {
      assert ParseNodes(s, 0, empty) == Some(Step(empty, [], |s|));
    }
  }

  /** Children were created before their parent, so following children always descends. */
  ghost predicate ChildrenFirst(b: Dom.Arena) {
    forall i :: 0 <= i < |b.nodes| ==> forall c :: c in b.nodes[i].children ==> c < i
  }

  /**
    A parse into an empty arena builds only trees whose children precede their parents and
    whose text nodes are clean text runs; the result names a node of the arena.
  */
  lemma {:induction false} ParseBuildsForest(s: string)
    requires Parse(s, Dom.Arena([])).Some?
    ensures var st := Parse(s, Dom.Arena([])).value;
      && ChildrenFirst(st.arena) && TextsClean(st.arena, 0) && st.value < |st.arena.nodes|
      && forall i :: 0 <= i < |st.arena.nodes| && st.arena.nodes[i].nodeType.Text? ==>
           CleanText(st.arena.nodes[i].nodeType.text)
  {
    var st := Parse(s, Dom.Arena([])).value;
    assert Linked(st.arena, 0);
  }

  /** A stray closing tag at the top level is left unread: an empty `html` element results. */
  lemma StrayClosingTagUnread(a: Dom.Arena)
    ensures var r := Parse("</x>", a);
      && r.Some? && r.value.pos == 0 && r.value.value == |a.nodes|
      && r.value.arena.nodes[r.value.value] == Dom.NodeRecord(Dom.Element(Dom.ElementData("html", map[])), [], None)
  {
    var s := "</x>";
    assert ConsumeWhitespace(s, 0) == 0;
    assert StartsWithAt(s, 0, "</") by { assert s[0..][..2] == "</"; }
    assert ParseNodes(s, 0, a) == Some(Step(a, [], 0));
  }

  /** No whitespace to skip in front of a non-whitespace character. */
  lemma NothingToSkip(s: string, pos: nat)
    requires pos < |s| && !IsWhitespace(s[pos])
    ensures ConsumeWhitespace(s, pos) == pos
  {
  }

  /** The tag name at `p` ends at `e` when exactly the characters in between are alphanumeric. */
  lemma NameRun(s: string, p: nat, e: nat)
    requires p <= e < |s| && !IsAlphanumeric(s[e])
    requires forall i :: p <= i < e ==> IsAlphanumeric(s[i])
    ensures ParseTagName(s, p) == e
  {
  }

  /** The opening tag `<span>` of "<div><span></div>": a name, no attributes, `>`. */
  lemma SpanOpens(s: string)
    requires s == "<div><span></div>"
    ensures ParseTagName(s, 6) == 10 && ParseAttributes(s, 10, map[]) == Some((map[], 10))
  {
    NameRun(s, 6, 10);
    NothingToSkip(s, 10);
  }

  /** `span` has no children before `</div>`. */
  lemma SpanIsEmpty(s: string, a: Dom.Arena)
    requires s == "<div><span></div>"
    ensures ParseNodes(s, 11, a) == Some(Step(a, [], 11))
  {
    NothingToSkip(s, 11);
    assert StartsWithAt(s, 11, "</") by { assert s[11..][..2] == "</"; }
  }

  /**
    `<span>` followed by `</div>`: the name after the `</` where `span`'s children stop is
    `div`, so `span` fails (a case of `MismatchedNameFails`).
  */
  lemma SpanClosedByDivFails(s: string, a: Dom.Arena)
    requires s == "<div><span></div>"
    ensures ParseElement(s, 5, a) == None
  {
    SpanOpens(s);
    SpanIsEmpty(s, a);
    NameRun(s, 13, 16);
    assert |s[13..16]| != |s[6..10]|;
    MismatchedNameFails(s, 5, a);
  }

  /** The opening tag `<div>` of "<div><span></div>", followed directly by the `<span>` element. */
  lemma DivOpens(s: string)
    requires s == "<div><span></div>"
    ensures ParseTagName(s, 1) == 4 && ParseAttributes(s, 4, map[]) == Some((map[], 4))
    ensures ConsumeWhitespace(s, 5) == 5 && StartsWithAt(s, 5, "<") && !StartsWithAt(s, 5, "</")
  {
    NameRun(s, 1, 4);
    NothingToSkip(s, 4);
    NothingToSkip(s, 5);
    assert !StartsWithAt(s, 5, "</") by { assert s[5..][1] == 's'; }
    assert StartsWithAt(s, 5, "<") by { assert s[5..][..1] == "<"; }
  }

  /**
    In `<div><span></div>`, `</div>` is read as the closing tag of `span`, whose name it does
    not repeat, so `span` fails and with it the whole `div` (a case of `FailingChildFails`).
  */
  lemma MismatchedClosingTagFails(s: string, a: Dom.Arena)
    requires s == "<div><span></div>"
    ensures ParseElement(s, 0, a) == None
  {
    DivOpens(s);
    SpanClosedByDivFails(s, a);
    FailingChildFails(s, 0, a);
  }


  // ---------------------------------------------------------------------
  // Well-formed fragments

  /** A name the parser reads whole: a non-empty run of ASCII letters and digits. */
  predicate IsName(t: string) {
    |t| > 0 && forall i :: 0 <= i < |t| ==> IsAlphanumeric(t[i])
  }

  /** The opening tag `<tag>` without attributes. */
  function PlainTag(tag: string): string {
    "<" + tag + ">"
  }

  /** The closing tag `</tag>`. */
  function EndTag(tag: string): string {
    "</" + tag + ">"
  }

  /** The opening tag `<tag name="value">` with one double-quoted attribute. */
  function TagWithAttribute(tag: string, name: string, value: string): string {
    "<" + tag + " " + name + "=\"" + value + "\">"
  }

  /** The input spells `t` from position `i` on. */
  predicate SpellsAt(s: string, i: nat, t: string) {
    i + |t| <= |s| && forall k :: 0 <= k < |t| ==> s[i + k] == t[k]
  }

  lemma CharOf(s: string, i: nat, t: string, k: nat)
    requires SpellsAt(s, i, t) && k < |t|
    ensures s[i + k] == t[k]
  {
  }

  lemma SpellsEnd(x: string, y: string)
    ensures SpellsAt(x + y, |x|, y)
  {
    forall k | 0 <= k < |y| ensures (x + y)[|x| + k] == y[k] {
    }
  }

  lemma SpellsExtend(x: string, i: nat, t: string, y: string)
    requires SpellsAt(x, i, t)
    ensures SpellsAt(x + y, i, t)
  {
    forall k | 0 <= k < |t| ensures (x + y)[i + k] == t[k] {
      assert x[i + k] == t[k];
    }
  }

  /** The input starts with `</` where it spells it. */
  lemma ClosesHere(s: string, p: nat, a: Dom.Arena)
    requires SpellsAt(s, p, "</")
    ensures StartsWithAt(s, p, "</") && ParseNodes(s, p, a) == Some(Step(a, [], p))
  {
    CharOf(s, p, "</", 0);
    assert s[p..][..2] == s[p..p + 2];
    NothingToSkip(s, p);
  }

  /** `<tag>` is read as the opening tag `tag` without attributes. */
  lemma PlainTagOpens(s: string, p: nat, tag: string)
    requires IsName(tag) && SpellsAt(s, p, PlainTag(tag))
    ensures OpenTag(s, p) == Some(Opening(tag, map[], p + |tag| + 2))
  {
    var t := PlainTag(tag);
    var e := p + 1 + |tag|;
    forall i | p + 1 <= i < e ensures s[i] == tag[i - p - 1] {
      CharOf(s, p, t, i - p);
    }
    CharOf(s, p, t, 0);
    CharOf(s, p, t, |tag| + 1);
    NameRun(s, p + 1, e);
    NothingToSkip(s, e);
    assert s[p + 1..e] == tag;
  }

  /** A closing tag starts with `</`. */
  lemma EndTagStarts(s: string, p: nat, tag: string)
    requires SpellsAt(s, p, EndTag(tag))
    ensures SpellsAt(s, p, "</")
  {
    SpellsSplit(s, p, "</" + tag, ">");
    SpellsSplit(s, p, "</", tag);
  }

  /** `</tag>` closes an element opened as `tag`. */
  lemma EndTagCloses(s: string, p: nat, tag: string)
    requires IsName(tag) && SpellsAt(s, p, EndTag(tag))
    ensures ClosingTagEnd(s, p, tag) == Some(p + |tag| + 3)
  {
    var t := EndTag(tag);
    var e := p + 2 + |tag|;
    forall i | p + 2 <= i < e ensures s[i] == tag[i - p - 2] {
      CharOf(s, p, t, i - p);
    }
    CharOf(s, p, t, 0);
    CharOf(s, p, t, 1);
    CharOf(s, p, t, |tag| + 2);
    NameRun(s, p + 2, e);
    assert s[p + 2..e] == tag;
  }

  /** Spelling `x + y` is spelling `x` and then `y`. */
  lemma SpellsSplit(s: string, i: nat, x: string, y: string)
    requires SpellsAt(s, i, x + y)
    ensures SpellsAt(s, i, x) && SpellsAt(s, i + |x|, y)
  {
    forall k | 0 <= k < |x| ensures s[i + k] == x[k] {
      assert (x + y)[k] == x[k];
    }
    forall k | 0 <= k < |y| ensures s[i + |x| + k] == y[k] {
      assert (x + y)[|x| + k] == y[k];
    }
  }

  /** A name followed at `e` by a character that cannot continue it is read whole. */
  lemma NameAt(s: string, p: nat, e: nat, name: string)
    requires IsName(name) && e == p + |name| && SpellsAt(s, p, name)
    requires e < |s| && !IsAlphanumeric(s[e])
    ensures ParseTagName(s, p) == e && s[p..e] == name
  {
    forall i | p <= i < e ensures IsAlphanumeric(s[i]) {
      CharOf(s, p, name, i - p);
    }
    NameRun(s, p, e);
  }

  /**
    `"value"` with the quotes at `p` and `c`, a value without `"` in it, is read as that
    value.
  */
  lemma QuotedValueAt(s: string, p: nat, v: nat, c: nat, value: string)
    requires v == p + 1 && c == v + |value| && '"' !in value
    requires c < |s| && s[p] == '"' && SpellsAt(s, v, value) && s[c] == '"'
    ensures ParseAttrValue(s, p) == Some((value, c + 1))
  {
    forall j | v <= j < c ensures s[j] != '"' {
      CharOf(s, v, value, j - v);
    }
    assert '"' in s[v..] by { assert s[v..][|value|] == s[c]; }
    var (w, f) := ParseAttrValue(s, p).value;
    assert forall j :: v <= j < f - 1 ==> s[j] == w[j - v];
    assert f - 1 == c;
    assert w == s[v..c] == value;
  }

  /** An attribute is its name run, `=`, and the quoted value, with nothing to skip between. */
  lemma AttributeFrom(s: string, q: nat, e: nat, name: string, value: string, f: nat)
    requires q <= e < |s| && ParseTagName(s, q) == e && s[q..e] == name && s[e] == '='
    requires ConsumeWhitespace(s, e) == e && ConsumeWhitespace(s, e + 1) == e + 1
    requires ParseAttrValue(s, e + 1) == Some((value, f))
    ensures ParseAttribute(s, q) == Some((name, value, f))
  {
  }

  /** The attribute `name="value"` from `q`: the name, `="` at `e`, the value at `v`, `"` at `c`. */
  lemma QuotedAttribute(s: string, q: nat, e: nat, v: nat, c: nat, name: string, value: string)
    requires IsName(name) && '"' !in value
    requires e == q + |name| && v == e + 2 && c == v + |value|
    requires SpellsAt(s, q, name) && SpellsAt(s, e, "=\"") && SpellsAt(s, v, value)
    requires c < |s| && s[c] == '"'
    ensures ParseAttribute(s, q) == Some((name, value, c + 1))
  {
    EqualsQuoteAt(s, q, e, name);
    QuotedValueAt(s, e + 1, v, c, value);
    AttributeFrom(s, q, e, name, value, c + 1);
  }

  /** The name from `q` to `e`, then `="` with nothing to skip around the `=`. */
  lemma EqualsQuoteAt(s: string, q: nat, e: nat, name: string)
    requires IsName(name) && e == q + |name| && SpellsAt(s, q, name) && SpellsAt(s, e, "=\"")
    ensures e + 1 < |s| && s[e] == '=' && s[e + 1] == '"'
    ensures ParseTagName(s, q) == e && s[q..e] == name
    ensures ConsumeWhitespace(s, e) == e && ConsumeWhitespace(s, e + 1) == e + 1
  {
    CharOf(s, e, "=\"", 0);
    CharOf(s, e, "=\"", 1);
    NameAt(s, q, e, name);
    NothingToSkip(s, e);
    NothingToSkip(s, e + 1);
  }

  /** The pieces of `<tag name="value">`, each where it sits. */
  lemma AttributeTagPieces(s: string, p: nat, tag: string, name: string, value: string)
    requires SpellsAt(s, p, TagWithAttribute(tag, name, value))
    ensures SpellsAt(s, p, "<") && SpellsAt(s, p + 1, tag) && SpellsAt(s, p + 1 + |tag|, " ")
    ensures SpellsAt(s, p + 1 + |tag| + 1, name) && SpellsAt(s, p + 1 + |tag| + 1 + |name|, "=\"")
    ensures SpellsAt(s, p + 1 + |tag| + 1 + |name| + 2, value)
    ensures SpellsAt(s, p + 1 + |tag| + 1 + |name| + 2 + |value|, "\">")
  {
    SpellsSplit(s, p, "<" + tag + " " + name + "=\"" + value, "\">");
    SpellsSplit(s, p, "<" + tag + " " + name + "=\"", value);
    SpellsSplit(s, p, "<" + tag + " " + name, "=\"");
    SpellsSplit(s, p, "<" + tag + " ", name);
    SpellsSplit(s, p, "<" + tag, " ");
    SpellsSplit(s, p, "<", tag);
  }

  /** `<tag name="value">` is read as the opening tag `tag` with that one attribute. */
  lemma AttributeTagOpens(s: string, p: nat, tag: string, name: string, value: string)
    requires IsName(tag) && IsName(name) && '"' !in value
    requires SpellsAt(s, p, TagWithAttribute(tag, name, value))
    ensures OpenTag(s, p) == Some(Opening(tag, map[name := value], p + |tag| + |name| + |value| + 6))
  {
    var a := p + 1;
    var b := a + |tag|;
    var n := b + 1;
    var e := n + |name|;
    var v := e + 2;
    var c := v + |value|;
    assert OpenTag(s, p) == Some(Opening(tag, map[name := value], c + 2)) by {
      AttributeTagPieces(s, p, tag, name, value);
      OpenWithAttribute(s, p, a, b, n, e, v, c, tag, name, value);
    }
    assert c + 2 == p + |tag| + |name| + |value| + 6;
  }

  /**
    `<` at `p`, the tag at `a`, a space at `b`, the name at `n`, `="` at `e`, the value at
    `v` and `">` at `c`: the opening tag with its one attribute.
  */
  lemma OpenWithAttribute(s: string, p: nat, a: nat, b: nat, n: nat, e: nat, v: nat, c: nat,
                          tag: string, name: string, value: string)
    requires IsName(tag) && IsName(name) && '"' !in value
    requires a == p + 1 && b == a + |tag| && n == b + 1 && e == n + |name| && v == e + 2 && c == v + |value|
    requires SpellsAt(s, p, "<") && SpellsAt(s, a, tag) && SpellsAt(s, b, " ")
    requires SpellsAt(s, n, name) && SpellsAt(s, e, "=\"") && SpellsAt(s, v, value) && SpellsAt(s, c, "\">")
    ensures OpenTag(s, p) == Some(Opening(tag, map[name := value], c + 2))
  {
    TagBeforeSpace(s, p, a, b, tag);
    OneAttribute(s, b, n, e, v, c, name, value);
    OpenFrom(s, p, a, b, tag, map[name := value], c + 1);
  }

  /** `<` at `p`, then the tag from `a` to the space at `b`. */
  lemma TagBeforeSpace(s: string, p: nat, a: nat, b: nat, tag: string)
    requires IsName(tag) && a == p + 1 && b == a + |tag|
    requires SpellsAt(s, p, "<") && SpellsAt(s, a, tag) && SpellsAt(s, b, " ")
    ensures p < |s| && s[p] == '<' && b < |s| && ParseTagName(s, a) == b && s[a..b] == tag
  {
    CharOf(s, p, "<", 0);
    CharOf(s, b, " ", 0);
    NameAt(s, a, b, tag);
  }

  /** A space at `q`, then `name="value"`, then `>`: the attribute loop reads the one attribute. */
  lemma OneAttribute(s: string, q: nat, n: nat, e: nat, v: nat, c: nat, name: string, value: string)
    requires IsName(name) && '"' !in value
    requires n == q + 1 && e == n + |name| && v == e + 2 && c == v + |value|
    requires SpellsAt(s, q, " ") && SpellsAt(s, n, name) && SpellsAt(s, e, "=\"")
    requires SpellsAt(s, v, value) && SpellsAt(s, c, "\">")
    ensures ParseAttributes(s, q, map[]) == Some((map[name := value], c + 1))
  {
    assert && n <= c + 1 < |s| && IsWhitespace(s[q]) && s[n] != '>' && ConsumeWhitespace(s, n) == n
           && s[c + 1] == '>' && ConsumeWhitespace(s, c + 1) == c + 1
           && ParseAttribute(s, n) == Some((name, value, c + 1)) by {
      AttributeFrame(s, q, n, c, name);
      QuotedAttribute(s, n, e, v, c, name, value);
    }
    assert ConsumeWhitespace(s, q) == n;
  }

  /** What surrounds one attribute: a space at `q`, a name from `n`, and `">` at `c`. */
  lemma AttributeFrame(s: string, q: nat, n: nat, c: nat, name: string)
    requires IsName(name) && n == q + 1
    requires SpellsAt(s, q, " ") && SpellsAt(s, n, name) && SpellsAt(s, c, "\">")
    ensures n < |s| && IsWhitespace(s[q]) && s[n] != '>' && ConsumeWhitespace(s, n) == n
    ensures c + 1 < |s| && s[c] == '"' && s[c + 1] == '>' && ConsumeWhitespace(s, c + 1) == c + 1
  {
    CharOf(s, q, " ", 0);
    CharOf(s, c, "\">", 0);
    CharOf(s, c, "\">", 1);
    CharOf(s, n, name, 0);
    NothingToSkip(s, n);
    NothingToSkip(s, c + 1);
  }

  /** An opening tag is `<`, its name run from `a` to `b`, and the attribute loop up to the `>` at `f`. */
  lemma OpenFrom(s: string, p: nat, a: nat, b: nat, tag: string, attrs: Dom.AttrMap, f: nat)
    requires a == p + 1 && b == a + |tag|
    requires p < |s| && s[p] == '<' && b <= |s|
    requires ParseTagName(s, a) == b && s[a..b] == tag
    requires ParseAttributes(s, b, map[]) == Some((attrs, f))
    ensures OpenTag(s, p) == Some(Opening(tag, attrs, f + 1))
  {
    var read := ParseAttributes(s, ParseTagName(s, p + 1), map[]);
    assert read == Some((attrs, f));
    var r := OpenTag(s, p);
    assert r.Some?;
    assert r.value.tag == tag;
    assert r.value.attrs == attrs;
    assert r.value.after == f + 1;
  }

  /** A run without `<` spelled at `p` and followed by `</`: the characters the text loop sees. */
  lemma TextRun(s: string, p: nat, text: string)
    requires |text| > 0 && '<' !in text && !IsWhitespace(text[0])
    requires SpellsAt(s, p, text) && SpellsAt(s, p + |text|, "</")
    ensures p + |text| < |s| && s[p + |text|] == '<' && s[p..p + |text|] == text
    ensures s[p] != '<' && !IsWhitespace(s[p])
    ensures forall j :: p <= j < p + |text| ==> s[j] != '<'
  {
    var e := p + |text|;
    forall k | 0 <= k < |text| ensures s[p + k] == text[k] {
      CharOf(s, p, text, k);
    }
    CharOf(s, e, "</", 0);
    forall j | p <= j < e ensures s[j] != '<' {
      assert s[j] == text[j - p];
    }
  }

  /**
    A text run up to `</`: one text node holding exactly the run, and the node loop stops in
    front of the closing tag.
  */
  lemma TextBeforeEndTag(s: string, p: nat, text: string, a: Dom.Arena)
    requires |text| > 0 && '<' !in text && !IsWhitespace(text[0])
    requires SpellsAt(s, p, text) && SpellsAt(s, p + |text|, "</")
    ensures ParseNodes(s, p, a)
         == Some(Step(Dom.Arena(a.nodes + [Dom.NodeRecord(Dom.Text(text), [], None)]), [|a.nodes|], p + |text|))
  {
    var e := p + |text|;
    TextRun(s, p, text);
    NothingToSkip(s, p);
    NotStartsWith(s, p, "<", 0);
    NotStartsWith(s, p, "</", 0);
    var node := ParseText(s, p, a);
    assert node.pos == e;
    assert ParseNode(s, p, a) == Some(node);
    ClosesHere(s, e, node.arena);
    assert [node.value] + [] == [|a.nodes|];
  }

  /** The input does not start with `t` at `pos` when one of the characters differs. */
  lemma NotStartsWith(s: string, pos: nat, t: string, k: nat)
    requires pos + k < |s| && k < |t| && s[pos + k] != t[k]
    ensures !StartsWithAt(s, pos, t)
  {
    assert s[pos..][k] == s[pos + k];
  }

  /** At `<` not followed by `/`, the node loop reads an element, with nothing to skip first. */
  lemma ElementAhead(s: string, p: nat)
    requires p + 1 < |s| && s[p] == '<' && s[p + 1] != '/'
    ensures ConsumeWhitespace(s, p) == p && StartsWithAt(s, p, "<") && !StartsWithAt(s, p, "</")
  {
    NothingToSkip(s, p);
    NotStartsWith(s, p, "</", 1);
    assert s[p..][..1] == [s[p]];
  }

  /**
    An element that is the only node before a closing tag: the node loop returns it alone
    and stops in front of the closing tag.
  */
  lemma OnlyElement(s: string, p: nat, a: Dom.Arena)
    requires p + 1 < |s| && s[p] == '<' && s[p + 1] != '/'
    requires ParseElement(s, p, a).Some? && SpellsAt(s, ParseElement(s, p, a).value.pos, "</")
    ensures var st := ParseElement(s, p, a).value;
      ParseNodes(s, p, a) == Some(Step(st.arena, [st.value], st.pos))
  {
    var st := ParseElement(s, p, a).value;
    ElementAhead(s, p);
    assert ParseNode(s, p, a) == Some(st);
    ClosesHere(s, st.pos, st.arena);
    assert [st.value] + [] == [st.value];
  }

  /**
    A document that is one element from its first character to its last is that element:
    the parse returns its node itself rather than an `html` wrapper.
  */
  lemma SingleElementDocument(s: string, a: Dom.Arena)
    requires 1 < |s| && s[0] == '<' && s[1] != '/'
    requires ParseElement(s, 0, a).Some? && ParseElement(s, 0, a).value.pos == |s|
    ensures Parse(s, a) == ParseElement(s, 0, a)
  {
    var st := ParseElement(s, 0, a).value;
    ElementAhead(s, 0);
    assert ParseNode(s, 0, a) == Some(st);
    assert ParseNodes(s, |s|, st.arena) == Some(Step(st.arena, [], |s|));
    assert [st.value] + [] == [st.value];
  }

  // ---------------------------------------------------------------------
  // A whole document, step by step

  /** A small document: `<div><p style="color:red;">Hi</p></div>`. */
  const SampleDocument: string :=
    PlainTag("div") + TagWithAttribute("p", "style", "color:red;") + "Hi" + EndTag("p") + EndTag("div")

  /** The paragraph element of the sample document, with its attribute. */
  const SampleParagraph: Dom.ElementData := Dom.ElementData("p", map["style" := "color:red;"])

  /** No nodes: the arena a parse of a whole document starts from. */
  const NoNodes: seq<Dom.NodeRecord> := []

  /** The text node of the sample, before the paragraph adopts it. */
  const SampleText: Dom.NodeRecord := Dom.NodeRecord(Dom.Text("Hi"), [], None)

  /** The paragraph node of the sample, before the `div` adopts it. */
  const SampleParagraphNode: Dom.NodeRecord := Dom.NodeRecord(Dom.Element(SampleParagraph), [0], None)

  /** The nodes the sample document parses into: the text, the paragraph, then the `div`. */
  const SampleNodes: seq<Dom.NodeRecord> := [
    SampleText.(parent := Some(1)),
    SampleParagraphNode.(parent := Some(2)),
    Dom.NodeRecord(Dom.Element(Dom.ElementData("div", map[])), [1], None)
  ]

  lemma SampleNames()
    ensures IsName("div") && IsName("p") && IsName("style") && '"' !in "color:red;"
    ensures '<' !in "Hi" && !IsWhitespace("Hi"[0])
  {
  }

  lemma LowerP()
    ensures ToLower("p") == "p"
  {
    assert ToLower("p")[0] == 'p';
  }

  lemma LowerDiv()
    ensures ToLower("div") == "div"
  {
    var d := "div";
    assert ToLower(d)[0] == 'd' && ToLower(d)[1] == 'i' && ToLower(d)[2] == 'v';
  }

  /** Where the pieces of the sample document sit. */
  lemma SampleLayout(s: string)
    requires s == SampleDocument
    ensures |s| == 39
    ensures SpellsAt(s, 0, PlainTag("div")) && SpellsAt(s, 5, TagWithAttribute("p", "style", "color:red;"))
    ensures SpellsAt(s, 27, "Hi") && SpellsAt(s, 29, EndTag("p")) && SpellsAt(s, 33, EndTag("div"))
  {
    var a, b, c, d, e := PlainTag("div"), TagWithAttribute("p", "style", "color:red;"), "Hi", EndTag("p"), EndTag("div");
    assert |a| == 5 && |b| == 22 && |c| == 2 && |d| == 4 && |e| == 6;
    assert SpellsAt(a, 0, a);
    SpellsExtend(a, 0, a, b);
    SpellsExtend(a + b, 0, a, c);
    SpellsExtend(a + b + c, 0, a, d);
    SpellsExtend(a + b + c + d, 0, a, e);
    SpellsEnd(a, b);
    SpellsExtend(a + b, 5, b, c);
    SpellsExtend(a + b + c, 5, b, d);
    SpellsExtend(a + b + c + d, 5, b, e);
    SpellsEnd(a + b, c);
    SpellsExtend(a + b + c, 27, c, d);
    SpellsExtend(a + b + c + d, 27, c, e);
    SpellsEnd(a + b + c, d);
    SpellsExtend(a + b + c + d, 29, d, e);
    SpellsEnd(a + b + c + d, e);
  }

  /**
    An element whose children are a single node, the last one created: the node gets the
    element as parent, and the element is appended after it.
  */
  lemma WrapsLastNode(s: string, p: nat, a: Dom.Arena, open: Opening, kids: Step<seq<Dom.NodeId>>, e: nat,
                      rest: seq<Dom.NodeRecord>, last: Dom.NodeRecord)
    requires p <= |s| && OpenTag(s, p) == Some(open)
    requires ParseNodes(s, open.after, a) == Some(kids)
    requires ClosingTagEnd(s, kids.pos, open.tag) == Some(e)
    requires kids.arena.nodes == rest + [last] && kids.value == [|rest|]
    ensures var n: Dom.NodeId := |rest| + 1;
      ParseElement(s, p, a) == Some(Step(Dom.Arena(rest + [
        last.(parent := Some(n)),
        Dom.NodeRecord(Dom.Element(Dom.ElementData(ToLower(open.tag), open.attrs)), [|rest|], None)]), n, e))
  {
    ElementParts(s, p, a);
    var r := CloseElement(s, open.tag, open.attrs, a, kids).value;
    AdoptsLast(kids, r, rest, last);
  }

  /** Wrapping a single child that is the last node: it alone gets the new parent. */
  lemma AdoptsLast(kids: Step<seq<Dom.NodeId>>, r: Step<Dom.NodeId>, rest: seq<Dom.NodeRecord>, last: Dom.NodeRecord)
    requires kids.arena.nodes == rest + [last] && kids.value == [|rest|]
    requires r.value == |kids.arena.nodes| && |r.arena.nodes| == |kids.arena.nodes| + 1
    requires forall i :: 0 <= i < |kids.arena.nodes| ==>
      r.arena.nodes[i]
      == if i in kids.value then kids.arena.nodes[i].(parent := Some(r.value)) else kids.arena.nodes[i]
    ensures r.arena.nodes == rest + [last.(parent := Some(|rest| + 1)), r.arena.nodes[r.value]]
  {
    var want := rest + [last.(parent := Some(|rest| + 1)), r.arena.nodes[r.value]];
    forall i | 0 <= i < |want| ensures r.arena.nodes[i] == want[i] {
      if i < |rest| + 1 {
        assert (i in kids.value) == (i == |rest|);
      }
    }
  }

  /** The content of the sample's paragraph: the text `Hi`, up to `</p>`. */
  lemma SampleParagraphText(s: string)
    requires SpellsAt(s, 27, "Hi") && SpellsAt(s, 29, EndTag("p"))
    ensures ParseNodes(s, 27, Dom.Arena(NoNodes)) == Some(Step(Dom.Arena(NoNodes + [SampleText]), [0], 29))
  {
    SampleNames();
    EndTagStarts(s, 29, "p");
    TextBeforeEndTag(s, 27, "Hi", Dom.Arena(NoNodes));
  }

  /** The arena of the paragraph once it has adopted the text. */
  lemma ParagraphArena()
    ensures NoNodes + [SampleText.(parent := Some(|NoNodes| + 1)),
      Dom.NodeRecord(Dom.Element(Dom.ElementData(ToLower("p"), map["style" := "color:red;"])), [0], None)]
      == SampleNodes[..1] + [SampleParagraphNode]
  {
    LowerP();
  }

  /** The arena of the `div` once it has adopted the paragraph. */
  lemma DivArena()
    ensures SampleNodes[..1] + [SampleParagraphNode.(parent := Some(|SampleNodes[..1]| + 1)),
      Dom.NodeRecord(Dom.Element(Dom.ElementData(ToLower("div"), map[])), [1], None)]
      == SampleNodes
  {
    LowerDiv();
  }

  /** The opening tag `<p style="color:red;">` of the sample. */
  lemma SampleParagraphOpens(s: string)
    requires SpellsAt(s, 5, TagWithAttribute("p", "style", "color:red;"))
    ensures OpenTag(s, 5) == Some(Opening("p", map["style" := "color:red;"], 27))
  {
    SampleNames();
    AttributeTagOpens(s, 5, "p", "style", "color:red;");
  }

  lemma SampleParagraphCloses(s: string)
    requires SpellsAt(s, 29, EndTag("p"))
    ensures ClosingTagEnd(s, 29, "p") == Some(33)
  {
    SampleNames();
    EndTagCloses(s, 29, "p");
  }

  /** The sample's paragraph: the text `Hi` becomes its child, and `</p>` closes it. */
  lemma SampleParagraphParses(s: string)
    requires SpellsAt(s, 5, TagWithAttribute("p", "style", "color:red;"))
    requires SpellsAt(s, 27, "Hi") && SpellsAt(s, 29, EndTag("p"))
    ensures ParseElement(s, 5, Dom.Arena([])) == Some(Step(Dom.Arena(SampleNodes[..1] + [SampleParagraphNode]), 1, 33))
  {
    SampleParagraphOpens(s);
    SampleParagraphText(s);
    SampleParagraphCloses(s);
    WrapsLastNode(s, 5, Dom.Arena(NoNodes), Opening("p", map["style" := "color:red;"], 27),
                  Step(Dom.Arena(NoNodes + [SampleText]), [0], 29), 33, NoNodes, SampleText);
    ParagraphArena();
  }

  /** The children of the sample's `div`: the paragraph alone, up to `</div>`. */
  lemma SampleDivChildren(s: string)
    requires SpellsAt(s, 5, TagWithAttribute("p", "style", "color:red;"))
    requires SpellsAt(s, 27, "Hi") && SpellsAt(s, 29, EndTag("p")) && SpellsAt(s, 33, EndTag("div"))
    ensures ParseNodes(s, 5, Dom.Arena([])) == Some(Step(Dom.Arena(SampleNodes[..1] + [SampleParagraphNode]), [1], 33))
  {
    SampleParagraphParses(s);
    CharOf(s, 5, TagWithAttribute("p", "style", "color:red;"), 0);
    CharOf(s, 5, TagWithAttribute("p", "style", "color:red;"), 1);
    EndTagStarts(s, 33, "div");
    OnlyElement(s, 5, Dom.Arena([]));
  }

  /** The sample's `div`: the paragraph becomes its only child, and `</div>` closes it. */
  lemma SampleDivParses(s: string)
    requires SpellsAt(s, 0, PlainTag("div")) && SpellsAt(s, 5, TagWithAttribute("p", "style", "color:red;"))
    requires SpellsAt(s, 27, "Hi") && SpellsAt(s, 29, EndTag("p")) && SpellsAt(s, 33, EndTag("div"))
    ensures ParseElement(s, 0, Dom.Arena([])) == Some(Step(Dom.Arena(SampleNodes), 2, 39))
  {
    SampleNames();
    PlainTagOpens(s, 0, "div");
    SampleDivChildren(s);
    EndTagCloses(s, 33, "div");
    WrapsLastNode(s, 0, Dom.Arena([]), Opening("div", map[], 5),
                  Step(Dom.Arena(SampleNodes[..1] + [SampleParagraphNode]), [1], 33), 39,
                  SampleNodes[..1], SampleParagraphNode);
    DivArena();
  }

  /** Any input laid out as the sample parses as the sample: the `div` is the whole document. */
  lemma SampleParsesAsDiv(s: string)
    requires |s| == 39
    requires SpellsAt(s, 0, PlainTag("div")) && SpellsAt(s, 5, TagWithAttribute("p", "style", "color:red;"))
    requires SpellsAt(s, 27, "Hi") && SpellsAt(s, 29, EndTag("p")) && SpellsAt(s, 33, EndTag("div"))
    ensures Parse(s, Dom.Arena([])) == Some(Step(Dom.Arena(SampleNodes), 2, 39))
  {
    assert && 1 < |s| && s[0] == '<' && s[1] != '/'
           && ParseElement(s, 0, Dom.Arena([])) == Some(Step(Dom.Arena(SampleNodes), 2, |s|)) by {
      SampleDivParses(s);
      OpensElement(s, "div");
    }
    SingleElementDocument(s, Dom.Arena([]));
  }

  /**
    The sample document parses into three nodes: the `div` is the document, holding the
    paragraph with its `style` attribute, which holds the text `Hi`; each child points back
    at its parent.
  */
  lemma SampleDocumentParses()
    ensures Parse(SampleDocument, Dom.Arena([])) == Some(Step(Dom.Arena(SampleNodes), 2, 39))
  {
    SampleLayout(SampleDocument);
    SampleParsesAsDiv(SampleDocument);
  }

  // ---------------------------------------------------------------------
  // Two top-level siblings

  /** A document of two paragraphs in a row: `<p>a</p><p>b</p>`. */
  const TwoParagraphs: string := PlainTag("p") + "a" + EndTag("p") + PlainTag("p") + "b" + EndTag("p")

  /** The paragraph `<p>` holding the one-letter text `c`, as created after the nodes `before`. */
  function LetterParagraph(before: nat, c: char, parent: Option<Dom.NodeId>): seq<Dom.NodeRecord> {
    [Dom.NodeRecord(Dom.Text([c]), [], Some(before + 1)),
     Dom.NodeRecord(Dom.Element(Dom.ElementData("p", map[])), [before], parent)]
  }

  /**
    The nodes `<p>a</p><p>b</p>` parses into: each paragraph after its text, and a new `html`
    element holding both paragraphs, in the order they were read.
  */
  const TwoParagraphNodes: seq<Dom.NodeRecord> :=
    LetterParagraph(0, 'a', Some(4)) + LetterParagraph(2, 'b', Some(4))
    + [Dom.NodeRecord(Dom.Element(Dom.ElementData("html", map[])), [1, 3], None)]

  /** Where the pieces of the two-paragraph document sit. */
  lemma TwoParagraphsLayout(s: string)
    requires s == TwoParagraphs
    ensures |s| == 16
    ensures SpellsAt(s, 0, PlainTag("p")) && SpellsAt(s, 3, "a") && SpellsAt(s, 4, EndTag("p"))
    ensures SpellsAt(s, 8, PlainTag("p")) && SpellsAt(s, 11, "b") && SpellsAt(s, 12, EndTag("p"))
  {
    var o, x, e, y := PlainTag("p"), "a", EndTag("p"), "b";
    assert |o| == 3 && |e| == 4;
    assert s == o + x + e + o + y + e;
    forall k | 0 <= k < 16
      ensures s[k] == "<p>a</p><p>b</p>"[k]
    {
    }
  }

  /**
    `<p>` followed by a one-letter text and `</p>`: the text becomes the only child of a
    new `p` element.
  */
  lemma LetterParagraphParses(s: string, p: nat, c: char, a: Dom.Arena)
    requires c != '<' && !IsWhitespace(c)
    requires SpellsAt(s, p, PlainTag("p")) && SpellsAt(s, p + 3, [c]) && SpellsAt(s, p + 4, EndTag("p"))
    ensures var n: Dom.NodeId := |a.nodes| + 1;
      ParseElement(s, p, a) == Some(Step(Dom.Arena(a.nodes + LetterParagraph(|a.nodes|, c, None)), n, p + 8))
  {
    var text := Dom.NodeRecord(Dom.Text([c]), [], None);
    SampleNames();
    PlainTagOpens(s, p, "p");
    EndTagStarts(s, p + 4, "p");
    TextBeforeEndTag(s, p + 3, [c], a);
    EndTagCloses(s, p + 4, "p");
    WrapsLastNode(s, p, a, Opening("p", map[], p + 3),
                  Step(Dom.Arena(a.nodes + [text]), [|a.nodes|], p + 4), p + 8, a.nodes, text);
    LowerP();
    assert a.nodes + [text.(parent := Some(|a.nodes| + 1)),
                      Dom.NodeRecord(Dom.Element(Dom.ElementData("p", map[])), [|a.nodes|], None)]
        == a.nodes + LetterParagraph(|a.nodes|, c, None);
  }

  /** An element that runs to the end of the input is the node loop's last node. */
  lemma LastElement(s: string, p: nat, a: Dom.Arena, st: Step<Dom.NodeId>)
    requires p + 1 < |s| && s[p] == '<' && s[p + 1] != '/'
    requires ParseElement(s, p, a) == Some(st) && st.pos == |s|
    ensures ParseNodes(s, p, a) == Some(Step(st.arena, [st.value], |s|))
  {
    ElementAhead(s, p);
    assert ParseNode(s, p, a) == Some(st);
    assert ParseNodes(s, |s|, st.arena) == Some(Step(st.arena, [], |s|));
    assert [st.value] + [] == [st.value];
  }

  /** An element at `p` and then the siblings after it: the node loop lists the element first. */
  lemma ElementThenSiblings(s: string, p: nat, a: Dom.Arena, st: Step<Dom.NodeId>, rest: Step<seq<Dom.NodeId>>)
    requires p + 1 < |s| && s[p] == '<' && s[p + 1] != '/'
    requires ParseElement(s, p, a) == Some(st) && ParseNodes(s, st.pos, st.arena) == Some(rest)
    ensures ParseNodes(s, p, a) == Some(Step(rest.arena, [st.value] + rest.value, rest.pos))
  {
    ElementAhead(s, p);
    assert ParseNode(s, p, a) == Some(st);
  }

  /** An element followed by exactly one sibling: the loop returns the two ids, in order. */
  lemma ElementThenOne(s: string, p: nat, q: nat, a: Dom.Arena, one: Dom.Arena, x: Dom.NodeId, m: nat,
                       two: Dom.Arena, y: Dom.NodeId, e: nat)
    requires q == p + 1 && q < |s| && s[p] == '<' && s[q] != '/'
    requires ParseElement(s, p, a) == Some(Step(one, x, m))
    requires ParseNodes(s, m, one) == Some(Step(two, [y], e))
    ensures ParseNodes(s, p, a) == Some(Step(two, [x, y], e))
  {
    ElementThenSiblings(s, p, a, Step(one, x, m), Step(two, [y], e));
    Pair(x, y);
  }

  lemma Pair(x: Dom.NodeId, y: Dom.NodeId)
    ensures [x] + [y] == [x, y]
  {
  }

  /** The first paragraph of `<p>a</p><p>b</p>`, read into an empty arena. */
  lemma FirstLetterParagraph(s: string)
    requires SpellsAt(s, 0, PlainTag("p")) && SpellsAt(s, 3, "a") && SpellsAt(s, 4, EndTag("p"))
    ensures ParseElement(s, 0, Dom.Arena([])) == Some(Step(Dom.Arena(LetterParagraph(0, 'a', None)), 1, 8))
  {
    LetterParagraphParses(s, 0, 'a', Dom.Arena([]));
    assert [] + LetterParagraph(0, 'a', None) == LetterParagraph(0, 'a', None);
  }

  /** The second paragraph of `<p>a</p><p>b</p>` is the last node the loop reads. */
  lemma SecondLetterParagraph(s: string)
    requires |s| == 16
    requires SpellsAt(s, 8, PlainTag("p")) && SpellsAt(s, 11, "b") && SpellsAt(s, 12, EndTag("p"))
    ensures var first := LetterParagraph(0, 'a', None);
      ParseNodes(s, 8, Dom.Arena(first)) == Some(Step(Dom.Arena(first + LetterParagraph(2, 'b', None)), [3], 16))
  {
    var first := LetterParagraph(0, 'a', None);
    LetterParagraphParses(s, 8, 'b', Dom.Arena(first));
    CharOf(s, 8, PlainTag("p"), 0);
    CharOf(s, 8, PlainTag("p"), 1);
    LastElement(s, 8, Dom.Arena(first), Step(Dom.Arena(first + LetterParagraph(2, 'b', None)), 3, 16));
  }

  /** Input spelling `<tag>` at the start, for a non-empty `tag`, opens an element rather than closing one. */
  lemma OpensElement(s: string, tag: string)
    requires SpellsAt(s, 0, PlainTag(tag)) && |tag| > 0 && tag[0] != '/'
    ensures 1 < |s| && s[0] == '<' && s[1] != '/'
  {
    CharOf(s, 0, PlainTag(tag), 0);
    CharOf(s, 0, PlainTag(tag), 1);
  }

  /** The node loop over two letter paragraphs returns both, the first one first. */
  lemma TwoParagraphsRead(s: string)
    requires |s| == 16
    requires SpellsAt(s, 0, PlainTag("p")) && SpellsAt(s, 3, "a") && SpellsAt(s, 4, EndTag("p"))
    requires SpellsAt(s, 8, PlainTag("p")) && SpellsAt(s, 11, "b") && SpellsAt(s, 12, EndTag("p"))
    ensures ParseNodes(s, 0, Dom.Arena([]))
         == Some(Step(Dom.Arena(LetterParagraph(0, 'a', None) + LetterParagraph(2, 'b', None)), [1, 3], 16))
  {
    var first := LetterParagraph(0, 'a', None);
    var both := first + LetterParagraph(2, 'b', None);
    FirstLetterParagraph(s);
    SecondLetterParagraph(s);
    OpensElement(s, "p");
    ReadTwo(s, Dom.Arena(first), Dom.Arena(both), 1, 3);
  }

  /** An element from the start to 8, then one sibling up to 16: the loop reads them in order. */
  lemma ReadTwo(s: string, one: Dom.Arena, two: Dom.Arena, x: Dom.NodeId, y: Dom.NodeId)
    requires 1 < |s| && s[0] == '<' && s[1] != '/'
    requires ParseElement(s, 0, Dom.Arena([])) == Some(Step(one, x, 8))
    requires ParseNodes(s, 8, one) == Some(Step(two, [y], 16))
    ensures ParseNodes(s, 0, Dom.Arena([])) == Some(Step(two, [x, y], 16))
  {
    ElementThenOne(s, 0, 1, Dom.Arena([]), one, x, 8, two, y, 16);
  }

  /** The arena after wrapping: both paragraphs now point at the `html` node appended at 4. */
  lemma TwoParagraphArena(kids: seq<Dom.NodeRecord>, m: seq<Dom.NodeRecord>)
    requires kids == LetterParagraph(0, 'a', None) + LetterParagraph(2, 'b', None)
    requires |m| == 5 && m[4] == Dom.NodeRecord(Dom.Element(Dom.ElementData("html", map[])), [1, 3], None)
    requires forall i :: 0 <= i < 4 ==> m[i] == if i in [1, 3] then kids[i].(parent := Some(4)) else kids[i]
    ensures m == TwoParagraphNodes
  {
    forall i | 0 <= i < 4
      ensures m[i] == TwoParagraphNodes[i]
    {
      assert (i in [1, 3]) == (i == 1 || i == 3);
    }
  }

  /** Wrapping the two paragraphs: the `html` element adopts both, in order. */
  lemma HtmlAroundTwo(a: Dom.Arena, top: Step<seq<Dom.NodeId>>)
    requires a == Dom.Arena([])
    requires top == Step(Dom.Arena(LetterParagraph(0, 'a', None) + LetterParagraph(2, 'b', None)), [1, 3], 16)
    requires Grown(a, top.arena) && Linked(top.arena, 0) && TextsClean(top.arena, 0)
    requires Roots(top.arena, 0, top.value) && Listed(top.arena, 0, top.value)
    ensures Wrap(a, top, "html", map[], 16) == Step(Dom.Arena(TwoParagraphNodes), 4, 16)
  {
    var r := Wrap(a, top, "html", map[], 16);
    LowerHtml();
    TwoParagraphArena(top.arena.nodes, r.arena.nodes);
  }

  /** Any input laid out as the two paragraphs parses as them: both under a new `html`. */
  lemma TwoParagraphsWrapped(s: string)
    requires |s| == 16
    requires SpellsAt(s, 0, PlainTag("p")) && SpellsAt(s, 3, "a") && SpellsAt(s, 4, EndTag("p"))
    requires SpellsAt(s, 8, PlainTag("p")) && SpellsAt(s, 11, "b") && SpellsAt(s, 12, EndTag("p"))
    ensures Parse(s, Dom.Arena([])) == Some(Step(Dom.Arena(TwoParagraphNodes), 4, 16))
  {
    TwoParagraphsRead(s);
    var top := ParseNodes(s, 0, Dom.Arena([])).value;
    HtmlAroundTwo(Dom.Arena([]), top);
  }

  /**
    Two top-level paragraphs are both kept: `<p>a</p><p>b</p>` parses into a new `html`
    element whose children are the two paragraphs in document order, each holding its text.
  */
  lemma TwoParagraphsParse()
    ensures Parse(TwoParagraphs, Dom.Arena([])) == Some(Step(Dom.Arena(TwoParagraphNodes), 4, 16))
  {
    TwoParagraphsLayout(TwoParagraphs);
    TwoParagraphsWrapped(TwoParagraphs);
  }
}

=== FILE: renderer.dfy ===
/**
  The value types of src/browser/renderer.rs that layout produces. Painting itself (rasterising
  boxes, glyph outlines, font lookup, image export) is not part of this model.
*/
module Renderer {
  import opened Common

  /** An RGBA colour, one `u8` per channel. */
  datatype Color = Color(r: Byte, g: Byte, b: Byte, a: Byte)

  /** A run of text to draw inside a box. Lengths are reals rather than `f32`. */
  datatype TextNode = TextNode(content: string, fontSize: real, color: Color, fontFamily: string)

  /** A positioned rectangle with its decoration, its text and its child boxes. */
  datatype LayoutBox = LayoutBox(
    x: real,
    y: real,
    width: real,
    height: real,
    background: Option<Color>,
    border: Option<(Color, real)>,
    text: Option<TextNode>,
    children: seq<LayoutBox>)
}

=== FILE: request.dfy ===
/** The request kinds of src/net/request.rs, with their `Accept` headers and display names. */
module Request {
  import opened Common

  datatype RequestType = Document | Stylesheet | Script | Image | Font | Fetch | Other

  /** `accept_header`: the media types a request of each kind asks for. */
  function AcceptHeader(t: RequestType): (r: string)
    ensures '/' in r
  {
    match t
    case Document => "text/html,application/xhtml+xml"
    case Stylesheet => "text/css,*/*;q=0.1"
    case Script => "application/javascript,application/ecmascript"
    case Image => "image/webp,image/apng,image/*,*/*;q=0.8"
    case Font => "font/woff2,application/font-woff;q=0.9,*/*;q=0.1"
    case Fetch => "application/json,text/plain,*/*"
    case Other => "*/*"
  }

  /** `is_preloadable`. */
  predicate IsPreloadable(t: RequestType) {
    t.Stylesheet? || t.Script? || t.Font?
  }

  /** `Display::fmt`: the variant's name. */
  function Name(t: RequestType): (r: string)
    ensures |r| > 0 && 'A' <= r[0] <= 'Z'
    ensures forall i :: 1 <= i < |r| ==> 'a' <= r[i] <= 'z'
  {
    match t
    case Document => "Document"
    case Stylesheet => "Stylesheet"
    case Script => "Script"
    case Image => "Image"
    case Font => "Font"
    case Fetch => "Fetch"
    case Other => "Other"
  }

  /** The request kind a display name stands for. */
  function FromName(name: string): (r: Option<RequestType>)
    ensures r.Some? ==> Name(r.value) == name
  {
    if name == "Document" then Some(Document)
    else if name == "Stylesheet" then Some(Stylesheet)
    else if name == "Script" then Some(Script)
    else if name == "Image" then Some(Image)
    else if name == "Font" then Some(Font)
    else if name == "Fetch" then Some(Fetch)
    else if name == "Other" then Some(Other)
    else None
  }

  /** Printing a kind and reading the name back gives the kind: names identify kinds. */
  lemma NameRoundTrip(t: RequestType)
    ensures FromName(Name(t)) == Some(t)
  {
  }

  lemma NamesDistinct(t: RequestType, u: RequestType)
    requires Name(t) == Name(u)
    ensures t == u
  {
    NameRoundTrip(t);
    NameRoundTrip(u);
  }

  /** The request kind an `Accept` header was made for. */
  function KindOfAccept(header: string): (r: Option<RequestType>)
    ensures r.Some? ==> AcceptHeader(r.value) == header
  {
    if header == "text/html,application/xhtml+xml" then Some(Document)
    else if header == "text/css,*/*;q=0.1" then Some(Stylesheet)
    else if header == "application/javascript,application/ecmascript" then Some(Script)
    else if header == "image/webp,image/apng,image/*,*/*;q=0.8" then Some(Image)
    else if header == "font/woff2,application/font-woff;q=0.9,*/*;q=0.1" then Some(Font)
    else if header == "application/json,text/plain,*/*" then Some(Fetch)
    else if header == "*/*" then Some(Other)
    else None
  }

  /** Every kind's header leads back to the kind. */
  lemma AcceptRoundTrip(t: RequestType)
    ensures KindOfAccept(AcceptHeader(t)) == Some(t)
  {
    match t
    case Document => AcceptDocument(AcceptHeader(t));
    case Stylesheet => AcceptStylesheet(AcceptHeader(t));
    case Script => AcceptScript(AcceptHeader(t));
    case Image => AcceptImage(AcceptHeader(t));
    case Font => AcceptFont(AcceptHeader(t));
    case Fetch => AcceptFetch(AcceptHeader(t));
    case Other => AcceptOther(AcceptHeader(t));
  }

  lemma AcceptDocument(h: string)
    requires h == AcceptHeader(Document)
    ensures KindOfAccept(h) == Some(Document)
  {
  }

  lemma AcceptStylesheet(h: string)
    requires h == AcceptHeader(Stylesheet)
    ensures KindOfAccept(h) == Some(Stylesheet)
  {
  }

  lemma AcceptScript(h: string)
    requires h == AcceptHeader(Script)
    ensures KindOfAccept(h) == Some(Script)
  {
  }

  lemma AcceptImage(h: string)
    requires h == AcceptHeader(Image)
    ensures KindOfAccept(h) == Some(Image)
  {
  }

  lemma AcceptFont(h: string)
    requires h == AcceptHeader(Font)
    ensures KindOfAccept(h) == Some(Font)
  {
  }

  lemma AcceptFetch(h: string)
    requires h == AcceptHeader(Fetch)
    ensures KindOfAccept(h) == Some(Fetch)
  {
  }

  lemma AcceptOther(h: string)
    requires h == AcceptHeader(Other)
    ensures KindOfAccept(h) == Some(Other)
  {
  }

  /** No two kinds send the same `Accept` header. */
  lemma AcceptHeadersDistinct(t: RequestType, u: RequestType)
    requires t != u
    ensures AcceptHeader(t) != AcceptHeader(u)
  {
    AcceptRoundTrip(t);
    AcceptRoundTrip(u);
  }

  /** Exactly style sheets, scripts and fonts are preloaded. */
  lemma PreloadableKinds(t: RequestType)
    ensures IsPreloadable(t) <==> t in {Stylesheet, Script, Font}
  {
  }
}

=== FILE: strings.dfy ===
/**
  The standard-library string operations the browser relies on, written out over
  `seq<char>`: character classes, ASCII case folding, trimming, substring search and the
  three splitting functions (`split(char)`, `split_once(char)`, `split_whitespace()`).
*/
module Strings {
  import opened Common

  /** `char::is_whitespace`: the characters with the Unicode White_Space property. */
  predicate IsWhitespace(c: char) {
    || ('\t' <= c <= '\r')
    || c == ' '
    || c == '\U{0085}'
    || c == '\U{00A0}'
    || c == '\U{1680}'
    || ('\U{2000}' <= c <= '\U{200A}')
    || c == '\U{2028}'
    || c == '\U{2029}'
    || c == '\U{202F}'
    || c == '\U{205F}'
    || c == '\U{3000}'
  }

  predicate IsAsciiDigit(c: char) {
    '0' <= c <= '9'
  }

  /** `char::is_alphanumeric`, restricted to ASCII letters and digits. */
  predicate IsAlphanumeric(c: char) {
    IsAsciiDigit(c) || ('a' <= c <= 'z') || ('A' <= c <= 'Z')
  }

  /** ASCII lower-casing of one character; every other character is unchanged. */
  function LowerChar(c: char): char {
    if 'A' <= c <= 'Z' then (c as int + 32) as char else c
  }

  /** `to_ascii_lowercase`: lower-cases A-Z and leaves every other character alone. */
  function ToLower(s: string): (r: string)
    ensures |r| == |s|
    ensures forall i :: 0 <= i < |s| ==> r[i] == LowerChar(s[i])
  {
    seq(|s|, i requires 0 <= i < |s| => LowerChar(s[i]))
  }

  /** Two strings that differ only in the case of ASCII letters. */
  predicate EqualIgnoringCase(s: string, t: string) {
    |s| == |t| && forall i :: 0 <= i < |s| ==> LowerChar(s[i]) == LowerChar(t[i])
  }

  lemma EqualIgnoringCaseLower(s: string, t: string)
    requires EqualIgnoringCase(s, t)
    ensures ToLower(s) == ToLower(t)
  {
  }

  lemma LowerConcat(s: string, t: string)
    ensures ToLower(s + t) == ToLower(s) + ToLower(t)
  {
  }

  lemma LowerIdempotent(s: string)
    ensures ToLower(ToLower(s)) == ToLower(s)
  {
  }

  /** Lower-casing keeps whitespace where it was, so trimming and lower-casing commute. */
  lemma {:induction false} LeadingSpaceLower(s: string)
    ensures LeadingSpace(ToLower(s)) == LeadingSpace(s)
    decreases |s|
  {
    if |s| > 0 {
      assert ToLower(s)[1..] == ToLower(s[1..]);
      LeadingSpaceLower(s[1..]);
    }
  }

  lemma {:induction false} TrimEndLower(s: string)
    ensures TrimEnd(ToLower(s)) == ToLower(TrimEnd(s))
    decreases |s|
  {
    if |s| > 0 {
      var c := s[|s| - 1];
      assert ToLower(s)[|s| - 1] == LowerChar(c);
      assert IsWhitespace(LowerChar(c)) <==> IsWhitespace(c);
      assert ToLower(s)[..|s| - 1] == ToLower(s[..|s| - 1]);
      TrimEndLower(s[..|s| - 1]);
    }
  }

  lemma TrimLower(s: string)
    ensures Trim(ToLower(s)) == ToLower(Trim(s))
  {
    LeadingSpaceLower(s);
    var n := LeadingSpace(s);
    assert ToLower(s)[n..] == ToLower(s[n..]);
    TrimEndLower(s[n..]);
  }

  predicate EndsWith(s: string, suffix: string) {
    |suffix| <= |s| && s[|s| - |suffix|..] == suffix
  }

  /** Number of leading whitespace characters. */
  function LeadingSpace(s: string): (n: nat)
    ensures n <= |s|
    ensures forall i :: 0 <= i < n ==> IsWhitespace(s[i])
    ensures n < |s| ==> !IsWhitespace(s[n])
    decreases |s|
  {
    if |s| > 0 && IsWhitespace(s[0]) then 1 + LeadingSpace(s[1..]) else 0
  }

  /** `str::trim_start`: drops the leading whitespace. */
  function TrimStart(s: string): string {
    s[LeadingSpace(s)..]
  }

  /** `str::trim_end`: drops the trailing whitespace. */
  function TrimEnd(s: string): (r: string)
    ensures |r| <= |s| && r == s[..|r|]
    ensures forall i :: |r| <= i < |s| ==> IsWhitespace(s[i])
    ensures |r| > 0 ==> !IsWhitespace(r[|r| - 1])
    decreases |s|
  {
    if |s| > 0 && IsWhitespace(s[|s| - 1]) then TrimEnd(s[..|s| - 1]) else s
  }

  /** `str::trim`: drops whitespace at both ends. */
  function Trim(s: string): (r: string)
    ensures |r| <= |s|
    ensures |r| > 0 ==> !IsWhitespace(r[0]) && !IsWhitespace(r[|r| - 1])
  {
    TrimEnd(TrimStart(s))
  }

  /** A string with no whitespace at either end is its own trim. */
  lemma TrimOfTrimmed(s: string)
    requires |s| > 0 ==> !IsWhitespace(s[0]) && !IsWhitespace(s[|s| - 1])
    ensures Trim(s) == s
  {
  }

  /** `str::contains` for a string pattern. */
  predicate Contains(s: string, pattern: string)
    decreases |s|
  {
    pattern <= s || (|s| > 0 && Contains(s[1..], pattern))
  }

  /** `Contains` agrees with the positional definition of a substring. */
  lemma {:induction false} ContainsAt(s: string, pattern: string, i: nat)
    requires i + |pattern| <= |s| && s[i..i + |pattern|] == pattern
    ensures Contains(s, pattern)
    decreases i
  {
    if i == 0 {
      assert pattern <= s;
    } else {
      assert s[1..][i - 1..i - 1 + |pattern|] == s[i..i + |pattern|];
      ContainsAt(s[1..], pattern, i - 1);
    }
  }

  /** A pattern with a character the text lacks is not in the text. */
  lemma {:induction false} NotContainsChar(s: string, pattern: string, c: char)
    requires c in pattern && c !in s
    ensures !Contains(s, pattern)
    decreases |s|
  {
    if |s| > 0 {
      NotContainsChar(s[1..], pattern, c);
    }
  }

  /** A pattern longer than the text is not in it. */
  lemma {:induction false} ContainsNotLonger(s: string, pattern: string)
    requires |s| < |pattern|
    ensures !Contains(s, pattern)
    decreases |s|
  {
    if |s| > 0 {
      ContainsNotLonger(s[1..], pattern);
    }
  }

  /**
    Any two neighbouring characters of a pattern found in a text are neighbours in the
    text too; so a pattern with a pair the text lacks is not in it.
  */
  lemma {:induction false} ContainsPair(s: string, pattern: string, j: nat)
    requires Contains(s, pattern) && j + 1 < |pattern|
    ensures exists i :: 0 <= i && i + 1 < |s| && s[i] == pattern[j] && s[i + 1] == pattern[j + 1]
    decreases |s|
  {
    if pattern <= s {
      assert s[j] == pattern[j] && s[j + 1] == pattern[j + 1];
    } else {
      ContainsPair(s[1..], pattern, j);
      var i :| 0 <= i && i + 1 < |s[1..]| && s[1..][i] == pattern[j] && s[1..][i + 1] == pattern[j + 1];
      assert s[i + 1] == pattern[j] && s[i + 2] == pattern[j + 1];
    }
  }

  /** A pattern found in a string is still found after anything is put around it. */
  lemma {:induction false} ContainsInContext(pre: string, s: string, post: string, pattern: string)
    requires Contains(s, pattern)
    ensures Contains(pre + s + post, pattern)
    decreases |s|
  {
    if pattern <= s {
      var w := pre + s + post;
      assert w[|pre|..|pre| + |pattern|] == pattern;
      ContainsAt(w, pattern, |pre|);
    } else {
      assert (pre + [s[0]]) + s[1..] + post == pre + s + post;
      ContainsInContext(pre + [s[0]], s[1..], post, pattern);
    }
  }

  // ---------------------------------------------------------------------
  // split(char) and its inverse

  /** Joins the pieces with one separator between neighbours. */
  function Join(parts: seq<string>, sep: char): string
    requires |parts| > 0
  {
    if |parts| == 1 then parts[0] else parts[0] + [sep] + Join(parts[1..], sep)
  }

  /** `str::split(sep)`: the pieces between separators; always at least one, possibly empty. */
  function SplitOn(s: string, sep: char): (r: seq<string>)
    ensures |r| > 0
    ensures forall i :: 0 <= i < |r| ==> sep !in r[i]
    decreases |s|
  {
    if |s| == 0 then [""]
    else if s[0] == sep then [""] + SplitOn(s[1..], sep)
    else
      var rest := SplitOn(s[1..], sep);
      [[s[0]] + rest[0]] + rest[1..]
  }

  lemma JoinConsChar(c: char, parts: seq<string>, sep: char)
    requires |parts| > 0
    ensures Join([[c] + parts[0]] + parts[1..], sep) == [c] + Join(parts, sep)
  {
    var q := [[c] + parts[0]] + parts[1..];
    if |parts| > 1 {
      assert q[1..] == parts[1..];
    }
  }

  /** Splitting loses nothing: joining the pieces gives back the input. */
  lemma {:induction false} JoinSplit(s: string, sep: char)
    ensures Join(SplitOn(s, sep), sep) == s
    decreases |s|
  {
    if |s| == 0 {
    } else if s[0] == sep {
      JoinSplit(s[1..], sep);
      var r := [""] + SplitOn(s[1..], sep);
      assert r[1..] == SplitOn(s[1..], sep);
      assert Join(r, sep) == [sep] + s[1..];
      assert s == [s[0]] + s[1..];
    } else {
      JoinSplit(s[1..], sep);
      JoinConsChar(s[0], SplitOn(s[1..], sep), sep);
      assert s == [s[0]] + s[1..];
    }
  }

  /** Splitting a joined sequence of separator-free pieces gives back the pieces. */
  lemma {:induction false} SplitJoin(parts: seq<string>, sep: char)
    requires |parts| > 0
    requires forall i :: 0 <= i < |parts| ==> sep !in parts[i]
    ensures SplitOn(Join(parts, sep), sep) == parts
    decreases |parts|, |parts[0]|
  {
    var p := parts[0];
    if |p| == 0 {
      if |parts| == 1 {
      } else {
        var j := Join(parts, sep);
        assert j == [sep] + Join(parts[1..], sep);
        assert j[1..] == Join(parts[1..], sep);
        SplitJoin(parts[1..], sep);
        assert [""] + parts[1..] == parts;
      }
    } else {
      var tail := [p[1..]] + parts[1..];
      assert tail[1..] == parts[1..];
      assert forall i :: 0 <= i < |tail| ==> sep !in tail[i] by {
        forall i | 0 <= i < |tail|
          ensures sep !in tail[i]
        {
          if i == 0 {
            assert forall k :: 0 <= k < |p[1..]| ==> p[1..][k] == p[k + 1];
          } else {
            assert tail[i] == parts[i];
          }
        }
      }
      SplitJoin(tail, sep);
      JoinConsChar(p[0], tail, sep);
      assert [p[0]] + p[1..] == p;
      assert [[p[0]] + tail[0]] + tail[1..] == parts;
      var j := Join(parts, sep);
      assert j[0] == p[0];
      assert j[1..] == Join(tail, sep);
    }
  }

  /** The first character, when not the separator, opens the first piece. */
  lemma SplitOnCons(c: char, t: string, sep: char)
    requires c != sep
    ensures SplitOn([c] + t, sep) == [[c] + SplitOn(t, sep)[0]] + SplitOn(t, sep)[1..]
  {
    assert ([c] + t)[1..] == t;
  }

  lemma PiecesAppend(c: char, rest: seq<string>, ys: seq<string>)
    requires |rest| > 0
    ensures [[c] + (rest + ys)[0]] + (rest + ys)[1..] == [[c] + rest[0]] + rest[1..] + ys
  {
    assert (rest + ys)[1..] == rest[1..] + ys;
  }

  /** Splitting at a separator between two texts splits each text separately. */
  lemma {:induction false} SplitOnAppend(x: string, sep: char, y: string)
    ensures SplitOn(x + [sep] + y, sep) == SplitOn(x, sep) + SplitOn(y, sep)
    decreases |x|
  {
    var s := x + [sep] + y;
    if |x| == 0 {
      assert s == [sep] + y;
      assert s[1..] == y;
    } else if x[0] == sep {
      assert s[1..] == x[1..] + [sep] + y;
      SplitOnAppend(x[1..], sep, y);
    } else {
      assert s == [x[0]] + (x[1..] + [sep] + y);
      assert x == [x[0]] + x[1..];
      SplitOnAppend(x[1..], sep, y);
      SplitOnCons(x[0], x[1..] + [sep] + y, sep);
      SplitOnCons(x[0], x[1..], sep);
      PiecesAppend(x[0], SplitOn(x[1..], sep), SplitOn(y, sep));
    }
  }

  /** Text without the separator is one piece. */
  lemma {:induction false} SplitOnNoSep(s: string, sep: char)
    requires sep !in s
    ensures SplitOn(s, sep) == [s]
    decreases |s|
  {
    if |s| > 0 {
      SplitOnNoSep(s[1..], sep);
      assert [s[0]] + s[1..] == s;
    }
  }

  // ---------------------------------------------------------------------
  // split_once(char)

  /** `str::split_once(sep)`: the text before and after the first separator, if any. */
  function SplitOnce(s: string, sep: char): (r: Option<(string, string)>)
    ensures r.Some? <==> sep in s
    ensures r.Some? ==> s == r.value.0 + [sep] + r.value.1 && sep !in r.value.0
    decreases |s|
  {
    if |s| == 0 then None
    else if s[0] == sep then Some(([], s[1..]))
    else
      match SplitOnce(s[1..], sep)
      case None => None
      case Some((before, after)) => Some(([s[0]] + before, after))
  }

  /** The split happens at the first separator, wherever the text before it ends. */
  lemma {:induction false} SplitOnceAt(pre: string, sep: char, post: string)
    requires sep !in pre
    ensures SplitOnce(pre + [sep] + post, sep) == Some((pre, post))
    decreases |pre|
  {
    var s := pre + [sep] + post;
    if |pre| == 0 {
      assert s[1..] == post;
    } else {
      assert s[1..] == pre[1..] + [sep] + post;
      SplitOnceAt(pre[1..], sep, post);
      assert [pre[0]] + pre[1..] == pre;
    }
  }

  // ---------------------------------------------------------------------
  // split_whitespace()

  /** Length of the leading run of non-whitespace characters. */
  function WordLength(s: string): (n: nat)
    ensures n <= |s|
    ensures forall i :: 0 <= i < n ==> !IsWhitespace(s[i])
    ensures n < |s| ==> IsWhitespace(s[n])
    decreases |s|
  {
    if |s| == 0 || IsWhitespace(s[0]) then 0 else 1 + WordLength(s[1..])
  }

  /** A token of `split_whitespace`: non-empty and free of whitespace. */
  predicate IsWord(w: string) {
    |w| > 0 && forall i :: 0 <= i < |w| ==> !IsWhitespace(w[i])
  }

  predicate AllWords(words: seq<string>) {
    forall i :: 0 <= i < |words| ==> IsWord(words[i])
  }

  lemma WordsCons(w: string, words: seq<string>)
    requires IsWord(w) && AllWords(words)
    ensures AllWords([w] + words)
  {
    assert forall i :: 1 <= i <= |words| ==> ([w] + words)[i] == words[i - 1];
  }

  /** `str::split_whitespace()`: the maximal runs of non-whitespace characters, in order. */
  function SplitWhitespace(s: string): (r: seq<string>)
    ensures AllWords(r)
    decreases |s|
  {
    var t := TrimStart(s);
    if |t| == 0 then []
    else
      var n := WordLength(t);
      var rest := SplitWhitespace(t[n..]);
      WordsCons(t[..n], rest);
      [t[..n]] + rest
  }

  /** Joins words with one space between neighbours. */
  function Unwords(words: seq<string>): string {
    if |words| == 0 then ""
    else if |words| == 1 then words[0]
    else words[0] + " " + Unwords(words[1..])
  }

  lemma {:induction false} LeadingSpaceAfter(ws: string, s: string)
    requires forall i :: 0 <= i < |ws| ==> IsWhitespace(ws[i])
    ensures LeadingSpace(ws + s) == |ws| + LeadingSpace(s)
    decreases |ws|
  {
    if |ws| > 0 {
      var t := ws + s;
      assert t[0] == ws[0];
      assert t[1..] == ws[1..] + s;
      assert forall i :: 0 <= i < |ws[1..]| ==> ws[1..][i] == ws[i + 1];
      LeadingSpaceAfter(ws[1..], s);
    } else {
      assert ws + s == s;
    }
  }

  lemma TrimStartLeading(ws: string, s: string)
    requires forall i :: 0 <= i < |ws| ==> IsWhitespace(ws[i])
    ensures TrimStart(ws + s) == TrimStart(s)
  {
    LeadingSpaceAfter(ws, s);
    assert (ws + s)[|ws| + LeadingSpace(s)..] == s[LeadingSpace(s)..];
  }

  lemma SplitWhitespaceLeading(ws: string, s: string)
    requires forall i :: 0 <= i < |ws| ==> IsWhitespace(ws[i])
    ensures SplitWhitespace(ws + s) == SplitWhitespace(s)
  {
    TrimStartLeading(ws, s);
  }

  lemma {:induction false} WordLengthOfWord(w: string, rest: string)
    requires IsWord(w)
    requires |rest| > 0 ==> IsWhitespace(rest[0])
    ensures WordLength(w + rest) == |w|
    decreases |w|
  {
    if |w| == 1 {
      assert (w + rest)[1..] == rest;
    } else {
      assert (w + rest)[1..] == w[1..] + rest;
      WordLengthOfWord(w[1..], rest);
    }
  }

  /** A word followed by nothing or by whitespace is the first token. */
  lemma SplitWhitespaceWord(w: string, rest: string)
    requires IsWord(w)
    requires |rest| > 0 ==> IsWhitespace(rest[0])
    ensures SplitWhitespace(w + rest) == [w] + SplitWhitespace(rest)
  {
    var t := w + rest;
    assert t[0] == w[0];
    assert TrimStart(t) == t;
    WordLengthOfWord(w, rest);
    assert t[..|w|] == w;
    assert t[|w|..] == rest;
  }

  lemma AllWordsTail(words: seq<string>)
    requires |words| > 0 && AllWords(words)
    ensures AllWords(words[1..])
  {
    assert forall i :: 0 <= i < |words[1..]| ==> words[1..][i] == words[i + 1];
  }

  /** Splitting a word, a space and more text yields the word, then the split of the rest. */
  lemma SplitWordSpace(w: string, tail: string)
    requires IsWord(w)
    ensures SplitWhitespace(w + " " + tail) == [w] + SplitWhitespace(tail)
  {
    var rest := " " + tail;
    assert w + " " + tail == w + rest;
    assert IsWhitespace(rest[0]);
    SplitWhitespaceWord(w, rest);
    SplitWhitespaceLeading(" ", tail);
  }

  /** `split_whitespace` inverts `Unwords` on a sequence of words. */
  lemma {:induction false} SplitUnwords(words: seq<string>)
    requires AllWords(words)
    ensures SplitWhitespace(Unwords(words)) == words
    decreases |words|
  {
    if |words| == 1 {
      SplitWhitespaceWord(words[0], "");
      assert words[0] + "" == words[0];
    } else if |words| > 1 {
      AllWordsTail(words);
      SplitWordSpace(words[0], Unwords(words[1..]));
      SplitUnwords(words[1..]);
      assert [words[0]] + words[1..] == words;
    }
  }

  // ---------------------------------------------------------------------
  // trim_end_matches(&str)

  /** The pattern repeated `n` times. */
  function Repeat(pattern: string, n: nat): string {
    if n == 0 then "" else Repeat(pattern, n - 1) + pattern
  }

  /** `str::trim_end_matches(pattern)`: removes the pattern from the end as often as it occurs there. */
  function TrimEndMatches(s: string, pattern: string): (r: string)
    requires |pattern| > 0
    ensures r <= s
    ensures !EndsWith(r, pattern)
    decreases |s|
  {
    if EndsWith(s, pattern) then TrimEndMatches(s[..|s| - |pattern|], pattern) else s
  }

  /** Exactly the trailing repetitions are removed, however many there are. */
  lemma {:induction false} TrimEndMatchesRepeat(s: string, pattern: string, n: nat)
    requires |pattern| > 0 && !EndsWith(s, pattern)
    ensures TrimEndMatches(s + Repeat(pattern, n), pattern) == s
    decreases n
  {
    if n > 0 {
      var t := s + Repeat(pattern, n);
      assert t == (s + Repeat(pattern, n - 1)) + pattern;
      assert t[..|t| - |pattern|] == s + Repeat(pattern, n - 1);
      TrimEndMatchesRepeat(s, pattern, n - 1);
    } else {
      assert s + Repeat(pattern, 0) == s;
    }
  }
}

=== FILE: styles.dfy ===
/**
  The style cascade of src/browser/style.rs: every node of a document tree gets a computed
  style, elements from a table of tag defaults overridden by the declarations of their
  `style` attribute, text nodes a fixed inline style, comments the same style hidden.
*/
module Styles {
  import opened Common
  import opened Strings
  import Dom
  import Utf8
  import Parser
  import Engine
  import opened Renderer

  /** A document node with its computed style; the children are styled in order. */
  datatype StyledNode = StyledNode(nodeType: Dom.NodeType, style: Engine.Style, children: seq<StyledNode>)

  const Black: Color := Color(0, 0, 0, 255)

  /** `default_text_style`: inline, 16 Arial black, no edges, no border, no background. */
  function DefaultTextStyle(): Engine.Style {
    Engine.Style(Engine.Inline, None, None, 0.0, Engine.Edges(0.0), Engine.Edges(0.0), 16.0, "Arial", Black)
  }

  /** `none_style`: the text style, not displayed. */
  function NoneStyle(): Engine.Style {
    DefaultTextStyle().(display := Engine.Display.None)
  }

  /** The tag-default table of `compute_style_for_element`; any other tag gets the text style. */
  function TagDefault(tag: string): Engine.Style {
    if tag == "body" then
      Engine.Style(Engine.Block, Some(Color(255, 255, 255, 255)), None, 0.0,
                   Engine.Edges(0.0), Engine.Edges(8.0), 16.0, "Arial", Color(30, 30, 30, 255))
    else if tag == "h1" then
      Engine.Style(Engine.Block, None, None, 0.0, Engine.Edges(12.0), Engine.Edges(6.0), 32.0, "Georgia", Color(50, 50, 50, 255))
    else if tag == "p" then
      Engine.Style(Engine.Block, None, None, 0.0, Engine.Edges(8.0), Engine.Edges(4.0), 16.0, "Serif", Color(20, 20, 20, 255))
    else if tag == "div" then
      Engine.Style(Engine.Block, None, None, 0.0, Engine.Edges(6.0), Engine.Edges(6.0), 14.0, "Sans-serif", Black)
    else DefaultTextStyle()
  }

  /** The tags with a table entry. */
  predicate IsBlockTag(tag: string) {
    tag == "body" || tag == "h1" || tag == "p" || tag == "div"
  }

  /**
    Exactly the four table tags are blocks, none of them with a border; every other tag,
    whatever its case, gets the text style.
  */
  lemma TagDefaults(tag: string)
    ensures TagDefault(tag).display == Engine.Block <==> IsBlockTag(tag)
    ensures TagDefault(tag).display != Engine.Display.None
    ensures TagDefault(tag).borderColor == None && TagDefault(tag).borderWidth == 0.0
    ensures !IsBlockTag(tag) ==> TagDefault(tag) == DefaultTextStyle()
    ensures (tag == "body") <==> TagDefault(tag).background.Some?
  {
  }

  // ---------------------------------------------------------------------
  // Numbers

  function DigitValue(c: char): nat
    requires IsAsciiDigit(c)
  {
    c as int - '0' as int
  }

  predicate AllDigits(s: string) {
    forall i :: 0 <= i < |s| ==> IsAsciiDigit(s[i])
  }

  /** The value of a run of decimal digits, most significant first. */
  function DigitsValue(s: string): nat
    requires AllDigits(s)
    decreases |s|
  {
    if |s| == 0 then 0 else DigitsValue(s[..|s| - 1]) * 10 + DigitValue(s[|s| - 1])
  }

  function Pow10(n: nat): (r: real)
    ensures r >= 1.0
  {
    if n == 0 then 1.0 else 10.0 * Pow10(n - 1)
  }

  /**
    The unsigned part of a decimal number: digits with at most one decimal point, and at
    least one digit on either side of it.
  */
  function Magnitude(body: string): (r: Option<real>)
    ensures r.Some? ==> r.value >= 0.0
    ensures r.Some? ==> exists i :: 0 <= i < |body| && IsAsciiDigit(body[i])
  {
    match SplitOnce(body, '.')
    case None =>
      if |body| > 0 && AllDigits(body) then
        assert IsAsciiDigit(body[0]);
        Some(DigitsValue(body) as real)
      else None
    case Some((whole, fraction)) =>
      if |whole| + |fraction| > 0 && AllDigits(whole) && AllDigits(fraction) then
        assert body == whole + "." + fraction;
        assert IsAsciiDigit(body[if |whole| > 0 then 0 else 1]);
        Some(DigitsValue(whole) as real + DigitsValue(fraction) as real / Pow10(|fraction|))
      else None
  }

  /**
    `str::parse::<f32>` on decimal text: an optional sign, then digits with at most one
    decimal point and at least one digit. The value is exact.
  */
  function ParseNumber(s: string): (r: Option<real>)
    ensures r.Some? ==> exists i :: 0 <= i < |s| && IsAsciiDigit(s[i])
    ensures r.Some? && |s| > 0 && s[0] == '-' ==> r.value <= 0.0
    ensures r.Some? && (|s| == 0 || s[0] != '-') ==> r.value >= 0.0
  {
    var signed := |s| > 0 && (s[0] == '+' || s[0] == '-');
    var body := if signed then s[1..] else s;
    match Magnitude(body)
    case None => None
    case Some(m) =>
      assert forall i :: 0 <= i < |body| ==> body[i] == s[if signed then i + 1 else i];
      Some(if |s| > 0 && s[0] == '-' then -m else m)
  }

  /** The decimal digits of a natural number, without leading zeros. */
  function NatToString(n: nat): (r: string)
    ensures |r| > 0 && AllDigits(r)
  {
    var last := ('0' as int + n % 10) as char;
    if n < 10 then [last] else NatToString(n / 10) + [last]
  }

  lemma {:induction false} DigitsOfNat(n: nat)
    ensures DigitsValue(NatToString(n)) == n
  {
    var s := NatToString(n);
    if n >= 10 {
      DigitsOfNat(n / 10);
      assert s[..|s| - 1] == NatToString(n / 10);
    }
  }

  /** Printed naturals parse back to themselves, with or without a `px` unit to strip. */
  lemma ParseNatText(n: nat)
    ensures ParseNumber(NatToString(n)) == Some(n as real)
    ensures ParseNumber(TrimEndMatches(NatToString(n) + "px", "px")) == Some(n as real)
  {
    var s := NatToString(n);
    DigitsOfNat(n);
    assert '.' !in s by {
      assert forall i :: 0 <= i < |s| ==> IsAsciiDigit(s[i]);
    }
    assert IsAsciiDigit(s[|s| - 1]);
    TrimEndMatchesRepeat(s, "px", 1);
    assert s + Repeat("px", 1) == s + "px";
  }

  // ---------------------------------------------------------------------
  // Colours

  /** `char::to_digit(16)`. */
  function HexDigit(c: char): (r: Option<nat>)
    ensures r.Some? ==> r.value < 16
  {
    if '0' <= c <= '9' then Some(c as int - '0' as int)
    else if 'a' <= c <= 'f' then Some(c as int - 'a' as int + 10)
    else if 'A' <= c <= 'F' then Some(c as int - 'A' as int + 10)
    else None
  }

  /**
    `u8::from_str_radix(pair, 16)` on a two-character text: a leading `+` is accepted in
    front of a single digit, a `-` is not.
  */
  function HexPair(a: char, b: char): (r: Option<Byte>)
    ensures r.Some? <==> HexDigit(b).Some? && (a == '+' || HexDigit(a).Some?)
    ensures a == '+' ==> r == HexDigit(b)
    ensures a != '+' && HexDigit(a).Some? && HexDigit(b).Some? ==>
      r == Some(16 * HexDigit(a).value + HexDigit(b).value)
  {
    if a == '+' then HexDigit(b)
    else
      match (HexDigit(a), HexDigit(b))
      case (Some(x), Some(y)) => Some(16 * x + y)
      case _ => None
  }

  /** `hex_to_color`, counting characters: six characters read as three base-16 pairs, alpha 255. */
  function HexToColor(hex: string): (r: Option<Color>)
    ensures r.Some? ==> |hex| == 6 && r.value.a == 255
    ensures r.Some? ==>
      && HexPair(hex[0], hex[1]) == Some(r.value.r)
      && HexPair(hex[2], hex[3]) == Some(r.value.g)
      && HexPair(hex[4], hex[5]) == Some(r.value.b)
  {
    if |hex| != 6 then None
    else
      match (HexPair(hex[0], hex[1]), HexPair(hex[2], hex[3]), HexPair(hex[4], hex[5]))
      case (Some(r), Some(g), Some(b)) => Some(Color(r, g, b, 255))
      case _ => None
  }

  /** Lower-case base-16 digit. */
  function HexChar(d: nat): char
    requires d < 16
  {
    if d < 10 then ('0' as int + d) as char else ('a' as int + d - 10) as char
  }

  /** Two lower-case base-16 digits of a byte. */
  function ByteHex(x: Byte): string {
    [HexChar(x / 16), HexChar(x % 16)]
  }

  /** The `rrggbb` text of a colour. */
  function FormatHex(c: Color): string {
    ByteHex(c.r) + ByteHex(c.g) + ByteHex(c.b)
  }

  lemma ByteHexPair(x: Byte)
    ensures HexPair(ByteHex(x)[0], ByteHex(x)[1]) == Some(x)
  {
  }

  /** An opaque colour printed as `rrggbb` reads back as itself. */
  lemma HexRoundTrip(c: Color)
    requires c.a == 255
    ensures HexToColor(FormatHex(c)) == Some(c)
  {
    ByteHexPair(c.r);
    ByteHexPair(c.g);
    ByteHexPair(c.b);
    var h := FormatHex(c);
    assert h[0..2] == ByteHex(c.r) && h[2..4] == ByteHex(c.g) && h[4..6] == ByteHex(c.b);
  }

  /** Reading a pair without `+` and printing it again gives the pair, lower-cased. */
  lemma PairReadBack(a: char, b: char)
    requires a != '+' && HexPair(a, b).Some?
    ensures ByteHex(HexPair(a, b).value) == [LowerChar(a), LowerChar(b)]
  {
    var x := HexDigit(a).value;
    var y := HexDigit(b).value;
    assert (16 * x + y) / 16 == x && (16 * x + y) % 16 == y;
  }

  /** A colour read from six characters without `+` prints back as their lower-case form. */
  lemma HexReadBack(hex: string)
    requires HexToColor(hex).Some? && '+' !in hex
    ensures FormatHex(HexToColor(hex).value) == ToLower(hex)
  {
    var c := HexToColor(hex).value;
    PairReadBack(hex[0], hex[1]);
    PairReadBack(hex[2], hex[3]);
    PairReadBack(hex[4], hex[5]);
    assert FormatHex(c) == [LowerChar(hex[0]), LowerChar(hex[1]), LowerChar(hex[2]),
                            LowerChar(hex[3]), LowerChar(hex[4]), LowerChar(hex[5])];
  }

  /** A `+` in front of one digit is accepted in every pair. */
  lemma PlusSignedPairs(hex: string)
    requires hex == "+f+0+a"
    ensures HexToColor(hex) == Some(Color(15, 0, 10, 255))
  {
    assert hex[0] == '+' && hex[1] == 'f' && hex[2] == '+' && hex[3] == '0' && hex[4] == '+' && hex[5] == 'a';
  }

  /** The colour names `parse_color` knows. */
  function NamedColor(name: string): Option<Color> {
    if name == "black" then Some(Black)
    else if name == "white" then Some(Color(255, 255, 255, 255))
    else if name == "red" then Some(Color(255, 0, 0, 255))
    else if name == "green" then Some(Color(0, 255, 0, 255))
    else if name == "blue" then Some(Color(0, 0, 255, 255))
    else None
  }

  /**
    `parse_color`: trimmed and lower-cased, one of five names or `#` and six base-16 digits.
    Every colour it yields is opaque.
  */
  function ParseColor(value: string): (r: Option<Color>)
    ensures r.Some? ==> r.value.a == 255
    ensures var v := ToLower(Trim(value));
      r.Some? <==> NamedColor(v).Some? || (|v| > 0 && v[0] == '#' && HexToColor(v[1..]).Some?)
    ensures NamedColor(ToLower(Trim(value))).Some? ==> r == NamedColor(ToLower(Trim(value)))
    ensures var v := ToLower(Trim(value));
      NamedColor(v).None? && |v| > 0 && v[0] == '#' ==> r == HexToColor(v[1..])
  {
    var v := ToLower(Trim(value));
    match NamedColor(v)
    case Some(c) => Some(c)
    case None => if |v| > 0 && v[0] == '#' then HexToColor(v[1..]) else None
  }

  /** Colour text is read without regard to ASCII case. */
  lemma ParseColorIgnoresCase(s: string, t: string)
    requires EqualIgnoringCase(s, t)
    ensures ParseColor(s) == ParseColor(t)
  {
    TrimLower(s);
    TrimLower(t);
    EqualIgnoringCaseLower(s, t);
  }

  /** `#` and the `rrggbb` text of an opaque colour parse back to the colour. */
  lemma ColorRoundTrip(c: Color)
    requires c.a == 255
    ensures ParseColor("#" + FormatHex(c)) == Some(c)
  {
    var s := "#" + FormatHex(c);
    assert forall i :: 0 <= i < |s| ==> !IsWhitespace(s[i]) && LowerChar(s[i]) == s[i];
    TrimOfTrimmed(s);
    assert ToLower(s) == s;
    assert s[1..] == FormatHex(c);
    HexRoundTrip(c);
  }

  /**
    `parse_border`: exactly three whitespace-separated tokens, a width (trailing `px`
    removed) and a colour; the middle token is not looked at.
  */
  function ParseBorder(value: string): (r: Option<(real, Color)>)
    ensures var parts := SplitWhitespace(value);
      r.Some? <==>
        && |parts| == 3
        && ParseNumber(TrimEndMatches(parts[0], "px")).Some?
        && ParseColor(parts[2]).Some?
    ensures r.Some? ==> |SplitWhitespace(value)| == 3
    ensures r.Some? ==> r.value.0 == ParseNumber(TrimEndMatches(SplitWhitespace(value)[0], "px")).value
    ensures r.Some? ==> ParseColor(SplitWhitespace(value)[2]) == Some(r.value.1)
  {
    var parts := SplitWhitespace(value);
    if |parts| != 3 then None
    else
      match ParseNumber(TrimEndMatches(parts[0], "px"))
      case None => None
      case Some(w) =>
        match ParseColor(parts[2])
        case None => None
        case Some(c) => Some((w, c))
  }

  /** The middle token of a border never matters. */
  lemma BorderStyleIgnored(width: string, s1: string, s2: string, color: string)
    requires IsWord(width) && IsWord(s1) && IsWord(s2) && IsWord(color)
    ensures ParseBorder(Unwords([width, s1, color])) == ParseBorder(Unwords([width, s2, color]))
  {
    SplitUnwords([width, s1, color]);
    SplitUnwords([width, s2, color]);
  }

  lemma HexWord(c: Color)
    ensures IsWord("#" + FormatHex(c))
  {
    var s := "#" + FormatHex(c);
    assert forall i :: 0 <= i < |s| ==> !IsWhitespace(s[i]);
  }

  lemma PxWord(n: nat)
    ensures IsWord(NatToString(n) + "px")
  {
    var s := NatToString(n) + "px";
    assert forall i :: 0 <= i < |s| ==> !IsWhitespace(s[i]);
  }

  /** `<n>px <style> #rrggbb` gives width `n` and the colour, whatever the style word. */
  lemma BorderRoundTrip(n: nat, style: string, c: Color)
    requires IsWord(style) && c.a == 255
    ensures ParseBorder(Unwords([NatToString(n) + "px", style, "#" + FormatHex(c)])) == Some((n as real, c))
  {
    PxWord(n);
    HexWord(c);
    SplitUnwords([NatToString(n) + "px", style, "#" + FormatHex(c)]);
    ParseNatText(n);
    ColorRoundTrip(c);
  }

  // ---------------------------------------------------------------------
  // Inline declarations

  /** The fields a declaration may change; display, margin and padding are never among them. */
  predicate SameBox(a: Engine.Style, b: Engine.Style) {
    a.display == b.display && a.margin == b.margin && a.padding == b.padding
  }

  /**
    One recognised declaration, with its key already trimmed and lower-cased: each key
    changes only its own fields, and only when its value parses; `font-family` takes the
    value as it is. Any other key changes nothing.
  */
  function ApplyProperty(st: Engine.Style, key: string, value: string): (r: Engine.Style)
    ensures SameBox(r, st)
    ensures key != "color" ==> r.color == st.color
    ensures key != "background" && key != "background-color" ==> r.background == st.background
    ensures key != "font-size" ==> r.fontSize == st.fontSize
    ensures key != "font-family" ==> r.fontFamily == st.fontFamily
    ensures key != "border" ==> r.borderWidth == st.borderWidth && r.borderColor == st.borderColor
    ensures key == "color" ==> r.color == ParseColor(value).GetOr(st.color)
    ensures key == "background" || key == "background-color" ==>
      r.background == (if ParseColor(value).Some? then ParseColor(value) else st.background)
    ensures key == "font-size" ==> r.fontSize == ParseNumber(TrimEndMatches(value, "px")).GetOr(st.fontSize)
    ensures key == "font-family" ==> r.fontFamily == value
    ensures key == "border" && ParseBorder(value).Some? ==>
      r.borderWidth == ParseBorder(value).value.0 && r.borderColor == Some(ParseBorder(value).value.1)
    ensures key == "border" && ParseBorder(value).None? ==> r == st
  {
    if key == "color" then
      match ParseColor(value)
      case Some(c) => st.(color := c)
      case None => st
    else if key == "background" || key == "background-color" then
      match ParseColor(value)
      case Some(c) => st.(background := Some(c))
      case None => st
    else if key == "font-size" then
      match ParseNumber(TrimEndMatches(value, "px"))
      case Some(px) => st.(fontSize := px)
      case None => st
    else if key == "font-family" then
      st.(fontFamily := value)
    else if key == "border" then
      match ParseBorder(value)
      case Some((w, c)) => st.(borderWidth := w, borderColor := Some(c))
      case None => st
    else st
  }

  /** One `key: value` rule; a rule without a colon is ignored. */
  function ApplyDeclaration(st: Engine.Style, rule: string): (r: Engine.Style)
    ensures SameBox(r, st)
    ensures ':' !in rule ==> r == st
  {
    match SplitOnce(rule, ':')
    case None => st
    case Some((key, value)) => ApplyProperty(st, ToLower(Trim(key)), Trim(value))
  }

  /** The key is everything before the first colon, trimmed and lower-cased; the value is the rest, trimmed. */
  lemma DeclarationParts(st: Engine.Style, key: string, value: string)
    requires ':' !in key
    ensures ApplyDeclaration(st, key + ":" + value) == ApplyProperty(st, ToLower(Trim(key)), Trim(value))
  {
    SplitOnceAt(key, ':', value);
  }

  /** The rules in order, left to right. */
  function ApplyRules(st: Engine.Style, rules: seq<string>): (r: Engine.Style)
    ensures SameBox(r, st)
    decreases |rules|
  {
    if |rules| == 0 then st else ApplyRules(ApplyDeclaration(st, rules[0]), rules[1..])
  }

  lemma {:induction false} ApplyRulesAppend(st: Engine.Style, r1: seq<string>, r2: seq<string>)
    ensures ApplyRules(st, r1 + r2) == ApplyRules(ApplyRules(st, r1), r2)
    decreases |r1|
  {
    if |r1| > 0 {
      assert (r1 + r2)[1..] == r1[1..] + r2;
      ApplyRulesAppend(ApplyDeclaration(st, r1[0]), r1[1..], r2);
    } else {
      assert r1 + r2 == r2;
    }
  }

  /** `apply_inline_styles`: the `;`-separated rules of the attribute, in order. */
  function ApplyInlineStyles(st: Engine.Style, inline: string): (r: Engine.Style)
    ensures SameBox(r, st)
  {
    ApplyRules(st, SplitOn(inline, ';'))
  }

  /** Declarations apply left to right: a text is the declarations of its parts, one after the other. */
  lemma InlineComposes(st: Engine.Style, x: string, y: string)
    ensures ApplyInlineStyles(st, x + ";" + y) == ApplyInlineStyles(ApplyInlineStyles(st, x), y)
  {
    SplitOnAppend(x, ';', y);
    ApplyRulesAppend(st, SplitOn(x, ';'), SplitOn(y, ';'));
  }

  /** A last rule is applied after everything before it. */
  lemma LastRuleApplied(st: Engine.Style, x: string, rule: string)
    requires ';' !in rule
    ensures ApplyInlineStyles(st, x + ";" + rule) == ApplyDeclaration(ApplyInlineStyles(st, x), rule)
  {
    InlineComposes(st, x, rule);
    SplitOnNoSep(rule, ';');
    var before := ApplyInlineStyles(st, x);
    assert ApplyInlineStyles(before, rule) == ApplyRules(before, [rule]);
    assert [rule][1..] == [];
    assert ApplyRules(before, [rule]) == ApplyRules(ApplyDeclaration(before, rule), []);
  }

  /** The last `font-family` declaration wins, with its value trimmed and otherwise verbatim. */
  lemma LastFontFamilyWins(st: Engine.Style, x: string, key: string, family: string)
    requires key == "font-family" && ';' !in family
    ensures ApplyInlineStyles(st, x + ";" + key + ":" + family).fontFamily == Trim(family)
  {
    assert forall i :: 0 <= i < |key| ==> !IsWhitespace(key[i]) && LowerChar(key[i]) == key[i] && key[i] != ':';
    TrimOfTrimmed(key);
    assert ToLower(key) == key;
    var rule := key + ":" + family;
    assert ';' !in rule;
    assert x + ";" + key + ":" + family == x + ";" + rule;
    LastRuleApplied(st, x, rule);
    DeclarationParts(ApplyInlineStyles(st, x), key, family);
  }

  /**
    `compute_style_for_element`: the tag default, then the `style` attribute if there is one.
    Inline rules never change how the element is displayed, nor its margin or padding.
  */
  function ComputeStyleForElement(el: Dom.ElementData): (r: Engine.Style)
    ensures SameBox(r, TagDefault(el.tagName))
    ensures "style" !in el.attrs ==> r == TagDefault(el.tagName)
  {
    var base := TagDefault(el.tagName);
    if "style" in el.attrs then ApplyInlineStyles(base, el.attrs["style"]) else base
  }

  /**
    The `style` attribute is applied on top of the tag default: when it ends with a rule, the
    element's style is the earlier rules' style with that rule applied last.
  */
  lemma StyleAttributeApplied(el: Dom.ElementData, x: string, rule: string)
    requires "style" in el.attrs && el.attrs["style"] == x + ";" + rule && ';' !in rule
    ensures ComputeStyleForElement(el)
         == ApplyDeclaration(ApplyInlineStyles(TagDefault(el.tagName), x), rule)
  {
    LastRuleApplied(TagDefault(el.tagName), x, rule);
  }

  /** A trailing `;` leaves an empty last rule, which changes nothing. */
  lemma TrailingSemicolonIgnored(st: Engine.Style, x: string)
    ensures ApplyInlineStyles(st, x + ";") == ApplyInlineStyles(st, x)
  {
    assert x + ";" == x + ";" + "";
    LastRuleApplied(st, x, "");
  }

  /** A text without `;` is one declaration. */
  lemma SingleRule(st: Engine.Style, rule: string)
    requires ';' !in rule
    ensures ApplyInlineStyles(st, rule) == ApplyDeclaration(st, rule)
  {
    SplitOnNoSep(rule, ';');
    assert ApplyInlineStyles(st, rule) == ApplyRules(st, [rule]);
    assert [rule][1..] == [];
    assert ApplyRules(st, [rule]) == ApplyRules(ApplyDeclaration(st, rule), []);
  }

  /** A `color` declaration sets the colour its trimmed value names, or keeps the old one. */
  lemma ColorDeclaration(st: Engine.Style, value: string)
    ensures ApplyDeclaration(st, "color:" + value).color == ParseColor(Trim(value)).GetOr(st.color)
  {
    var key := "color";
    assert forall i :: 0 <= i < |key| ==> !IsWhitespace(key[i]) && LowerChar(key[i]) == key[i] && key[i] != ':';
    TrimOfTrimmed(key);
    assert ToLower(key) == key;
    assert "color:" + value == key + ":" + value;
    DeclarationParts(st, key, value);
  }

  /**
    An inline `color` declaration as the last rule of the `style` attribute decides the
    element's colour when its value is a colour; otherwise the earlier rules' colour stays.
  */
  lemma InlineColorWins(el: Dom.ElementData, x: string, value: string)
    requires "style" in el.attrs && el.attrs["style"] == x + ";color:" + value && ';' !in value
    ensures var before := ApplyInlineStyles(TagDefault(el.tagName), x);
      ComputeStyleForElement(el).color == ParseColor(Trim(value)).GetOr(before.color)
  {
    var rule := "color:" + value;
    assert ';' !in rule;
    assert x + ";color:" + value == x + ";" + rule;
    StyleAttributeApplied(el, x, rule);
    ColorDeclaration(ApplyInlineStyles(TagDefault(el.tagName), x), value);
  }

  /** `red` is the colour (255, 0, 0), opaque. */
  lemma RedIsNamed()
    ensures ParseColor(Trim("red")) == Some(Color(255, 0, 0, 255))
  {
    var red := "red";
    assert forall i :: 0 <= i < |red| ==> !IsWhitespace(red[i]) && LowerChar(red[i]) == red[i];
    TrimOfTrimmed(red);
    assert ToLower(red) == red;
  }

  /** How the text `color:red;` splits. */
  lemma RedDeclarationText()
    ensures "color:red;" == "color:red" + ";"
    ensures "color:red" == "color:" + "red" && ';' !in "color:red"
  {
  }

  /** The paragraph `<p style="color:red;">` is red. */
  lemma InlineRedParagraph()
    ensures ComputeStyleForElement(Parser.SampleParagraph).color == Color(255, 0, 0, 255)
  {
    var el := Parser.SampleParagraph;
    var base := TagDefault(el.tagName);
    RedDeclarationText();
    TrailingSemicolonIgnored(base, "color:red");
    SingleRule(base, "color:red");
    ColorDeclaration(base, "red");
    RedIsNamed();
  }

  /** The style `compute_styles` gives one node by its kind. */
  function NodeStyle(nt: Dom.NodeType): Engine.Style {
    match nt
    case Element(el) => ComputeStyleForElement(el)
    case Text(_) => DefaultTextStyle()
    case Comment(_) => NoneStyle()
  }

  /**
    Text is inline 16 Arial black with no edges, border or background; a comment has the
    same style but is not displayed; an element is displayed as its tag's default says.
  */
  lemma NodeStyles(nt: Dom.NodeType)
    ensures nt.Text? ==> var st := NodeStyle(nt);
      && st.display == Engine.Inline && st.fontSize == 16.0 && st.fontFamily == "Arial" && st.color == Black
      && st.margin == Engine.Edges(0.0) && st.padding == Engine.Edges(0.0)
      && st.borderColor == None && st.borderWidth == 0.0 && st.background == None
    ensures nt.Comment? ==> NodeStyle(nt) == DefaultTextStyle().(display := Engine.Display.None)
    ensures nt.Element? ==> NodeStyle(nt).display == TagDefault(nt.element.tagName).display
    ensures (NodeStyle(nt).display == Engine.Display.None) <==> nt.Comment?
  {
    if nt.Element? {
      TagDefaults(nt.element.tagName);
    }
  }

  // ---------------------------------------------------------------------
  // The styled tree

  /**
    A ranking of the nodes reachable in the arena: every child ranks below its parent.
    `compute_styles` terminates exactly on nodes whose descendants can be ranked.
  */
  ghost predicate Ranked(a: Dom.Arena, rank: map<Dom.NodeId, nat>) {
    forall i :: i in rank ==>
      i < |a.nodes| && forall c :: c in a.nodes[i].children ==> c in rank && rank[c] < rank[i]
  }

  /**
    `compute_styles`: the node's own kind and style, and its children styled in order.
  */
  function ComputeStyles(a: Dom.Arena, id: Dom.NodeId, ghost rank: map<Dom.NodeId, nat>): (r: StyledNode)
    requires Ranked(a, rank) && id in rank
    ensures r.nodeType == a.nodes[id].nodeType && r.style == NodeStyle(a.nodes[id].nodeType)
    ensures |r.children| == |a.nodes[id].children|
    decreases rank[id], 1
  {
    StyledNode(a.nodes[id].nodeType, NodeStyle(a.nodes[id].nodeType), StyleChildren(a, a.nodes[id].children, rank, rank[id]))
  }

  function StyleChildren(a: Dom.Arena, ids: seq<Dom.NodeId>, ghost rank: map<Dom.NodeId, nat>, ghost bound: nat)
    : (r: seq<StyledNode>)
    requires Ranked(a, rank) && forall c :: c in ids ==> c in rank && rank[c] < bound
    ensures |r| == |ids|
    decreases bound, 0, |ids|
  {
    if |ids| == 0 then [] else [ComputeStyles(a, ids[0], rank)] + StyleChildren(a, ids[1..], rank, bound)
  }

  lemma {:induction false} StyleChildAt(a: Dom.Arena, ids: seq<Dom.NodeId>, rank: map<Dom.NodeId, nat>, bound: nat, k: nat)
    requires Ranked(a, rank) && forall c :: c in ids ==> c in rank && rank[c] < bound
    requires k < |ids|
    ensures StyleChildren(a, ids, rank, bound)[k] == ComputeStyles(a, ids[k], rank)
    decreases k
  {
    assert ids[0] in ids;
    var rest := StyleChildren(a, ids[1..], rank, bound);
    assert StyleChildren(a, ids, rank, bound) == [ComputeStyles(a, ids[0], rank)] + rest;
    if k > 0 {
      assert forall c :: c in ids[1..] ==> c in ids;
      StyleChildAt(a, ids[1..], rank, bound, k - 1);
      assert ids[1..][k - 1] == ids[k];
    }
  }

  /** The styled tree has the document's shape: child `k` is the styled child `k`. */
  lemma ChildrenStyled(a: Dom.Arena, id: Dom.NodeId, rank: map<Dom.NodeId, nat>, k: nat)
    requires Ranked(a, rank) && id in rank && k < |a.nodes[id].children|
    ensures a.nodes[id].children[k] in rank
    ensures ComputeStyles(a, id, rank).children[k] == ComputeStyles(a, a.nodes[id].children[k], rank)
  {
    StyleChildAt(a, a.nodes[id].children, rank, rank[id], k);
  }

  /** The result does not depend on which ranking witnesses termination. */
  lemma {:induction false} RankIrrelevant(a: Dom.Arena, id: Dom.NodeId, r1: map<Dom.NodeId, nat>, r2: map<Dom.NodeId, nat>)
    requires Ranked(a, r1) && Ranked(a, r2) && id in r1 && id in r2
    ensures ComputeStyles(a, id, r1) == ComputeStyles(a, id, r2)
    decreases r1[id], 1
  {
    ChildrenRankIrrelevant(a, a.nodes[id].children, r1, r2, r1[id], r2[id]);
  }

  lemma {:induction false} ChildrenRankIrrelevant(a: Dom.Arena, ids: seq<Dom.NodeId>, r1: map<Dom.NodeId, nat>,
                                                  r2: map<Dom.NodeId, nat>, b1: nat, b2: nat)
    requires Ranked(a, r1) && forall c :: c in ids ==> c in r1 && r1[c] < b1
    requires Ranked(a, r2) && forall c :: c in ids ==> c in r2 && r2[c] < b2
    ensures StyleChildren(a, ids, r1, b1) == StyleChildren(a, ids, r2, b2)
    decreases b1, 0, |ids|
  {
    if |ids| > 0 {
      RankIrrelevant(a, ids[0], r1, r2);
      ChildrenRankIrrelevant(a, ids[1..], r1, r2, b1, b2);
    }
  }

  /** The ranking of an arena whose children precede their parents: each node ranks as its index. */
  function IndexRank(n: nat): (r: map<Dom.NodeId, nat>)
    ensures forall i: Dom.NodeId :: i in r <==> i < n
    ensures forall i :: i in r ==> r[i] == i
  {
    if n == 0 then map[] else IndexRank(n - 1)[n - 1 := n - 1]
  }

  /** Any parsed document can be styled from its root. */
  lemma ParsedDocumentStyles(s: string)
    requires Parser.Parse(s, Dom.Arena([])).Some?
    ensures var st := Parser.Parse(s, Dom.Arena([])).value;
      Ranked(st.arena, IndexRank(|st.arena.nodes|)) && st.value in IndexRank(|st.arena.nodes|)
  {
    var st := Parser.Parse(s, Dom.Arena([])).value;
    Parser.ParseBuildsForest(s);
    ChildrenFirstRanked(st.arena);
  }

  /**
    The document `<div><p style="color:red;">Hi</p></div>` parses, styles from its root, and
    its paragraph, the root's one child, is styled red.
  */
  lemma SampleDocumentStyled()
    ensures Parser.Parse(Parser.SampleDocument, Dom.Arena([])).Some?
    ensures var st := Parser.Parse(Parser.SampleDocument, Dom.Arena([])).value;
      var rank := IndexRank(|st.arena.nodes|);
      && Ranked(st.arena, rank) && st.value in rank
      && |ComputeStyles(st.arena, st.value, rank).children| == 1
      && ComputeStyles(st.arena, st.value, rank).children[0].style.color == Color(255, 0, 0, 255)
  {
    Parser.SampleDocumentParses();
    ParsedDocumentStyles(Parser.SampleDocument);
    var st := Parser.Parse(Parser.SampleDocument, Dom.Arena([])).value;
    var rank := IndexRank(|st.arena.nodes|);
    assert st.arena.nodes[2].children == [1];
    ChildrenStyled(st.arena, st.value, rank, 0);
    assert st.arena.nodes[1].nodeType == Dom.Element(Parser.SampleParagraph);
    InlineRedParagraph();
  }

  /** An arena whose children precede their parents is ranked by node index. */
  lemma ChildrenFirstRanked(a: Dom.Arena)
    requires Parser.ChildrenFirst(a)
    ensures Ranked(a, IndexRank(|a.nodes|))
  {
    var rank := IndexRank(|a.nodes|);
    forall i | i in rank
      ensures i < |a.nodes| && forall c :: c in a.nodes[i].children ==> c in rank && rank[c] < rank[i]
    {
      assert forall c :: c in a.nodes[i].children ==> c < i;
    }
  }

  // ---------------------------------------------------------------------
  // `hex_to_color` as written

  /** What a call does: panic, or return a value. */
  datatype Outcome<T> = Panics | Returns(value: T)

  /** `str::is_char_boundary` on the UTF-8 bytes of the text. */
  predicate CharBoundary(b: seq<Byte>, i: nat)
    requires i <= |b|
  {
    i == |b| || b[i] < 0x80 || b[i] >= 0xC0
  }

  /**
    `hex_to_color` as it stands: the length test counts UTF-8 bytes and `&hex[i..i + 2]`
    slices bytes, which panics when a slice end falls inside a character. The slices are
    taken one pair at a time, so a pair that fails to parse returns before the next slice.
  */
  function HexToColorAsWritten(hex: string): (r: Outcome<Option<Color>>)
    ensures |Utf8.Encode(hex)| != 6 ==> r == Returns(None)
    ensures r.Panics? ==> |Utf8.Encode(hex)| == 6
                          && (!CharBoundary(Utf8.Encode(hex), 2) || !CharBoundary(Utf8.Encode(hex), 4))
    ensures r.Returns? && r.value.Some? ==> r.value.value.a == 255
  {
    var b := Utf8.Encode(hex);
    if |b| != 6 then Returns(None)
    else if !CharBoundary(b, 2) then Panics
    else
      match HexPair(b[0] as char, b[1] as char)
      case None => Returns(None)
      case Some(r) =>
        if !CharBoundary(b, 4) then Panics
        else
          match (HexPair(b[2] as char, b[3] as char), HexPair(b[4] as char, b[5] as char))
          case (Some(g), Some(bl)) => Returns(Some(Color(r, g, bl, 255)))
          case _ => Returns(None)
  }

  /** On ASCII text, where bytes and characters coincide, the two readings agree. */
  lemma HexAsWrittenOnAscii(hex: string)
    requires forall i :: 0 <= i < |hex| ==> hex[i] as int < 0x80
    ensures HexToColorAsWritten(hex) == Returns(HexToColor(hex))
  {
    Utf8.EncodeAscii(hex);
    var b := Utf8.Encode(hex);
    if |hex| == 6 {
      assert forall i :: 0 <= i < 6 ==> b[i] as char == hex[i];
    }
  }

  /** A five-character colour with one two-byte letter panics instead of being rejected. */
  lemma HexAsWrittenPanics(hex: string)
    requires hex == "aé123"
    ensures HexToColorAsWritten(hex) == Panics
    ensures HexToColor(hex) == None
  {
    assert Utf8.EncodeChar('a') == [0x61];
    assert Utf8.EncodeChar('é') == [0xC3, 0xA9];
    assert Utf8.Encode(hex) == [0x61] + ([0xC3, 0xA9] + Utf8.Encode(hex[2..]));
    assert |Utf8.Encode(hex[2..])| == 3 by {
      Utf8.EncodeAscii(hex[2..]);
    }
  }

  /** `parse_color` hands the text after `#` to `hex_to_color` unchanged by lower-casing. */
  lemma PanickingColorReached(value: string)
    requires value == "#aé123"
    ensures value[1..] == "aé123" && ToLower(Trim(value)) == value
  {
    assert forall i :: 0 <= i < |value| ==> !IsWhitespace(value[i]) && LowerChar(value[i]) == value[i];
    TrimOfTrimmed(value);
  }
}

=== FILE: utf8.dfy ===
/**
  UTF-8, as `String::from_utf8` and `str::as_bytes` see it: the encoding of a character
  sequence, and the validating decoder that accepts exactly the well-formed byte sequences
  of table 3-7 in section 3.9 of the Unicode Standard.
*/
module Utf8 {
  import opened Common

  /** Is `b` a continuation byte (`10xxxxxx`) within `lo..hi`? */
  predicate InRange(b: Byte, lo: int, hi: int) {
    lo <= b <= hi
  }

  /** The UTF-8 encoding of one character: one to four bytes. */
  function EncodeChar(c: char): (r: seq<Byte>)
    ensures 1 <= |r| <= 4
    ensures |r| == 1 <==> c as int < 0x80
    ensures |r| == 1 ==> r[0] == c as int
    ensures |r| > 1 ==> r[0] >= 0xC2
  {
    var n := c as int;
    var m := n / 64;
    var k := m / 64;
    if n < 0x80 then [n]
    else if n < 0x800 then [0xC0 + m, 0x80 + n % 64]
    else if n < 0x10000 then [0xE0 + k, 0x80 + m % 64, 0x80 + n % 64]
    else [0xF0 + k / 64, 0x80 + k % 64, 0x80 + m % 64, 0x80 + n % 64]
  }

  /** `str::as_bytes`: the characters' encodings, concatenated. */
  function Encode(s: string): (r: seq<Byte>)
    ensures |r| >= |s|
    ensures |s| > 0 ==> |r| > 0
  {
    if |s| == 0 then [] else EncodeChar(s[0]) + Encode(s[1..])
  }

  /** The character a well-formed sequence starts with, and how many bytes it takes. */
  function DecodeFirst(b: seq<Byte>): (r: Option<(char, nat)>)
    ensures r.Some? ==> 1 <= r.value.1 <= |b| && r.value.1 <= 4
  {
    if |b| == 0 then None
    else
      var b0 := b[0] as int;
      if b0 < 0x80 then Some((b0 as char, 1))
      else if 0xC2 <= b0 <= 0xDF then
        if |b| < 2 || !InRange(b[1], 0x80, 0xBF) then None
        else Some((((b0 - 0xC0) * 64 + (b[1] as int - 0x80)) as char, 2))
      else if 0xE0 <= b0 <= 0xEF then
        var lo := if b0 == 0xE0 then 0xA0 else 0x80;
        var hi := if b0 == 0xED then 0x9F else 0xBF;
        if |b| < 3 || !InRange(b[1], lo, hi) || !InRange(b[2], 0x80, 0xBF) then None
        else Some((((b0 - 0xE0) * 4096 + (b[1] as int - 0x80) * 64 + (b[2] as int - 0x80)) as char, 3))
      else if 0xF0 <= b0 <= 0xF4 then
        var lo := if b0 == 0xF0 then 0x90 else 0x80;
        var hi := if b0 == 0xF4 then 0x8F else 0xBF;
        if |b| < 4 || !InRange(b[1], lo, hi) || !InRange(b[2], 0x80, 0xBF) || !InRange(b[3], 0x80, 0xBF) then None
        else Some((((b0 - 0xF0) * 0x40000 + (b[1] as int - 0x80) * 4096 + (b[2] as int - 0x80) * 64 + (b[3] as int - 0x80)) as char, 4))
      else None
  }

  /** `String::from_utf8`: the characters, or nothing when the bytes are not well formed. */
  function Decode(b: seq<Byte>): (r: Option<string>)
    ensures |b| == 0 ==> r == Some([])
    decreases |b|
  {
    if |b| == 0 then Some([])
    else
      match DecodeFirst(b)
      case None => None
      case Some((c, n)) =>
        match Decode(b[n..])
        case None => None
        case Some(rest) => Some([c] + rest)
  }

  /** Splitting off the low six bits. */
  lemma SixBits(x: int, y: int)
    requires 0 <= y < 64
    ensures (64 * x + y) / 64 == x && (64 * x + y) % 64 == y
  {
  }

  lemma DecodeTwo(c: char, b: seq<Byte>)
    requires 0x80 <= c as int < 0x800 && EncodeChar(c) <= b
    ensures DecodeFirst(b) == Some((c, 2))
  {
    var n := c as int;
    assert b[0] == 0xC0 + n / 64 && b[1] == 0x80 + n % 64;
    assert (b[0] as int - 0xC0) * 64 + (b[1] as int - 0x80) == n;
  }

  lemma DecodeThree(c: char, b: seq<Byte>)
    requires 0x800 <= c as int < 0x10000 && EncodeChar(c) <= b
    ensures DecodeFirst(b) == Some((c, 3))
  {
    var n := c as int;
    var m := n / 64;
    assert b[0] == 0xE0 + m / 64 && b[1] == 0x80 + m % 64 && b[2] == 0x80 + n % 64;
    assert (b[0] as int - 0xE0) * 4096 + (b[1] as int - 0x80) * 64 + (b[2] as int - 0x80) == n;
  }

  lemma DecodeFour(c: char, b: seq<Byte>)
    requires 0x10000 <= c as int && EncodeChar(c) <= b
    ensures DecodeFirst(b) == Some((c, 4))
  {
    var n := c as int;
    var m := n / 64;
    var k := m / 64;
    assert b[0] == 0xF0 + k / 64 && b[1] == 0x80 + k % 64 && b[2] == 0x80 + m % 64 && b[3] == 0x80 + n % 64;
    assert (b[0] as int - 0xF0) * 0x40000 + (b[1] as int - 0x80) * 4096 + (b[2] as int - 0x80) * 64 + (b[3] as int - 0x80) == n;
  }

  /** The decoder reads back the first character of any encoding, and nothing more. */
  lemma DecodeEncodeChar(c: char, rest: seq<Byte>)
    ensures DecodeFirst(EncodeChar(c) + rest) == Some((c, |EncodeChar(c)|))
  {
    var n := c as int;
    var b := EncodeChar(c) + rest;
    assert EncodeChar(c) <= b;
    if n < 0x80 {
      assert b[0] == n;
    } else if n < 0x800 {
      DecodeTwo(c, b);
    } else if n < 0x10000 {
      DecodeThree(c, b);
    } else {
      DecodeFour(c, b);
    }
  }

  /** Every string's encoding is well formed and decodes to the string. */
  lemma {:induction false} DecodeEncode(s: string)
    ensures Decode(Encode(s)) == Some(s)
    decreases |s|
  {
    if |s| > 0 {
      var e := EncodeChar(s[0]);
      var b := Encode(s);
      DecodeEncodeChar(s[0], Encode(s[1..]));
      assert b[|e|..] == Encode(s[1..]);
      DecodeEncode(s[1..]);
      assert [s[0]] + s[1..] == s;
    }
  }

  lemma EncodeTwo(b: seq<Byte>)
    requires |b| >= 2 && 0xC2 <= b[0] <= 0xDF && InRange(b[1], 0x80, 0xBF)
    ensures var c := ((b[0] as int - 0xC0) * 64 + (b[1] as int - 0x80)) as char;
      EncodeChar(c) == b[..2]
  {
    SixBits(b[0] as int - 0xC0, b[1] as int - 0x80);
  }

  lemma EncodeThree(b: seq<Byte>, c: char)
    requires |b| >= 3 && 0xE0 <= b[0] <= 0xEF && InRange(b[1], 0x80, 0xBF) && InRange(b[2], 0x80, 0xBF)
    requires c as int == (b[0] as int - 0xE0) * 4096 + (b[1] as int - 0x80) * 64 + (b[2] as int - 0x80)
    requires c as int >= 0x800
    ensures EncodeChar(c) == b[..3]
  {
    var m := (b[0] as int - 0xE0) * 64 + (b[1] as int - 0x80);
    SixBits(m, b[2] as int - 0x80);
    SixBits(b[0] as int - 0xE0, b[1] as int - 0x80);
  }

  lemma EncodeFour(b: seq<Byte>, c: char)
    requires |b| >= 4 && 0xF0 <= b[0] <= 0xF4
    requires InRange(b[1], 0x80, 0xBF) && InRange(b[2], 0x80, 0xBF) && InRange(b[3], 0x80, 0xBF)
    requires c as int == (b[0] as int - 0xF0) * 0x40000 + (b[1] as int - 0x80) * 4096
                         + (b[2] as int - 0x80) * 64 + (b[3] as int - 0x80)
    requires c as int >= 0x10000
    ensures EncodeChar(c) == b[..4]
  {
    var k := (b[0] as int - 0xF0) * 64 + (b[1] as int - 0x80);
    var m := k * 64 + (b[2] as int - 0x80);
    SixBits(m, b[3] as int - 0x80);
    SixBits(k, b[2] as int - 0x80);
    SixBits(b[0] as int - 0xF0, b[1] as int - 0x80);
  }

  /** The first character decoded, encoded again, is exactly the bytes it was read from. */
  lemma EncodeDecodeFirst(b: seq<Byte>)
    requires DecodeFirst(b).Some?
    ensures var (c, n) := DecodeFirst(b).value; EncodeChar(c) == b[..n]
  {
    var (c, len) := DecodeFirst(b).value;
    var b0 := b[0] as int;
    if b0 < 0x80 {
    } else if b0 <= 0xDF {
      EncodeTwo(b);
    } else if b0 <= 0xEF {
      EncodeThree(b, c);
    } else {
      EncodeFour(b, c);
    }
  }

  /** A decode that succeeds is the first character followed by the decode of the rest. */
  lemma DecodeStep(b: seq<Byte>)
    requires |b| > 0 && Decode(b).Some?
    ensures DecodeFirst(b).Some? && Decode(b[DecodeFirst(b).value.1..]).Some?
    ensures Decode(b).value == [DecodeFirst(b).value.0] + Decode(b[DecodeFirst(b).value.1..]).value
  {
  }

  /** Encoding a string is encoding its first character and then the rest. */
  lemma EncodeCons(c: char, s: string)
    ensures Encode([c] + s) == EncodeChar(c) + Encode(s)
  {
    assert ([c] + s)[0] == c && ([c] + s)[1..] == s;
  }

  /** Cutting a sequence at `n` and joining the halves gives it back. */
  lemma TakeDrop(b: seq<Byte>, n: nat)
    requires n <= |b|
    ensures b[..n] + b[n..] == b
  {
  }

  /** Decoding loses nothing: a successful decode re-encodes to the input bytes. */
  lemma {:induction false} EncodeDecode(b: seq<Byte>)
    requires Decode(b).Some?
    ensures Encode(Decode(b).value) == b
    decreases |b|
  {
    if |b| > 0 {
      DecodeStep(b);
      var c, n := DecodeFirst(b).value.0, DecodeFirst(b).value.1;
      var rest := Decode(b[n..]).value;
      calc {
        Encode(Decode(b).value);
        Encode([c] + rest);
        { EncodeCons(c, rest); }
        EncodeChar(c) + Encode(rest);
        { EncodeDecodeFirst(b); EncodeDecode(b[n..]); }
        b[..n] + b[n..];
        { TakeDrop(b, n); }
        b;
      }
    }
  }

  /** An ASCII string encodes one byte per character, each its code. */
  lemma {:induction false} EncodeAscii(s: string)
    requires forall i :: 0 <= i < |s| ==> s[i] as int < 0x80
    ensures |Encode(s)| == |s|
    ensures forall i :: 0 <= i < |s| ==> Encode(s)[i] == s[i] as int
    decreases |s|
  {
    if |s| > 0 {
      EncodeAscii(s[1..]);
    }
  }
}
